=== FILE: README.md ===
# AnchorPlot access control and listing rules, in Dafny

AnchorPlot is a marketplace for real estate development deals. Owners list
anonymised properties, developers pitch on them, investors fund projects, and
attorneys, realtors and property managers take part through their own pages.
This project models the parts of its web front end that decide who may see
and do what, and the small computations its pages perform on stored
documents. It proves properties of those models.

The model covers:

- **Access control.**
  - `Permissions`: the seven roles, the action-to-roles matrix with its admin
    override (`hasPermission`), the role-filtered navigation table, the
    sidebar section labels and the extra signup fields each role asks for.
  - `Layout`: the sidebar's role fallback, the grouping of links into
    sections (proved order-preserving and loss-free), the headings and the
    admin-only console link.
  - `RouteGuard`: what a protected page renders for a session and profile.
  - `Profiles`: the approval state of a profile.
  - `Auth`: the profile written at signup, the profile published by the auth
    listener (with its "missing status means approved" backfill and its two
    fallbacks), and the permission check bound to the current profile.
  - `AdminConsole`: the approve/reject lifecycle, the user filters, the tab
    counts and the header statistics.
  - `UserMaintenance`: the one-off backfill that marks profiles without a
    status as pending, including what a failed read or write leaves behind,
    plus the approve and make-admin helpers.
  - `Onboarding`: lemmas that follow a profile from signup through the
    guard.
- **Forms.**
  - `Signup`: the ordered checks and the extra fields per role.
  - `Login`: the empty-field check.
  - `Messages`: the first-match translation of error messages.
  - `CreateListing`: the listing wizard's form edits, step navigation and
    submitted record.
  - `PropertyDetail`: the disclosure stepper, the owner check and the pitch
    record.
- **Page computations.**
  - `Dashboard`, `DealRoom`, `ProjectWorkspace`, `PropertyManagement`,
    `AffordableHousing`, `InvestorPortfolio`, `RealtorManagement`,
    `AttorneyMarketplace` and `ComplianceGateway`: which documents each page
    queries, the defaults it fills in, and its filters, counts and totals.
- **Support modules.** `Records` (JavaScript objects, `||` defaults,
  truthiness), `Seqs` (filter, map, sums, distinct) and `Text` (trim,
  ASCII lower case, substring search, splitting).

Database reads and writes are replaced by their outcomes. A query is a
filter over a sequence of stored documents; `None` stands for a failed
fetch. Server timestamps and the clock are passed in as parameters.

Several facts that cut across files are proved:

- **The two status backfills disagree.** The auth listener treats a profile
  without an `approvalStatus` as approved and admits it. The maintenance
  script marks the same profile pending, and the guard then holds it back
  (`Onboarding.BackfillsDisagree`).
- **The wizard and the management page use different owner fields.** A
  listing created through the wizard records its owner under `ownerId`. The
  property management page looks owners up by `ownerUid`, so the owner never
  sees that listing there (`PropertyManagement.NewListingNotManagedByItsOwner`).
- **Two spellings of "in progress".** The project workspace writes and
  recognises `in-progress`, and the deal room recognises only `in_progress`
  (`DealRoom.InProgressSpellingsDiffer`).
- **Pitch status.** The pitch page asks for status `pending`, but
  `createPitch` overwrites it with `submitted` (`PropertyDetail.StoredPitch`).
- **Carried equity is not capped.** The realtor page promises at most 1%
  carried equity, but shows whatever the ledger holds
  (`RealtorManagement.CarriedEquityIsNotCapped`).
- **The dashboard badge names only four roles.** Realtors, attorneys and
  property managers are labelled "User" (`Dashboard.RoleLabelSpec`).
- **The deal-room link is narrower than the permission.** It is withheld
  from attorneys and realtors, although the matrix lets both view projects
  (`Permissions.NavigationAgreesWithPermissions`).
- **The workspace fallbacks rarely show.** The fallback ledger and
  milestones show only when the project has no truthy `equityLedger` or
  `milestones` field. An empty list is truthy, and both the stand-in for a
  missing document and every project `createProject` writes
  (frontend/src/services/firestoreService.js:114-126) hold empty lists. So
  the fallbacks show when the load itself fails, or
  for a project document written without those fields by something other
  than `createProject` (`ProjectWorkspace.WhenFallbackLedgerShows`,
  `ProjectWorkspace.ChipsOfFallbacks`).

## Model

| member | source | states |
|---|---|---|
| Permissions.ParseRole | frontend/src/services/permissions.js:6-14 | a parsed role string is exactly that role's stored key |
| Permissions.RoleKeyRoundTrip | frontend/src/services/permissions.js:6-14 | every role's stored key parses back to the same role, so keys and roles correspond one to one |
| Permissions.UnknownRoleIsNoKey | frontend/src/services/permissions.js:6-14 | a string that parses to no role is the key of no role |
| Permissions.RoleListedIff | frontend/src/services/permissions.js:116 | `roles.includes(role)` holds exactly when some listed role has that key |
| Permissions.HasPermission | frontend/src/services/permissions.js:112-117 | admin is granted everything; an action missing from the matrix is denied to every other role; otherwise a role is granted exactly when it is listed in the action's row |
| Permissions.UnknownRoleDenied | frontend/src/services/permissions.js:112-117 | a string naming no role is denied every action, listed in the matrix or not |
| Permissions.PermissionScenarios | frontend/src/services/permissions.js:39-117 | only owners (and admin) may create listings and only attorneys (and admin) may edit an attorney profile |
| Permissions.UnknownActionScenarios | frontend/src/services/permissions.js:112-117 | admin passes even an action the matrix does not know, which an owner fails |
| Permissions.RoleListedKey | frontend/src/services/permissions.js:116 | for a known role, `includes` on its key is list membership of the role |
| Permissions.HasPermissionOfRole | frontend/src/services/permissions.js:112-117 | for a known role, the check is "admin, or listed in the action's row" |
| Permissions.NavigationMembership | frontend/src/services/permissions.js:137-141 | a link is in a role's navigation exactly when it is open to all, the role is admin, or the role is in the link's audience |
| Permissions.NavigationIsVisibleSubsequence | frontend/src/services/permissions.js:122-142 | the navigation keeps the table's order and holds exactly the visible links |
| Permissions.NavVisibleOfRole | frontend/src/services/permissions.js:137-141 | for a known role, a gated link is visible exactly when the role is admin or in its audience |
| Permissions.AdminSeesAllNavigation | frontend/src/services/permissions.js:122-142 | admin is shown all eleven links, in table order |
| Permissions.EveryoneLinksAlwaysShown | frontend/src/services/permissions.js:123-141 | any role string, known or not, sees the dashboard and the marketplace first |
| Permissions.UnknownRoleNavigation | frontend/src/services/permissions.js:122-142 | a role string naming no role sees the dashboard and the marketplace and nothing else |
| Permissions.NavigationScenarios | frontend/src/services/permissions.js:123-135 | investors get the portfolio but not referrals; realtors get referrals but not listing creation |
| Permissions.NavigationAgreesWithPermissions | frontend/src/services/permissions.js:39-142 | a gated link is visible to a role exactly when the role holds the link's action, except that the deal room link is also withheld from attorneys and realtors |
| Permissions.EveryNavSectionHasHeading | frontend/src/services/permissions.js:123-152 | every section the navigation table uses has a heading in `NAV_SECTIONS` |
| Layout.SidebarRole | frontend/src/components/Layout.jsx:23 | the sidebar uses the profile's role when it is non-empty text and `investor` when the role is missing or falsy |
| Layout.GroupKeys | frontend/src/components/Layout.jsx:26-32 | sections appear in the first-seen order of their keys, each key once |
| Layout.GroupBuckets | frontend/src/components/Layout.jsx:26-32 | each section holds exactly the items with its key, in their original order |
| Layout.GroupKeepsEveryItem | frontend/src/components/Layout.jsx:26-32 | the sections together hold the same items as the input, none lost or duplicated |
| Layout.GroupOfSortedIsIdentity | frontend/src/components/Layout.jsx:26-32 | when items arrive with each key's items contiguous, reading the sections in order gives back the input |
| Layout.NavTableSortedBySection | frontend/src/services/permissions.js:123-135 | the navigation table lists each section's links together |
| Layout.SidebarShowsNavigation | frontend/src/components/Layout.jsx:23-32 | the sidebar shows a role's navigation exactly: read section by section it is the navigation list, and the headings follow the first-seen order |
| Layout.GroupIntoSections | frontend/src/components/Layout.jsx:27-32 | the `forEach` loop builds the grouping, and the grouping keeps every link |
| Layout.SectionHeading | frontend/src/components/Layout.jsx:61 | a section is headed by its label when it has a non-empty one, and by its raw key otherwise |
| Layout.SectionKeyHasHeading | frontend/src/components/Layout.jsx:29 | every link's section key has a non-empty label |
| Layout.SidebarHeadingsAreLabels | frontend/src/components/Layout.jsx:58-62 | no sidebar section is ever headed by a raw key |
| Layout.AdminLinkOnlyForAdmins | frontend/src/components/Layout.jsx:87 | the console link appears exactly for a stored role of `admin`, and that profile's sidebar is computed for admin |
| RouteGuard.PrivateRoute | frontend/src/App.jsx:49-67 | the session checks come first: loading shows the spinner, signed out goes to login, a missing profile shows the spinner, and a page is shown only for a loaded profile |
| RouteGuard.NonAdminRoutedByApproval | frontend/src/App.jsx:56-66 | a loaded non-admin goes to the waiting page exactly when pending, to login exactly when rejected, and is admitted otherwise (approved, missing or unknown status) |
| RouteGuard.AdminAlwaysAdmitted | frontend/src/App.jsx:56-66 | an admin is admitted whatever its approval state |
| RouteGuard.AdmittedIff | frontend/src/App.jsx:49-67 | the guard admits exactly the loaded sessions whose profile is admin or neither pending nor rejected |
| Profiles.ApprovalOf | frontend/src/App.jsx:56-60 | a profile is in a known approval state exactly when its `approvalStatus` is that state's text |
| Profiles.ApprovalOfSet | frontend/src/pages/Admin.jsx:76-80 | writing a state's text into `approvalStatus` puts the profile in that state |
| Auth.BoundHasPermission | frontend/src/contexts/AuthContext.jsx:22-25 | no profile or a falsy role is denied everything; a non-empty text role gets the matrix answer for that role |
| Auth.BoundHasPermissionOfRole | frontend/src/contexts/AuthContext.jsx:22-25 | for a profile with a known role, the bound check is "admin, or listed in the action's row" |
| Auth.SignedOutDenied | frontend/src/contexts/AuthContext.jsx:23 | signed out, every action is denied |
| Auth.SignupProfile | frontend/src/contexts/AuthContext.jsx:35-45 | the signup profile is pending approval and pending KYC, and holds the chosen role, the uid, the account's email, the name entered and the signup time as both timestamps, unless an extra field overrides one of them; the extra fields always win |
| Auth.Backfill | frontend/src/contexts/AuthContext.jsx:91-103 | a loaded profile without a truthy status is treated as approved; any other profile is left untouched |
| Auth.BackfillIdempotent | frontend/src/contexts/AuthContext.jsx:91-103 | backfilling twice is the same as backfilling once |
| Auth.CreatedProfile | frontend/src/contexts/AuthContext.jsx:112-123 | the document created at first sign-in is a pending investor with pending KYC, named by the display name or `User` |
| Auth.FallbackProfile | frontend/src/contexts/AuthContext.jsx:133-147 | the profile used when the database fails holds only uid, email and the investor role, with no approval state |
| Auth.ProfileAfterAuthChange | frontend/src/contexts/AuthContext.jsx:79-151 | signed out gives no profile; a found document is published backfilled; a failed read or failed create publishes the fallback; a created document read back is published; a created document not read back leaves the previous profile |
| Auth.BackfillWriteIrrelevant | frontend/src/contexts/AuthContext.jsx:92-103 | whether the write-back of the status succeeds does not change the published profile |
| AdminConsole.OfferedActions | frontend/src/pages/Admin.jsx:350-386 | a row offers no action unless the user is pending or rejected |
| AdminConsole.UnlabelledUserHasNoActions | frontend/src/pages/Admin.jsx:338-386 | a user without a status is badged `pending` yet offered no action |
| AdminConsole.ApproveUser | frontend/src/pages/Admin.jsx:76-80 | approving leaves the user approved with both timestamps set, and nothing else changes |
| AdminConsole.ReasonOrDefault | frontend/src/pages/Admin.jsx:93-100 | the stored reason is the typed one when non-empty, and never empty |
| AdminConsole.RejectUser | frontend/src/pages/Admin.jsx:93-102 | rejecting leaves the user rejected with a reason (`Not specified` when the prompt is cancelled or left empty), and nothing else changes |
| AdminConsole.OfferedActionsFollowLifecycle | frontend/src/pages/Admin.jsx:350-386 | the buttons on a row reach exactly the lifecycle's next states: pending to approved or rejected, rejected to approved |
| AdminConsole.FilteredUsersSpec | frontend/src/pages/Admin.jsx:114-128 | the shown users are the users, in order, that match both the search and the tab |
| AdminConsole.TabsSelectByStatus | frontend/src/pages/Admin.jsx:120-125 | a status tab selects exactly the users in that state, and every other tab selects everyone |
| AdminConsole.SearchNeedsATextField | frontend/src/pages/Admin.jsx:115-118 | a user with no text email, name or role never matches, even the empty search; a text email matches the empty search |
| AdminConsole.ConsoleStats | frontend/src/pages/Admin.jsx:55-64 | the totals count all users, the pending users among them, and exactly the properties whose status is `approved` as active listings |
| AdminConsole.ActiveListingsStep | frontend/src/pages/Admin.jsx:55-64 | one more property raises the active listings by one exactly when it is approved, and leaves the user figures alone |
| AdminConsole.SubmittedListingNotActive | frontend/src/pages/Admin.jsx:57 | a listing fresh from the wizard is pending and never counts as an active listing |
| AdminConsole.TabCountsWithinAll | frontend/src/pages/Admin.jsx:270-273 | the three status counts never add up to more than the All tab |
| AdminConsole.TabCountIsTabSize | frontend/src/pages/Admin.jsx:270-273 | with an empty search, a state's tab lists as many users as its badge count |
| AdminConsole.ConsoleMatchesAdminLink | frontend/src/pages/Admin.jsx:30-35 | the console keeps exactly the loaded profiles that the sidebar offers its link to, that is, admins |
| UserMaintenance.BackfillOne | frontend/src/services/updateExistingUsers.js:19-27 | a profile without a truthy status becomes pending with a fresh timestamp and is otherwise unchanged; other profiles are left alone; afterwards no profile lacks a status |
| UserMaintenance.BackfillAll | frontend/src/services/updateExistingUsers.js:16-28 | the profiles after the script correspond one for one to the profiles before it |
| UserMaintenance.UpdateExistingUsers | frontend/src/services/updateExistingUsers.js:9-36 | a failed read writes nothing and reports the error; with every write succeeding, exactly the profiles lacking a status are rewritten and the count is their number; a failed write leaves the profiles before it rewritten and the rest untouched, and reports the error without a count |
| UserMaintenance.WriteMissing | frontend/src/services/updateExistingUsers.js:16-28 | the loop stops exactly at the first failing write, or after the last profile, and counts the writes that went through |
| UserMaintenance.RerunCompletes | frontend/src/services/updateExistingUsers.js:16-31 | running the script again after a failed write leaves the rewritten profiles alone, backfills the rest, and counts only the rest |
| UserMaintenance.BackfillIdempotent | frontend/src/services/updateExistingUsers.js:16-28 | after one run no profile lacks a status, so a second run changes nothing |
| UserMaintenance.ApproveUser | frontend/src/services/updateExistingUsers.js:39-51 | the helper approves with a timestamp and, unlike the console, leaves `updatedAt` alone |
| UserMaintenance.MakeUserAdmin | frontend/src/services/updateExistingUsers.js:54-68 | the promoted profile is an approved, KYC-verified admin, and nothing else changes |
| Onboarding.SignupProfileAwaitsApproval | frontend/src/contexts/AuthContext.jsx:35-45 | a non-admin signup profile whose extras leave status and role alone is sent to the waiting page |
| Onboarding.SignupAwaitsApproval | frontend/src/pages/Signup.jsx:47-66 | whatever role and extras a form that passes the checks carries, the profile it creates is sent to the waiting page |
| Onboarding.CreatedProfileAwaitsApproval | frontend/src/contexts/AuthContext.jsx:112-123 | the document created at first sign-in waits for approval |
| Onboarding.FallbackProfileIsAdmitted | frontend/src/contexts/AuthContext.jsx:140-147 | the minimal profile used when the database is down has no status and is admitted |
| Onboarding.BackfillsDisagree | frontend/src/services/updateExistingUsers.js:19-24 | for a non-admin without a status, the auth listener's backfill admits the profile, while the maintenance script's backfill holds it on the waiting page |
| Onboarding.ConsoleDecisionsReachTheGuard | frontend/src/pages/Admin.jsx:73-112 | after approval the guard admits the user; after rejection a non-admin is sent to login |
| Onboarding.PromotedAdminHasEverything | frontend/src/services/updateExistingUsers.js:54-68 | a promoted profile passes the guard, holds every permission and is kept by the console |
| Signup.RoleFields | frontend/src/pages/Signup.jsx:45 | a role's extra fields are its table entry, and none for a role without one |
| Signup.RolesWithoutExtraFields | frontend/src/services/permissions.js:157-183 | owners, and roles outside the signup list, have no extra fields |
| Signup.AdminCannotSignUp | frontend/src/pages/Signup.jsx:7-14 | admin is not among the roles offered at signup |
| Signup.FirstMissing | frontend/src/pages/Signup.jsx:55-60 | the index found is the first required field left empty, or -1 when none is |
| Signup.Validate | frontend/src/pages/Signup.jsx:47-66 | a form is submitted exactly when name and email are non-blank, the password has at least six characters, the terms are accepted and every required extra field is filled; it is submitted with email and name trimmed |
| Signup.FieldMessageIsDistinct | frontend/src/pages/Signup.jsx:49-58 | an extra field's message cannot be confused with the four fixed messages |
| Signup.ValidationOrder | frontend/src/pages/Signup.jsx:49-52 | each fixed message is reported exactly when its check is the first to fail |
| Signup.ReportsFirstMissingField | frontend/src/pages/Signup.jsx:55-60 | once the fixed checks pass, the first required field left empty is the one named |
| Signup.BlankNameOrEmailRefused | frontend/src/pages/Signup.jsx:49-50 | a name, or else an email, of white space only is refused with its message |
| Signup.SelectRole | frontend/src/pages/Signup.jsx:155 | choosing a role clears the extra fields and keeps the rest of the form |
| Signup.EditField | frontend/src/pages/Signup.jsx:41-43 | editing an extra field sets that one field and keeps the others |
| Signup.ExtrasStayWithRole | frontend/src/pages/Signup.jsx:41-45 | starting fresh, choosing a role and editing that role's fields keeps the extras within the role's own fields |
| Signup.ExtraDoc | frontend/src/contexts/AuthContext.jsx:44 | the stored extras have exactly the form's keys |
| Signup.RoleFieldKeysAreNotReserved | frontend/src/services/permissions.js:157-183 | no role's extra field reuses a key that the profile itself sets |
| Signup.ExtrasAreNotReserved | frontend/src/contexts/AuthContext.jsx:35-45 | extras of the selected role can never override the status or the role |
| Signup.AuthErrorDetail | frontend/src/pages/Signup.jsx:37 | the quoted code is non-empty and stops before the first `)` |
| Signup.SignupErrorPriority | frontend/src/pages/Signup.jsx:30-39 | the first matching rule decides the message; failing all of them, an `auth/` code is quoted, and otherwise the generic text is shown |
| Messages.FirstFiring | frontend/src/pages/Login.jsx:16-23 | the rule chosen is the first one whose key occurs in the message, or -1 when none occurs |
| Messages.TranslatePriority | frontend/src/pages/Login.jsx:16-23 | a rule decides the message exactly when it fires and no earlier rule does; otherwise the fallback is shown |
| Login.ValidateLogin | frontend/src/pages/Login.jsx:25-34 | an attempt is made exactly when neither field is blank, with the email trimmed and the password as typed |
| Login.LoginTrimsTheEmail | frontend/src/pages/Login.jsx:27-34 | spaces around the email are dropped before the sign-in attempt |
| Login.LoginKeepsPasswordSpaces | frontend/src/pages/Login.jsx:27-34 | the password keeps its spaces, and a password of spaces alone is refused |
| Login.LoginErrorPriority | frontend/src/pages/Login.jsx:16-23 | an unknown account or a bad credential wins over every later rule; failing all rules, the generic text is shown |
| Login.LoginRulePriority | frontend/src/pages/Login.jsx:16-23 | the first rule that fires decides the message |
| CreateListing.Update | frontend/src/pages/CreateListing.jsx:79 | an edit sets one field and keeps every other |
| CreateListing.Toggle | frontend/src/pages/CreateListing.jsx:80-87 | toggling removes every copy of a present value, keeping the rest in order, and appends an absent one |
| CreateListing.ToggleTwice | frontend/src/pages/CreateListing.jsx:80-87 | toggling an absent value twice gives the list back; toggling a present value twice moves it to the end, once |
| CreateListing.ToggleArray | frontend/src/pages/CreateListing.jsx:80-87 | the toggle touches only its own list field |
| CreateListing.InitialFormShape | frontend/src/pages/CreateListing.jsx:38-77 | the wizard opens blank: every field but condition `fair` and timeline `12-18 months` is empty text, an empty list or off, and the only list fields are the outcomes and overlays the toggles act on |
| CreateListing.CanAdvance | frontend/src/pages/CreateListing.jsx:110-115 | Next needs the city, state and full address on step 0, a zoning district on step 1 and a target outcome on step 2, and is free later; its consequences are stated by `BlankFormCannotAdvance`, `AdvanceAfterEdits` and `StepAfter` |
| CreateListing.BlankFormCannotAdvance | frontend/src/pages/CreateListing.jsx:38-115 | the blank form cannot leave any of the three checked steps |
| CreateListing.AdvanceAfterEdits | frontend/src/pages/CreateListing.jsx:110-115 | filling city, state and address opens step 0 whatever else the form holds, and choosing an outcome opens step 2 |
| CreateListing.StepAfter | frontend/src/pages/CreateListing.jsx:484-489 | the step stays in range; it moves forward only by Next, by one, and only when the step may advance; a click on the stepper never moves forward |
| CreateListing.RunStaysInRange | frontend/src/pages/CreateListing.jsx:484-489 | any sequence of clicks keeps the step in range, and a step that may not advance is never passed |
| CreateListing.RunNeverPasses | frontend/src/pages/CreateListing.jsx:484-489 | starting at or below a step that may not advance, no sequence of clicks goes past it |
| CreateListing.SubmittedListing | frontend/src/pages/CreateListing.jsx:93-101 | the submitted record is the form plus the owner, status `pending`, stage `browse` and zero counters, with the owner's name or `Owner` |
| CreateListing.CreateProperty | frontend/src/services/firestoreService.js:38-47 | the stored property keeps a truthy status or gets `pending_review`, starts with no views and no pitches, and is otherwise the data |
| CreateListing.StoredListing | frontend/src/pages/CreateListing.jsx:93-101 | whatever the form holds, the stored listing is pending, at the first stage, and owned by the submitting user |
| PropertyDetail.StageTableIsComplete | frontend/src/pages/PropertyDetail.jsx:10-18 | the table lists all seven stages exactly once, under distinct keys |
| PropertyDetail.StageIndex | frontend/src/pages/PropertyDetail.jsx:74 | the index is the position of the listing's stage, and -1 exactly when no stage has that key |
| PropertyDetail.MissingStageIsBrowse | frontend/src/pages/PropertyDetail.jsx:74 | a missing or empty stage reads as the first stage |
| PropertyDetail.OneActivePosition | frontend/src/pages/PropertyDetail.jsx:110-113 | exactly the current position is active when it lies on the stepper, and none otherwise |
| PropertyDetail.StepperMarks | frontend/src/pages/PropertyDetail.jsx:110-113 | for a known stage, one stage is active and exactly the earlier ones are complete; for an unknown stage none is either |
| PropertyDetail.OwnerCheck | frontend/src/pages/PropertyDetail.jsx:75 | an owner viewing their own listing is its owner; any other role, or no profile, never is |
| PropertyDetail.IsOwner | frontend/src/pages/PropertyDetail.jsx:75 | the viewer is the owner exactly when their role is `owner` and the listing's owner id is their uid; `OwnerCheck` states who is and who never is |
| PropertyDetail.NewListingStartsAtBrowse | frontend/src/pages/PropertyDetail.jsx:74 | a listing just created by the wizard opens at the first stage |
| PropertyDetail.PitchGuard | frontend/src/pages/PropertyDetail.jsx:302 | a submission in flight or an empty proposal blocks the button, but a proposal of one space does not |
| PropertyDetail.PitchSubmitEnabled | frontend/src/pages/PropertyDetail.jsx:302 | the submit button is enabled only when nothing is in flight and the proposal is non-empty; `PitchGuard` states both blocking cases and the white-space gap |
| PropertyDetail.CreatePitch | frontend/src/services/firestoreService.js:84-91 | a stored pitch is `submitted` and is otherwise the data |
| PropertyDetail.StoredPitch | frontend/src/pages/PropertyDetail.jsx:47-53 | the page asks for status `pending`, but the stored pitch is `submitted`; it keeps the proposal and the listing id, the developer id is the viewer's uid, and the developer name is the viewer's name or `Developer` |
| PropertyDetail.PitchRecord | frontend/src/pages/PropertyDetail.jsx:47-53 | the record the page hands over: listing id, developer id and name, the form fields, then status `pending` written last; `StoredPitch` states what is stored from it |
| ProjectWorkspace.ProjectAfterLoad | frontend/src/pages/ProjectWorkspace.jsx:38-50 | a failed load leaves no project; a missing document is replaced by the stand-in; a found document is used as is |
| ProjectWorkspace.FallbackProject | frontend/src/pages/ProjectWorkspace.jsx:42-45 | the stand-in for a missing document: named `Project`, active, in planning, with empty milestones and ledger and zero budgets; `ProjectAfterLoad` and `ChipsOfFallbacks` state when and how it shows |
| ProjectWorkspace.FallbackLedgerShares | frontend/src/pages/ProjectWorkspace.jsx:77-82 | the fallback ledger gives out exactly 100 percent, the realtor 1 percent, and only owner and developer are vested |
| ProjectWorkspace.WhenFallbackLedgerShows | frontend/src/pages/ProjectWorkspace.jsx:77-82 | the fallback ledger replaces only a missing or falsy ledger; an empty one is shown empty, so the stand-in project shows no ledger |
| ProjectWorkspace.EquityData | frontend/src/pages/ProjectWorkspace.jsx:77-82 | the project's ledger when it is truthy, else the fallback ledger; `WhenFallbackLedgerShows` and `FallbackLedgerShares` state when the fallback shows and what it gives out |
| ProjectWorkspace.Milestones | frontend/src/pages/ProjectWorkspace.jsx:84-87 | a stored milestone list is used as is, and a missing one is replaced by the fallback |
| ProjectWorkspace.FallbackMilestonesShape | frontend/src/pages/ProjectWorkspace.jsx:84-87 | one fallback milestone per phase, in phase order, the first in progress and the rest pending |
| ProjectWorkspace.CompletedCount | frontend/src/pages/ProjectWorkspace.jsx:141 | the completed count never exceeds the number of milestones |
| ProjectWorkspace.CompletedCountMeaning | frontend/src/pages/ProjectWorkspace.jsx:141 | the stat reads total of total exactly when all milestones are completed, and zero exactly when none is; the fallbacks read zero |
| ProjectWorkspace.TeamSize | frontend/src/pages/ProjectWorkspace.jsx:142 | the team is the investors plus two, and two when no investors are stored |
| ProjectWorkspace.TeamGrowsWithInvestors | frontend/src/pages/ProjectWorkspace.jsx:142 | adding an investor grows the team by one |
| ProjectWorkspace.PhaseChip | frontend/src/pages/ProjectWorkspace.jsx:156-165 | a phase chip is done exactly for a completed milestone, current exactly for one in progress, and neutral past the end of the list |
| ProjectWorkspace.ChipsOfFallbacks | frontend/src/pages/ProjectWorkspace.jsx:156-165 | with the fallback milestones only the first chip is current, and the stand-in project shows all chips neutral |
| ProjectWorkspace.MessageToSend | frontend/src/pages/ProjectWorkspace.jsx:58-67 | nothing is sent exactly when the text is blank; otherwise the text goes out as typed, signed with the sender's id and name (or `User`) |
| ProjectWorkspace.MessageGuard | frontend/src/pages/ProjectWorkspace.jsx:58-67 | white space alone sends nothing, and a sent message keeps its surrounding spaces |
| DealRoom.RoomFor | frontend/src/pages/DealRoom.jsx:15-48 | the page waits exactly while there is no profile, and then shows projects from the collection in collection order |
| DealRoom.RoomShowsOwnProjects | frontend/src/pages/DealRoom.jsx:19-35 | owners see exactly the projects they own, developers those they develop, investors those they invest in, and every other role all projects |
| DealRoom.MissingUidSeesNothing | frontend/src/pages/DealRoom.jsx:20-25 | an owner, developer or investor without a uid sees no projects |
| DealRoom.ActiveProject | frontend/src/pages/DealRoom.jsx:102 | with nothing selected the first project is open, and a project is open exactly when one is selected or the list is non-empty |
| DealRoom.ActiveProjectIsListed | frontend/src/pages/DealRoom.jsx:102 | when selections come from the list, the open project is always a listed one |
| DealRoom.PhaseText | frontend/src/pages/DealRoom.jsx:107-133 | a known phase shows its label and any other value shows as stored |
| DealRoom.PhaseLabelsAgreeWithWorkspace | frontend/src/pages/DealRoom.jsx:107 | the deal room labels the workspace's five phases as the workspace does, and shows other phases raw |
| DealRoom.MilestoneBadge | frontend/src/pages/DealRoom.jsx:163 | the badge is Done exactly for completed, In Progress exactly for `in_progress`, and Upcoming otherwise |
| DealRoom.MilestoneBadges | frontend/src/pages/DealRoom.jsx:151-163 | one badge per stored milestone, in order, and none when none are stored |
| DealRoom.InProgressSpellingsDiffer | frontend/src/pages/DealRoom.jsx:163 | a milestone the workspace shows as current is badged Upcoming in the deal room, and the reverse holds for the other spelling |
| PropertyManagement.VacancyOf | frontend/src/pages/PropertyManagement.jsx:44 | there is no vacancy figure exactly when the units are missing or zero; otherwise it is the vacant units over all units |
| PropertyManagement.VacancyBounds | frontend/src/pages/PropertyManagement.jsx:44 | with sensible occupancy the vacancy lies between none and all units, and is zero exactly when fully let |
| PropertyManagement.PropertyDefaults | frontend/src/pages/PropertyManagement.jsx:38-52 | missing fields show their defaults, present ones show as stored, and an empty document shows an unnamed, owner-managed property without units |
| PropertyManagement.PropertyView | frontend/src/pages/PropertyManagement.jsx:35-52 | one card per stored property, each field defaulted when falsy; `PropertyDefaults` states the defaults and `VacancyOf` the vacancy |
| PropertyManagement.ManagementPage | frontend/src/pages/PropertyManagement.jsx:19-67 | without a uid the page stays loading; a failed fetch shows no properties; a non-empty list selects its first property |
| PropertyManagement.ShowsOnlyManaged | frontend/src/pages/PropertyManagement.jsx:21-53 | every property shown comes from a stored property that the role's query selects |
| PropertyManagement.ShowsEveryManaged | frontend/src/pages/PropertyManagement.jsx:21-53 | every stored property that the role's query selects is shown |
| PropertyManagement.Managed | frontend/src/pages/PropertyManagement.jsx:24-32 | the role's query: an owner's own properties, a manager's managed ones, and the approved ones for any other role; `ShowsOnlyManaged` and `ShowsEveryManaged` state that the page shows exactly these |
| PropertyManagement.NewListingNotManagedByItsOwner | frontend/src/pages/PropertyManagement.jsx:25-26 | a listing created through the wizard is never shown to its owner here, and not to others while it is pending |
| AffordableHousing.ProjectDefaults | frontend/src/pages/AffordableHousing.jsx:50-66 | missing fields show 60% AMI, a 30-year term, status `applying`, a 15-year compliance period and no units |
| AffordableHousing.ProjectView | frontend/src/pages/AffordableHousing.jsx:51-67 | one project card per stored project, each field defaulted when falsy; `ProjectDefaults` states the defaults |
| AffordableHousing.AffordableProjects | frontend/src/pages/AffordableHousing.jsx:36-80 | nothing is listed without a uid or after a failed fetch, and every listed project is marked affordable or has affordable units |
| AffordableHousing.ListsOnlyOwnProjects | frontend/src/pages/AffordableHousing.jsx:41-69 | every listed project comes from a stored project that the user develops |
| AffordableHousing.ListsEveryOwnAffordableProject | frontend/src/pages/AffordableHousing.jsx:41-69 | every project the user develops that is marked affordable or has affordable units is listed |
| AffordableHousing.UnmarkedProjectDropped | frontend/src/pages/AffordableHousing.jsx:69 | a project with neither flag nor affordable units is not listed |
| AffordableHousing.IsAffordableProject | frontend/src/pages/AffordableHousing.jsx:69 | a project stays listed when it is marked affordable or has more than zero affordable units; `ListsEveryOwnAffordableProject` and `UnmarkedProjectDropped` state both directions |
| AffordableHousing.ComplianceTab | frontend/src/pages/AffordableHousing.jsx:180 | the compliance tab holds only awarded projects from the list |
| AffordableHousing.ComplianceTabSpec | frontend/src/pages/AffordableHousing.jsx:180 | the tab keeps list order and holds a project exactly when it is awarded; a project without a funding status never appears |
| InvestorPortfolio.Defaulted | frontend/src/pages/InvestorPortfolio.jsx:22-27 | missing amounts become zero and missing distributions an empty list; present committed, deployed and distribution values and every other field are kept |
| InvestorPortfolio.Portfolio | frontend/src/pages/InvestorPortfolio.jsx:16-36 | nothing is listed without a uid or after a failed fetch; every listed investment is the user's and has a distributions list |
| InvestorPortfolio.ListsOnlyHeld | frontend/src/pages/InvestorPortfolio.jsx:16-36 | every listed investment is the defaulted document of a stored investment the user holds |
| InvestorPortfolio.ListsEveryHeld | frontend/src/pages/InvestorPortfolio.jsx:16-36 | every stored investment the user holds is listed, defaulted |
| InvestorPortfolio.CreateInvestment | frontend/src/services/firestoreService.js:165-171 | a created investment is active and otherwise keeps its data |
| InvestorPortfolio.NewInvestmentFigures | frontend/src/services/firestoreService.js:165-171 | a new investment, once defaulted, is active and carries the amounts it was created with |
| InvestorPortfolio.TotalsAreAdditive | frontend/src/pages/InvestorPortfolio.jsx:38-41 | a new investment raises the active count by one and each total by its own amount |
| InvestorPortfolio.TotalsNonNegative | frontend/src/pages/InvestorPortfolio.jsx:38-39 | with non-negative amounts the committed and deployed totals are non-negative |
| InvestorPortfolio.TotalCommitted | frontend/src/pages/InvestorPortfolio.jsx:38 | the committed amounts summed over the investments; `TotalsAreAdditive` and `TotalsNonNegative` state how it grows and its sign |
| InvestorPortfolio.TotalDeployed | frontend/src/pages/InvestorPortfolio.jsx:39 | the deployed amounts summed over the investments; `TotalsAreAdditive` and `TotalsNonNegative` state how it grows and its sign |
| InvestorPortfolio.Distributed | frontend/src/pages/InvestorPortfolio.jsx:40 | one investment's distribution amounts summed; `RowsOfCarryAmounts` states that its history rows add up to it |
| InvestorPortfolio.TotalDistributions | frontend/src/pages/InvestorPortfolio.jsx:40 | the distributed totals summed over the investments; `HistoryMatchesTotal` states that the history adds up to it and `TotalsAreAdditive` how it grows |
| InvestorPortfolio.RowsOf | frontend/src/pages/InvestorPortfolio.jsx:131 | one history row per distribution of the investment, in order |
| InvestorPortfolio.RowsOfCarryAmounts | frontend/src/pages/InvestorPortfolio.jsx:130-139 | an investment's rows add up to its distributed total |
| InvestorPortfolio.HistoryMatchesTotal | frontend/src/pages/InvestorPortfolio.jsx:40-139 | the history's amounts add up to the distributions total, and it has one row per distribution |
| InvestorPortfolio.HistoryInOrder | frontend/src/pages/InvestorPortfolio.jsx:130-139 | the history lists investment by investment, in order |
| RealtorManagement.CarriedEquity | frontend/src/pages/RealtorManagement.jsx:26-34 | the carried equity is the share of the first realtor entry in the ledger, or the stored figure (or 0) when there is none |
| RealtorManagement.CarriedEquityIsNotCapped | frontend/src/pages/RealtorManagement.jsx:34-59 | any percentage in the ledger is shown as is, despite the 1% the page promises; the workspace's fallback ledger gives 1 |
| RealtorManagement.ReferralDefaults | frontend/src/pages/RealtorManagement.jsx:28-39 | a project without realtor fields reads as active, unvested, vesting on completion, worth nothing and paid nothing |
| RealtorManagement.ReferralOf | frontend/src/pages/RealtorManagement.jsx:23-39 | one referral view per referred project, each field defaulted when falsy and the carried equity read from the ledger; `ReferralDefaults` and `CarriedEquity` state these |
| RealtorManagement.Referrals | frontend/src/pages/RealtorManagement.jsx:14-50 | nothing is listed without a uid or after a failed fetch; otherwise one referral per project the realtor referred |
| RealtorManagement.ListsOnlyReferred | frontend/src/pages/RealtorManagement.jsx:14-50 | every listed referral is the view of a stored project that names the realtor |
| RealtorManagement.ListsEveryReferred | frontend/src/pages/RealtorManagement.jsx:14-50 | every stored project that names the realtor is listed |
| RealtorManagement.ReferralTotals | frontend/src/pages/RealtorManagement.jsx:52-54 | the totals add up over any split of the list; all referrals are active exactly when the count equals their number, as when no project has a status |
| RealtorManagement.TotalEstimated | frontend/src/pages/RealtorManagement.jsx:52 | the estimated value summed over the referrals; `ReferralTotals` states that it adds up over any split of the list |
| RealtorManagement.TotalPaid | frontend/src/pages/RealtorManagement.jsx:53 | the paid-out amounts summed over the referrals, a missing one counting 0; `ReferralTotals` states that it adds up over any split of the list |
| AttorneyMarketplace.AttorneyDefaults | frontend/src/pages/AttorneyMarketplace.jsx:20-32 | an attorney stored with no fields reads as an unverified independent practitioner without specialties, rating or rate; a stored name is kept |
| AttorneyMarketplace.AttorneyOf | frontend/src/pages/AttorneyMarketplace.jsx:20-32 | one attorney card per listed document, each field defaulted when falsy; `AttorneyDefaults` states the defaults |
| AttorneyMarketplace.Filtered | frontend/src/pages/AttorneyMarketplace.jsx:44-48 | every shown attorney is listed and passes both filters |
| AttorneyMarketplace.FilteredSpec | frontend/src/pages/AttorneyMarketplace.jsx:44-48 | the filter keeps list order and holds an attorney exactly when the search appears in the name or firm (ignoring case) and the bar state matches; with both empty it is the whole list |
| AttorneyMarketplace.Shown | frontend/src/pages/AttorneyMarketplace.jsx:44-48 | an attorney passes when the search is empty or found in the name or firm ignoring case, and the state filter is empty or equals the bar state; `FilteredSpec` states that the list shows exactly these |
| AttorneyMarketplace.States | frontend/src/pages/AttorneyMarketplace.jsx:50 | the offered bar states have no duplicates |
| AttorneyMarketplace.StatesSpec | frontend/src/pages/AttorneyMarketplace.jsx:50 | the offered states are exactly the attorneys' bar states, in first-seen order, and choosing one leaves at least one attorney |
| ComplianceGateway.Attorneys | frontend/src/pages/ComplianceGateway.jsx:20-37 | a failed fetch leaves no attorneys; otherwise the list holds each stored document with its id, in the stored order |
| ComplianceGateway.Filtered | frontend/src/pages/ComplianceGateway.jsx:39-43 | the search never shows more attorneys than there are |
| ComplianceGateway.FilteredSpec | frontend/src/pages/ComplianceGateway.jsx:39-43 | the search keeps order and shows an attorney exactly when the query appears in the name, specialty or a jurisdiction; an attorney without these is never shown |
| ComplianceGateway.Matches | frontend/src/pages/ComplianceGateway.jsx:39-43 | an attorney matches when the query is found, ignoring case, in the name, the specialty or one jurisdiction; `FilteredSpec` states that the list shows exactly these |
| ComplianceGateway.AvailableCount | frontend/src/pages/ComplianceGateway.jsx:80 | the available figure is at least the number shown |
| ComplianceGateway.AvailableIgnoresSearch | frontend/src/pages/ComplianceGateway.jsx:80 | the available figure does not change with the search, and it equals the number shown exactly when the search matches every attorney |
| ComplianceGateway.Click | frontend/src/pages/ComplianceGateway.jsx:124 | clicking the selected row deselects it, and clicking any other row selects that row |
| ComplianceGateway.ClickToggles | frontend/src/pages/ComplianceGateway.jsx:124 | two clicks on an unselected row undo each other, and the last row clicked is selected |
| ComplianceGateway.Initials | frontend/src/pages/ComplianceGateway.jsx:128 | a named attorney gets at most two initials without spaces, and an attorney without a name gets none |
| ComplianceGateway.InitialsOfWords | frontend/src/pages/ComplianceGateway.jsx:128 | a name of two or three words shows the first letters of the first two words |
| Dashboard.PerUser | frontend/src/pages/Dashboard.jsx:114-115 | without a uid the request is not made and yields an empty list |
| Dashboard.Recent | frontend/src/pages/Dashboard.jsx:125-127 | recent activity holds at most five properties, taken from the front of the list, and none when the request failed |
| Dashboard.Load | frontend/src/pages/Dashboard.jsx:111-127 | the properties figure is never below the length of the recent list |
| Dashboard.StatsFromSettled | frontend/src/pages/Dashboard.jsx:111-123 | each figure is its list's length when that request succeeded and zero when it failed, independently of the others; without a uid the investment and alert figures are zero |
| Dashboard.RecentIsFirstFive | frontend/src/pages/Dashboard.jsx:118-127 | recent activity is the first five properties, or all of them, and is empty exactly when the properties figure is zero |
| Dashboard.Greeting | frontend/src/pages/Dashboard.jsx:137-142 | the greeting is one of the three texts |
| Dashboard.GreetingByHour | frontend/src/pages/Dashboard.jsx:137-142 | morning exactly before 12, afternoon exactly from 12 to 18, evening exactly from 18, and the greeting only moves forward through the day |
| Dashboard.RoleLabel | frontend/src/pages/Dashboard.jsx:145-167 | the badge shows one of the table's labels or `User` |
| Dashboard.RoleLabelSpec | frontend/src/pages/Dashboard.jsx:145-167 | a user without a role reads Investor; of the seven roles, exactly realtor, attorney and property manager read User; a truthy non-text role reads User |
| Records.WithId | frontend/src/pages/Admin.jsx:47 | a listed document has its stored fields plus an id, and a stored `id` field wins |
| Records.CountActive | frontend/src/pages/InvestorPortfolio.jsx:41 | the active count never exceeds the list's length and equals it exactly when every entry is active; the referral page counts its active referrals the same way (RealtorManagement.jsx:54) |
| Records.CountActiveAppend | frontend/src/pages/RealtorManagement.jsx:54 | the active count of two lists put together is the sum of their counts |

## Left out

- Database access, authentication calls and navigation: every query,
  write and redirect is a function of its inputs or outcomes. Failed calls
  are modelled only in these members:
  - A failed fetch is a `None` collection, and the page keeps its empty
    list: `AffordableHousing.AffordableProjects`,
    `ComplianceGateway.Attorneys`, `InvestorPortfolio.Portfolio`,
    `PropertyManagement.ManagementPage` and `RealtorManagement.Referrals`.
  - A failed fetch is an empty list of documents: `DealRoom.RoomFor` (the
    page sets `[]`) and `AttorneyMarketplace.Filtered` (the page keeps its
    initial `[]`).
  - A failure is a constructor of the outcome type: `ReadFailed` in
    `Auth.ProfileAfterAuthChange`, `LoadFailed` in
    `ProjectWorkspace.ProjectAfterLoad` and `Rejected` in `Dashboard.Load`.
  - `UserMaintenance.UpdateExistingUsers` takes parameters naming the read
    or the write that fails.

  Loading spinners between states, `setLoading` ordering and React
  re-renders are not modelled.
- `AdminConsole.ApproveUser`, `AdminConsole.RejectUser`,
  `Onboarding.ConsoleDecisionsReachTheGuard`, `UserMaintenance.ApproveUser`,
  `UserMaintenance.MakeUserAdmin`, `CreateListing.CreateProperty` and
  `PropertyDetail.CreatePitch`: success only. Each describes the document
  a successful write stores. A failed write stores nothing and leaves the
  document as it was. What the page does instead:
  - the console shows an alert;
  - the two helpers return `{ success: false, error }`;
  - the wizard shows the error text or `Failed to create listing`;
  - the detail page leaves the pitch form open and filled in.
- `Promise.allSettled` scheduling and the messages subscription: the
  dashboard sees only the settled outcomes, and the workspace's message
  list is not modelled.
- The clock: `new Date()`, `toISOString()` and `serverTimestamp()` are
  passed in as a `now` text or a `stamp` value, and the hour is a parameter.
- Numbers are unbounded integers. Floating-point amounts, `toFixed(1)` for
  the vacancy rate (modelled as the pair of counts before division), the
  `0.0` rating default and `toLocaleString` currency formatting are left
  out.
- Strings are sequences of characters, not UTF-16 units, and lower-casing
  is ASCII-only. This affects `toLowerCase`, `n[0]` in initials and the
  white-space set of `trim`.
- Typed page views read ill-typed fields as missing. A truthy field of an
  unexpected type falls back to the page's default. JavaScript would
  either keep the value (`||` passes any truthy value) or throw when a
  method of the expected type is called on it. Affected:
  `AttorneyMarketplace.AttorneyDefaults`, `PropertyManagement.PropertyDefaults`,
  `AffordableHousing.ProjectDefaults` and the numeric totals. The members
  below are affected the same way.
- `Permissions.HasPermission`: an action named after an inherited property
  of a JavaScript object (`constructor`, `toString`) is treated as missing
  from the matrix and denied; JavaScript finds a function there and throws
  on `.includes`. No page asks for such an action.
- `AdminConsole.SearchNeedsATextField`: an email, name or role that is
  present but not text never matches; JavaScript throws on
  `.toLowerCase`, which stops the page's filter.
- `ComplianceGateway.FilteredSpec`: a name or specialty that is present but
  not text, a truthy jurisdiction that is not a list, or a jurisdiction
  entry that is not text never matches; JavaScript throws on
  `.toLowerCase` or `.some` instead.
- `ComplianceGateway.Initials`: a name that is present but not text gets no
  initials; JavaScript throws on `.split`.
- `RealtorManagement.CarriedEquity`: a truthy ledger that is not a list is
  read as empty, so the stored figure is shown; JavaScript throws on
  `.find`, which rejects the whole fetch, and the page lists no referrals.
- `ProjectWorkspace.Milestones`: a truthy milestones value that is not a
  list gives no milestones; JavaScript keeps it through `||` and then
  throws on `.filter`.
- `InvestorPortfolio.AmountOf`: a distribution without a numeric amount
  counts as zero, and so do `Distributed`, `RowsOfCarryAmounts` and
  `HistoryMatchesTotal`. In JavaScript the total becomes `NaN` and
  `d.amount.toLocaleString()` throws in the history table.
- `Layout.SidebarRole`: a truthy role that is not text is replaced by
  `investor`; JavaScript keeps it, and the sidebar then shows only the
  links open to every role.
- No `null`, and records omit a key rather than store `undefined`.
  `===` on two values is Dafny equality, which agrees with JavaScript on
  text, numbers and booleans but not on lists and objects, which
  JavaScript compares by reference (`PropertyDetail.IsOwner`,
  `ComplianceGateway.Click`). `PropertyDetail.PitchRecord` and
  `ProjectWorkspace.MessageToSend` leave out the sender's id when the
  profile has no uid, where JavaScript stores `undefined`. Behind the
  guard every uid and document id is text, so these cases do not arise on
  the pages.
- `Dashboard.RoleLabel`: a role text such as `constructor`, which names an
  inherited property of a JavaScript object, would read that property; the
  model treats the lookup table as a plain map.
- The dashboard's user name, the approval badge, its coloured badge
  classes, `ROLE_LABELS`, `ROLE_COLORS`, the status colours and the icons:
  presentation only.
- Pages outside the core (home, marketplace list, zoning, setup, pending
  approval): only their links and routes appear, through the navigation
  table and the guard.
- `CreateListing`: only the fields the step checks read and the fields
  the submit adds are given meaning; the other form fields are carried as
  data.
- `ProjectWorkspace`: the tabs, the documents and compliance tab contents,
  the deployed/total budget formatting, and the `color` keys of the
  fallback ledger's entries and of the phases are presentation only.
- `AdminConsole.ConsoleStats`: the statistics are those of a load in which
  both fetches succeed. When the properties fetch fails after the users
  were read, the page shows the new user list with its previous
  statistics (zeros at first). The revenue figure is a constant string on
  the page and is not part of the statistics.
- `InvestorPortfolio.TotalsNonNegative`: distributions may carry negative
  amounts in stored data, so only the committed and deployed totals are
  bounded.
- `Auth.SignupProfile`: a failed profile write at signup is only logged;
  the missing document is then created by the auth listener, which
  `Auth.ProfileAfterAuthChange` covers.
- `Signup`: the display of the extra fields (placeholders, input types
  other than text and checkbox) is presentation only; a number input is
  modelled as text.

=== FILE: adminconsole.dfy ===
/** The admin console: which approval actions each user row offers, what those
    actions write, the search box and status tabs over the user list, and the
    header statistics. */
module AdminConsole {
  import opened Records
  import opened Permissions
  import opened Profiles
  import opened Text
  import Seqs
  import Layout
  import CreateListing

  /** The buttons a user row can show. */
  datatype Action = Approve | Reject | Reapprove

  /** The actions offered for a user: Approve and Reject while pending,
      Re-approve once rejected, nothing when approved or in any other state. */
  function OfferedActions(u: Doc): (acts: seq<Action>)
    ensures ApprovalOf(u) != Some(Pending) && ApprovalOf(u) != Some(Rejected) ==> acts == []
  {
    if HasApproval(u, Pending) then [Approve, Reject]
    else if HasApproval(u, Rejected) then [Reapprove]
    else []
  }

  /** The status badge text: the stored value, or `pending` when it is missing. */
  function StatusBadge(u: Doc): string
  {
    StrOr(Get(u, "approvalStatus"), "pending")
  }

  /** A user with no approval status is shown as pending but offered no action. */
  lemma UnlabelledUserHasNoActions(u: Doc)
    requires !Truthy(Get(u, "approvalStatus"))
    ensures StatusBadge(u) == "pending" && OfferedActions(u) == []
  {
  }

  /** Approving writes the status and two timestamps and nothing else. */
  function ApproveUser(u: Doc, now: string): (v: Doc)
    ensures ApprovalOf(v) == Some(Approved)
    ensures IsText(Get(v, "approvedAt"), now) && IsText(Get(v, "updatedAt"), now)
    ensures SameOutside(u, v, {"approvalStatus", "approvedAt", "updatedAt"})
  {
    var w := map["approvalStatus" := Str("approved"), "approvedAt" := Str(now), "updatedAt" := Str(now)];
    var v := Spread(u, w);
    assert HasApproval(v, Approved);
    v
  }

  /** `reason || 'Not specified'`, where a cancelled prompt gives `None`. */
  function ReasonOrDefault(reason: Option<string>): (r: string)
    ensures r != ""
    ensures reason.Some? && reason.value != "" ==> r == reason.value
  {
    if reason.Some? && reason.value != "" then reason.value else "Not specified"
  }

  /** Rejecting writes the status, the reason and two timestamps and nothing else. */
  function RejectUser(u: Doc, reason: Option<string>, now: string): (v: Doc)
    ensures ApprovalOf(v) == Some(Rejected)
    ensures IsText(Get(v, "rejectionReason"), ReasonOrDefault(reason))
    ensures reason.None? || reason == Some("") ==> IsText(Get(v, "rejectionReason"), "Not specified")
    ensures SameOutside(u, v, {"approvalStatus", "rejectedAt", "rejectionReason", "updatedAt"})
  {
    var w := map[
      "approvalStatus" := Str("rejected"),
      "rejectedAt" := Str(now),
      "rejectionReason" := Str(ReasonOrDefault(reason)),
      "updatedAt" := Str(now)];
    var v := Spread(u, w);
    assert HasApproval(v, Rejected);
    v
  }

  /** The record after pressing a button; Re-approve runs the same handler as Approve. */
  function Apply(u: Doc, act: Action, reason: Option<string>, now: string): Doc
  {
    match act
    case Approve => ApproveUser(u, now)
    case Reapprove => ApproveUser(u, now)
    case Reject => RejectUser(u, reason, now)
  }

  /** The approval lifecycle: pending to approved, pending to rejected, and
      rejected back to approved. */
  predicate LifecycleStep(from: Approval, to: Approval)
  {
    (from == Pending && (to == Approved || to == Rejected)) || (from == Rejected && to == Approved)
  }

  /** The buttons on a row reach exactly the lifecycle's next states. */
  lemma OfferedActionsFollowLifecycle(u: Doc, to: Approval, reason: Option<string>, now: string)
    ensures (exists act :: act in OfferedActions(u) && ApprovalOf(Apply(u, act, reason, now)) == Some(to))
       <==> ApprovalOf(u).Some? && LifecycleStep(ApprovalOf(u).value, to)
  {
    var acts := OfferedActions(u);
    if ApprovalOf(u) == Some(Pending) {
      assert acts == [Approve, Reject];
      if to == Approved {
        assert Approve in acts && ApprovalOf(Apply(u, Approve, reason, now)) == Some(to);
      } else if to == Rejected {
        assert Reject in acts && ApprovalOf(Apply(u, Reject, reason, now)) == Some(to);
      }
    } else if ApprovalOf(u) == Some(Rejected) {
      assert acts == [Reapprove];
      if to == Approved {
        assert Reapprove in acts && ApprovalOf(Apply(u, Reapprove, reason, now)) == Some(to);
      }
    }
  }

  /** `u[k]?.toLowerCase().includes(q.toLowerCase())`: a missing field never matches. */
  predicate FieldMatches(u: Doc, k: string, q: string)
  {
    match Get(u, k)
    case Some(Str(s)) => ContainsIgnoringCase(s, q)
    case _ => false
  }

  /** The search box: email, name or role contains the query. */
  predicate MatchesSearch(u: Doc, q: string)
  {
    FieldMatches(u, "email", q) || FieldMatches(u, "name", q) || FieldMatches(u, "role", q)
  }

  /** The status tabs; `all` and any unknown tab let everyone through. */
  predicate MatchesTab(u: Doc, tab: string)
  {
    if tab == "pending" then IsText(Get(u, "approvalStatus"), "pending")
    else if tab == "approved" then IsText(Get(u, "approvalStatus"), "approved")
    else if tab == "rejected" then IsText(Get(u, "approvalStatus"), "rejected")
    else true
  }

  /** `filteredUsers` */
  function FilteredUsers(users: seq<Doc>, q: string, tab: string): seq<Doc>
  {
    Seqs.Filter(u => MatchesSearch(u, q) && MatchesTab(u, tab), users)
  }

  /** The shown users are the users, in their order, that match both the
      search and the tab. */
  lemma FilteredUsersSpec(users: seq<Doc>, q: string, tab: string)
    ensures Seqs.IsSubseq(FilteredUsers(users, q, tab), users)
    ensures forall u :: u in FilteredUsers(users, q, tab) <==> u in users && MatchesSearch(u, q) && MatchesTab(u, tab)
  {
    Seqs.FilterIsSubseq(u => MatchesSearch(u, q) && MatchesTab(u, tab), users);
    forall u ensures u in FilteredUsers(users, q, tab) <==> u in users && MatchesSearch(u, q) && MatchesTab(u, tab) {
      Seqs.FilterMembership(u => MatchesSearch(u, q) && MatchesTab(u, tab), users, u);
    }
  }

  /** A status tab selects exactly the users in that state; the other tabs
      select everyone. */
  lemma TabsSelectByStatus(u: Doc, tab: string)
    ensures forall a :: tab == ApprovalKey(a) ==> (MatchesTab(u, tab) <==> ApprovalOf(u) == Some(a))
    ensures (forall a :: tab != ApprovalKey(a)) ==> MatchesTab(u, tab)
  {
    assert ApprovalKey(Pending) == "pending" && ApprovalKey(Approved) == "approved" && ApprovalKey(Rejected) == "rejected";
  }

  /** A user without a text email, name or role never matches a search, not
      even the empty one; any text field matches the empty search. */
  lemma SearchNeedsATextField(u: Doc, q: string)
    ensures (forall k :: k in ["email", "name", "role"] ==> !(Get(u, k).Some? && Get(u, k).value.Str?)) ==> !MatchesSearch(u, q)
    ensures Get(u, "email").Some? && Get(u, "email").value.Str? ==> MatchesSearch(u, "")
  {
    if Get(u, "email").Some? && Get(u, "email").value.Str? {
      ContainsIgnoringCaseEmpty(Get(u, "email").value.s);
    }
  }

  /** The number of users in a given state: the tab counts and the
      pending-approvals statistic. */
  function CountInState(users: seq<Doc>, a: Approval): nat
  {
    Seqs.Count(u => HasApproval(u, a), users)
  }

  /** The header statistics. */
  datatype Stats = Stats(totalUsers: nat, pendingApprovals: nat, activeListings: nat)

  /** A listing the statistics count as active: its status reads `approved`. */
  predicate IsApprovedListing(p: Doc)
  {
    IsText(Get(p, "status"), "approved")
  }

  function ConsoleStats(users: seq<Doc>, properties: seq<Doc>): (s: Stats)
    ensures s.totalUsers == |users|
    ensures s.pendingApprovals == CountInState(users, Pending) <= |users|
    ensures s.activeListings == Seqs.Count(IsApprovedListing, properties) <= |properties|
  {
    Stats(|users|, CountInState(users, Pending), Seqs.Count(IsApprovedListing, properties))
  }

  /** One more property raises the active listings by one exactly when it is
      approved; the user statistics do not move. */
  lemma ActiveListingsStep(users: seq<Doc>, properties: seq<Doc>, p: Doc)
    ensures ConsoleStats(users, properties + [p]).activeListings ==
      ConsoleStats(users, properties).activeListings + (if IsApprovedListing(p) then 1 else 0)
    ensures ConsoleStats(users, properties + [p]).totalUsers == ConsoleStats(users, properties).totalUsers
    ensures ConsoleStats(users, properties + [p]).pendingApprovals == ConsoleStats(users, properties).pendingApprovals
  {
    Seqs.FilterAppend(IsApprovedListing, properties, [p]);
  }

  /** A listing fresh from the wizard is stored as pending, so it never
      counts as active until something else rewrites its status. */
  lemma SubmittedListingNotActive(id: string, form: Doc, uid: string, profile: Option<Doc>, stamp: Value)
    ensures !IsApprovedListing(WithId(Stored(id, CreateListing.CreateProperty(CreateListing.SubmittedListing(form, uid, profile), stamp))))
  {
  }

  /** The three status tab counts never add up to more than the All tab. */
  lemma TabCountsWithinAll(users: seq<Doc>)
    ensures CountInState(users, Pending) + CountInState(users, Approved) + CountInState(users, Rejected) <= |users|
  {
    Seqs.CountExclusive3(u => HasApproval(u, Pending), u => HasApproval(u, Approved), u => HasApproval(u, Rejected), users);
  }

  /** With an empty search and every user carrying a text email, the tab for a
      state lists as many users as its count says. */
  lemma TabCountIsTabSize(users: seq<Doc>, a: Approval)
    requires forall i :: 0 <= i < |users| ==> Get(users[i], "email").Some? && Get(users[i], "email").value.Str?
    ensures |FilteredUsers(users, "", ApprovalKey(a))| == CountInState(users, a)
  {
    forall i | 0 <= i < |users|
      ensures (MatchesSearch(users[i], "") && MatchesTab(users[i], ApprovalKey(a))) == HasApproval(users[i], a)
    {
      SearchNeedsATextField(users[i], "");
    }
    Seqs.FilterCongruent(u => MatchesSearch(u, "") && MatchesTab(u, ApprovalKey(a)), u => HasApproval(u, a), users);
  }

  /** The console sends a loaded non-admin profile back to the app. */
  predicate RedirectsAway(profile: Option<Doc>)
  {
    profile.Some? && !IsText(Get(profile.value, "role"), "admin")
  }

  /** The console keeps exactly the viewers the sidebar shows its link to,
      once the profile has loaded. */
  lemma ConsoleMatchesAdminLink(p: Doc)
    ensures !RedirectsAway(Some(p)) <==> Layout.ShowsAdminLink(Some(p))
    ensures !RedirectsAway(Some(p)) <==> IsAdminProfile(p)
  {
  }
}

=== FILE: affordablehousing.dfy ===
/** The affordable housing page: the developer's projects that carry affordable
    units, with their defaults, and the compliance tab's awarded projects. */
module AffordableHousing {
  import opened Records
  import Seqs

  /** One project as the page shows it, with defaults for missing fields. */
  datatype AffordableProject = AffordableProject(
    id: string, name: Value, city: Value, amiLevel: Value, units: Value, affordableUnits: Value,
    term: Value, fundingStatus: Value, fundingAmount: Value, program: Value,
    compliancePeriod: Value, isAffordable: Value)

  function ProjectView(s: Stored): AffordableProject
  {
    var d := s.data;
    AffordableProject(
      s.id, Or(Get(d, "name"), Str("Unnamed Project")), Or(Get(d, "city"), Str("Unknown Location")),
      Or(Get(d, "amiLevel"), Str("60% AMI")), Or(Get(d, "totalUnits"), Num(0)),
      Or(Get(d, "affordableUnits"), Num(0)), Or(Get(d, "term"), Str("30 years")),
      Or(Get(d, "fundingStatus"), Str("applying")), Or(Get(d, "fundingAmount"), Num(0)),
      Or(Get(d, "fundingProgram"), Str("Undecided")), Or(Get(d, "compliancePeriod"), Str("15 years")),
      Or(Get(d, "isAffordable"), Bool(false)))
  }

  /** Missing fields show their defaults: 60% AMI, a 30-year term, an
      application in progress and a 15-year compliance period; the unit count
      is read from `totalUnits`. */
  lemma ProjectDefaults(s: Stored)
    ensures !Truthy(Get(s.data, "amiLevel")) ==> ProjectView(s).amiLevel == Str("60% AMI")
    ensures !Truthy(Get(s.data, "term")) ==> ProjectView(s).term == Str("30 years")
    ensures !Truthy(Get(s.data, "fundingStatus")) ==> ProjectView(s).fundingStatus == Str("applying")
    ensures !Truthy(Get(s.data, "compliancePeriod")) ==> ProjectView(s).compliancePeriod == Str("15 years")
    ensures Truthy(Get(s.data, "fundingStatus")) ==> Some(ProjectView(s).fundingStatus) == Get(s.data, "fundingStatus")
    ensures !Truthy(Get(s.data, "totalUnits")) ==> ProjectView(s).units == Num(0)
  {
  }

  /** `where('developerId', '==', uid)` */
  predicate DevelopedBy(uid: Value, s: Stored)
  {
    Get(s.data, "developerId") == Some(uid)
  }

  /** The page's query for a developer's uid. */
  function Mine(uid: Value): Stored -> bool
  {
    s => DevelopedBy(uid, s)
  }

  /** `p.isAffordable || p.affordableUnits > 0` on the defaulted project. */
  predicate IsAffordableProject(p: AffordableProject)
  {
    Truthy(Some(p.isAffordable)) || (p.affordableUnits.Num? && p.affordableUnits.n > 0)
  }

  /** The projects listed for a profile. Without a uid nothing is fetched, and
      a failed fetch (`None`) lists nothing. */
  function AffordableProjects(profile: Option<Doc>, collection: Option<seq<Stored>>): (projects: seq<AffordableProject>)
    ensures !Truthy(Field(profile, "uid")) || collection.None? ==> projects == []
    ensures forall i :: 0 <= i < |projects| ==> IsAffordableProject(projects[i])
  {
    var uid := Field(profile, "uid");
    if !Truthy(uid) || collection.None? then []
    else Seqs.Filter(IsAffordableProject, Seqs.Map(ProjectView, Seqs.Filter(Mine(uid.value), collection.value)))
  }

  /** Every listed project is the view of one of the user's own stored
      developments. */
  lemma ListsOnlyOwnProjects(profile: Doc, docs: seq<Stored>)
    requires Truthy(Get(profile, "uid"))
    ensures var listed := AffordableProjects(Some(profile), Some(docs));
      forall i :: 0 <= i < |listed| ==>
        exists t :: t in docs && DevelopedBy(Get(profile, "uid").value, t) && listed[i] == ProjectView(t)
  {
    var uid := Get(profile, "uid").value;
    var mine := Seqs.Filter(Mine(uid), docs);
    var views := Seqs.Map(ProjectView, mine);
    var listed := Seqs.Filter(IsAffordableProject, views);
    forall i | 0 <= i < |listed|
      ensures exists t :: t in docs && DevelopedBy(uid, t) && listed[i] == ProjectView(t)
    {
      var j :| 0 <= j < |views| && views[j] == listed[i];
      assert mine[j] in docs && Mine(uid)(mine[j]);
    }
  }

  /** Every one of the user's own developments that is marked affordable or
      has affordable units is listed. */
  lemma ListsEveryOwnAffordableProject(profile: Doc, docs: seq<Stored>, s: Stored)
    requires Truthy(Get(profile, "uid"))
    ensures s in docs && DevelopedBy(Get(profile, "uid").value, s) && IsAffordableProject(ProjectView(s)) ==>
      ProjectView(s) in AffordableProjects(Some(profile), Some(docs))
  {
    var uid := Get(profile, "uid").value;
    if s in docs && DevelopedBy(uid, s) && IsAffordableProject(ProjectView(s)) {
      var views := Seqs.Map(ProjectView, Seqs.Filter(Mine(uid), docs));
      Seqs.MapOfFilter(ProjectView, Mine(uid), docs, s);
      Seqs.FilterMembership(IsAffordableProject, views, ProjectView(s));
    }
  }

  /** A project stored with neither flag nor affordable units is not listed. */
  lemma UnmarkedProjectDropped(s: Stored)
    requires !Truthy(Get(s.data, "isAffordable")) && !Truthy(Get(s.data, "affordableUnits"))
    ensures !IsAffordableProject(ProjectView(s))
  {
  }

  predicate Awarded(p: AffordableProject)
  {
    p.fundingStatus == Str("awarded")
  }

  /** The compliance tab: the awarded projects, in list order. */
  function ComplianceTab(projects: seq<AffordableProject>): (tracked: seq<AffordableProject>)
    ensures forall i :: 0 <= i < |tracked| ==> Awarded(tracked[i]) && tracked[i] in projects
  {
    Seqs.Filter(Awarded, projects)
  }

  /** The compliance tab keeps the list order and holds a project exactly when
      it is awarded; one stored without a funding status is never there. */
  lemma ComplianceTabSpec(projects: seq<AffordableProject>, p: AffordableProject, s: Stored)
    ensures Seqs.IsSubseq(ComplianceTab(projects), projects)
    ensures p in ComplianceTab(projects) <==> p in projects && Awarded(p)
    ensures !Truthy(Get(s.data, "fundingStatus")) ==> ProjectView(s) !in ComplianceTab(projects)
  {
    Seqs.FilterIsSubseq(Awarded, projects);
    Seqs.FilterMembership(Awarded, projects, p);
  }
}

=== FILE: attorneymarketplace.dfy ===
/** The attorney marketplace: attorneys with their defaults, the search and
    bar-state filters, and the list of bar states offered by the filter. */
module AttorneyMarketplace {
  import opened Records
  import opened Text
  import Seqs

  /** One attorney as the page shows it. Text fields are read as text. */
  datatype Attorney = Attorney(
    id: Value, name: string, firm: string, barNumber: string, barState: string,
    specialties: seq<Value>, rating: int, completedDeals: int, location: string,
    verified: bool, hourlyRate: int)

  function AttorneyOf(att: Doc): Attorney
  {
    Attorney(
      Or(Get(att, "id"), Str("")), StrOr(Get(att, "name"), "Unknown Attorney"),
      StrOr(Get(att, "firm"), "Independent Practice"), StrOr(Get(att, "barNumber"), "N/A"),
      StrOr(Get(att, "barState"), "Unknown"), ListOr(Get(att, "specialties")),
      IntOr(Get(att, "rating"), 0), IntOr(Get(att, "completedDeals"), 0),
      StrOr(Get(att, "location"), "Unknown Location"), FlagOf(Get(att, "verified")),
      IntOr(Get(att, "hourlyRate"), 0))
  }

  /** An attorney stored with no fields reads as an unverified independent
      practitioner without specialties, rating or rate. */
  lemma AttorneyDefaults(att: Doc)
    ensures "name" !in att ==> AttorneyOf(att).name == "Unknown Attorney"
    ensures "firm" !in att ==> AttorneyOf(att).firm == "Independent Practice"
    ensures "barState" !in att ==> AttorneyOf(att).barState == "Unknown"
    ensures "specialties" !in att ==> AttorneyOf(att).specialties == []
    ensures "rating" !in att ==> AttorneyOf(att).rating == 0
    ensures "hourlyRate" !in att ==> AttorneyOf(att).hourlyRate == 0
    ensures "verified" !in att ==> !AttorneyOf(att).verified
    ensures forall s :: Get(att, "name") == Some(Str(s)) && s != "" ==> AttorneyOf(att).name == s
  {
  }

  /** The filter's test: a search must appear in the name or the firm, and a
      chosen bar state must be the attorney's; an empty box or an empty choice
      does not filter. */
  predicate Shown(search: string, stateFilter: string, a: Attorney)
  {
    (search == "" || ContainsIgnoringCase(a.name, search) || ContainsIgnoringCase(a.firm, search)) &&
    (stateFilter == "" || a.barState == stateFilter)
  }

  function Filtered(attorneys: seq<Attorney>, search: string, stateFilter: string): (shown: seq<Attorney>)
    ensures forall i :: 0 <= i < |shown| ==> shown[i] in attorneys && Shown(search, stateFilter, shown[i])
  {
    Seqs.Filter(a => Shown(search, stateFilter, a), attorneys)
  }

  /** The filtered list keeps the order of the full list and holds an
      attorney exactly when the search and the bar state both admit it; with
      both empty it is the full list. */
  lemma FilteredSpec(attorneys: seq<Attorney>, search: string, stateFilter: string, a: Attorney)
    ensures Seqs.IsSubseq(Filtered(attorneys, search, stateFilter), attorneys)
    ensures a in Filtered(attorneys, search, stateFilter) <==>
      a in attorneys &&
      (search == "" || ContainsIgnoringCase(a.name, search) || ContainsIgnoringCase(a.firm, search)) &&
      (stateFilter == "" || a.barState == stateFilter)
    ensures Filtered(attorneys, "", "") == attorneys
  {
    Seqs.FilterIsSubseq(a => Shown(search, stateFilter, a), attorneys);
    Seqs.FilterMembership(a => Shown(search, stateFilter, a), attorneys, a);
    Seqs.FilterKeepsAll(a => Shown("", "", a), attorneys);
  }

  function BarState(a: Attorney): string
  {
    a.barState
  }

  /** `[...new Set(attorneys.map(a => a.barState))]` */
  function States(attorneys: seq<Attorney>): (states: seq<string>)
    ensures Seqs.NoDuplicates(states)
  {
    Seqs.Distinct(Seqs.Map(BarState, attorneys))
  }

  /** The offered states are the attorneys' bar states, each once, in the
      order they first appear; choosing one with an empty search leaves at
      least one attorney. */
  lemma StatesSpec(attorneys: seq<Attorney>, st: string)
    ensures st in States(attorneys) <==> exists i :: 0 <= i < |attorneys| && attorneys[i].barState == st
    ensures var bars := Seqs.Map(BarState, attorneys); var ss := States(attorneys);
      forall i, j :: 0 <= i < j < |ss| ==> Seqs.FirstIndex(bars, ss[i]) < Seqs.FirstIndex(bars, ss[j])
    ensures st in States(attorneys) && st != "" ==> |Filtered(attorneys, "", st)| > 0
  {
    var bars := Seqs.Map(BarState, attorneys);
    Seqs.DistinctKeepsFirstSeenOrder(bars);
    if st in States(attorneys) {
      var k :| 0 <= k < |bars| && bars[k] == st;
      assert attorneys[k].barState == st;
      if st != "" {
        assert Shown("", st, attorneys[k]);
        Seqs.FilterMembership(a => Shown("", st, a), attorneys, attorneys[k]);
      }
    }
    if exists i :: 0 <= i < |attorneys| && attorneys[i].barState == st {
      var i :| 0 <= i < |attorneys| && attorneys[i].barState == st;
      assert bars[i] == st;
    }
  }
}

=== FILE: auth.dfy ===
/** The auth context: the profile record written at signup, the profile the
    auth listener publishes for a signed-in account, and the permission check
    bound to that profile. Database reads and writes are replaced by their
    outcomes, and the clock by a `now` text. */
module Auth {
  import opened Records
  import opened Permissions
  import opened Profiles

  /** The signed-in account as the auth provider reports it; an absent
      display name is the empty string. */
  datatype Account = Account(uid: string, email: string, displayName: string)

  /** The context's `hasPermission(action)`: denied without a profile or with a
      falsy role, otherwise the matrix lookup for the profile's role. */
  function BoundHasPermission(profile: Option<Doc>, action: string): (granted: bool)
    ensures !Truthy(Field(profile, "role")) ==> !granted
    ensures forall role :: Field(profile, "role") == Some(Str(role)) && role != "" ==>
      granted == HasPermission(role, action)
  {
    match Field(profile, "role")
    case Some(Str(role)) => role != "" && HasPermission(role, action)
    case _ => false
  }

  /** The profile document `signup` writes: pending approval and pending KYC,
      with the role-specific extra fields spread over it last. */
  function SignupProfile(account: Account, name: string, role: string, extra: Doc, now: string): (p: Doc)
    ensures forall k :: k in extra ==> Get(p, k) == Get(extra, k)
    ensures "approvalStatus" !in extra ==> ApprovalOf(p) == Some(Pending)
    ensures "kycStatus" !in extra ==> IsText(Get(p, "kycStatus"), "pending")
    ensures "role" !in extra ==> IsText(Get(p, "role"), role)
    ensures "uid" !in extra ==> IsText(Get(p, "uid"), account.uid)
    ensures "email" !in extra ==> IsText(Get(p, "email"), account.email)
    ensures "name" !in extra ==> IsText(Get(p, "name"), name)
    ensures "createdAt" !in extra ==> IsText(Get(p, "createdAt"), now)
    ensures "updatedAt" !in extra ==> IsText(Get(p, "updatedAt"), now)
  {
    var base := map[
      "uid" := Str(account.uid),
      "email" := Str(account.email),
      "name" := Str(name),
      "role" := Str(role),
      "kycStatus" := Str("pending"),
      "approvalStatus" := Str("pending"),
      "createdAt" := Str(now),
      "updatedAt" := Str(now)];
    assert HasApproval(base, Pending);
    Spread(base, extra)
  }

  /** A loaded profile without an approval status is treated as approved (the
      same value is kept locally whether or not the write back succeeds). */
  function Backfill(data: Doc): (p: Doc)
    ensures !Truthy(Get(data, "approvalStatus")) ==> ApprovalOf(p) == Some(Approved)
    ensures Truthy(Get(data, "approvalStatus")) ==> p == data
    ensures SameOutside(data, p, {"approvalStatus"})
  {
    if !Truthy(Get(data, "approvalStatus")) then
      ApprovalOfSet(data, Approved);
      data["approvalStatus" := Str("approved")]
    else data
  }

  /** Backfilling twice is the same as backfilling once. */
  lemma BackfillIdempotent(data: Doc)
    ensures Backfill(Backfill(data)) == Backfill(data)
  {
  }

  /** The document created for an account that has none. */
  function CreatedProfile(account: Account, now: string): (p: Doc)
    ensures IsText(Get(p, "role"), RoleKey(Investor))
    ensures ApprovalOf(p) == Some(Pending)
    ensures IsText(Get(p, "kycStatus"), "pending")
    ensures IsText(Get(p, "name"), if account.displayName != "" then account.displayName else "User")
    ensures IsText(Get(p, "uid"), account.uid)
  {
    var p := map[
      "uid" := Str(account.uid),
      "email" := Str(account.email),
      "name" := Str(if account.displayName != "" then account.displayName else "User"),
      "role" := Str("investor"),
      "kycStatus" := Str("pending"),
      "approvalStatus" := Str("pending"),
      "createdAt" := Str(now),
      "updatedAt" := Str(now)];
    assert HasApproval(p, Pending);
    p
  }

  /** The minimal profile used when the database cannot be read or written. */
  function FallbackProfile(account: Account): (p: Doc)
    ensures IsText(Get(p, "role"), RoleKey(Investor))
    ensures "approvalStatus" !in p && ApprovalOf(p) == None
    ensures p.Keys == {"uid", "email", "role"}
  {
    map["uid" := Str(account.uid), "email" := Str(account.email), "role" := Str("investor")]
  }

  /** What reading the account's profile document produced. */
  datatype ProfileRead =
      /** the read itself failed */
    | ReadFailed
      /** the document exists; `backfillWritten` says whether a status write back succeeded */
    | Found(data: Doc, backfillWritten: bool)
      /** no document: whether creating one succeeded, and whether reading it back found it */
    | NotFound(created: bool, foundAfterCreate: bool)

  /** The profile the auth listener publishes. `prev` is the profile published
      before, kept when nothing new is set; `account` is `None` when signed out. */
  function ProfileAfterAuthChange(prev: Option<Doc>, account: Option<Account>, read: ProfileRead, now: string): (profile: Option<Doc>)
    ensures account.None? ==> profile.None?
    ensures account.Some? && read.ReadFailed? ==> profile == Some(FallbackProfile(account.value))
    ensures account.Some? && read.Found? ==> profile == Some(Backfill(read.data))
    ensures account.Some? && read.NotFound? && !read.created ==> profile == Some(FallbackProfile(account.value))
    ensures account.Some? && read.NotFound? && read.created && read.foundAfterCreate ==>
      profile == Some(CreatedProfile(account.value, now))
    ensures account.Some? && read.NotFound? && read.created && !read.foundAfterCreate ==> profile == prev
  {
    if account.None? then None
    else
      match read
      case ReadFailed => Some(FallbackProfile(account.value))
      case Found(data, _) => Some(Backfill(data))
      case NotFound(created, foundAfterCreate) =>
        if !created then Some(FallbackProfile(account.value))
        else if foundAfterCreate then Some(CreatedProfile(account.value, now))
        else prev
  }

  /** The outcome of the status write back does not change the published profile. */
  lemma BackfillWriteIrrelevant(prev: Option<Doc>, account: Option<Account>, data: Doc, now: string)
    ensures ProfileAfterAuthChange(prev, account, Found(data, true), now)
         == ProfileAfterAuthChange(prev, account, Found(data, false), now)
  {
  }

  /** For a profile whose role is one of the known roles, the bound check is the
      matrix lookup for that role. */
  lemma BoundHasPermissionOfRole(p: Doc, r: Role, action: string)
    requires IsText(Get(p, "role"), RoleKey(r))
    ensures BoundHasPermission(Some(p), action) <==> r == Admin || (action in PermissionTable && r in PermissionTable[action])
  {
    HasPermissionOfRole(r, action);
  }

  /** Signed out, every action is denied. */
  lemma SignedOutDenied(action: string)
    ensures !BoundHasPermission(None, action)
  {
  }
}

=== FILE: compliancegateway.dfy ===
/** The legal and compliance page: the attorney search over names,
    specialties and jurisdictions, the selection toggle, the availability
    count and the initials in each attorney's badge. */
module ComplianceGateway {
  import opened Records
  import opened Text
  import Seqs

  /** The attorneys after the fetch; a failed fetch (`None`) leaves none. */
  function Attorneys(collection: Option<seq<Stored>>): (attorneys: seq<Doc>)
    ensures collection.None? ==> attorneys == []
    ensures collection.Some? ==> |attorneys| == |collection.value|
    ensures collection.Some? ==> forall i :: 0 <= i < |attorneys| ==> attorneys[i] == WithId(collection.value[i])
  {
    if collection.None? then [] else Seqs.Map(WithId, collection.value)
  }

  /** `v?.toLowerCase().includes(q.toLowerCase())` on a text field; a missing
      field does not match. */
  predicate TextMatches(v: Option<Value>, q: string)
  {
    v.Some? && v.value.Str? && ContainsIgnoringCase(v.value.s, q)
  }

  /** `a.jurisdiction?.some(j => ...)` */
  predicate SomeJurisdictionMatches(v: Option<Value>, q: string)
  {
    v.Some? && v.value.List? && exists i :: 0 <= i < |v.value.items| && TextMatches(Some(v.value.items[i]), q)
  }

  predicate Matches(q: string, a: Doc)
  {
    TextMatches(Get(a, "name"), q) || TextMatches(Get(a, "specialty"), q) ||
    SomeJurisdictionMatches(Get(a, "jurisdiction"), q)
  }

  function Filtered(attorneys: seq<Doc>, q: string): (shown: seq<Doc>)
    ensures |shown| <= |attorneys|
  {
    Seqs.Filter(a => Matches(q, a), attorneys)
  }

  /** The search keeps the list order and shows an attorney exactly when the
      query appears in the name, the specialty or one of the jurisdictions,
      ignoring case. An attorney with none of the three is never shown, even
      for an empty query, while an empty query shows every attorney with a
      name. */
  lemma FilteredSpec(attorneys: seq<Doc>, q: string, a: Doc)
    ensures Seqs.IsSubseq(Filtered(attorneys, q), attorneys)
    ensures a in Filtered(attorneys, q) <==> a in attorneys && Matches(q, a)
    ensures "name" !in a && "specialty" !in a && "jurisdiction" !in a ==> a !in Filtered(attorneys, q)
    ensures a in attorneys && Get(a, "name").Some? && Get(a, "name").value.Str? ==> a in Filtered(attorneys, "")
  {
    Seqs.FilterIsSubseq(a => Matches(q, a), attorneys);
    Seqs.FilterMembership(a => Matches(q, a), attorneys, a);
    Seqs.FilterMembership(a => Matches("", a), attorneys, a);
    if Get(a, "name").Some? && Get(a, "name").value.Str? {
      ContainsIgnoringCaseEmpty(Get(a, "name").value.s);
    }
  }

  /** The 'Attorneys Available' figure: the whole list, whatever the search. */
  function AvailableCount(attorneys: seq<Doc>, q: string): (n: nat)
    ensures n >= |Filtered(attorneys, q)|
  {
    |attorneys|
  }

  /** The figure does not change with the search, and it equals the number
      shown exactly when the search matches every attorney. */
  lemma AvailableIgnoresSearch(attorneys: seq<Doc>, q: string, r: string)
    ensures AvailableCount(attorneys, q) == AvailableCount(attorneys, r)
    ensures AvailableCount(attorneys, q) == |Filtered(attorneys, q)| <==>
      forall i :: 0 <= i < |attorneys| ==> Matches(q, attorneys[i])
  {
    Seqs.FilterFullIffAll(a => Matches(q, a), attorneys);
  }

  /** A click on an attorney's row: the selected one is deselected, any other
      is selected. */
  function Click(selected: Option<Value>, id: Value): (next: Option<Value>)
    ensures selected == Some(id) ==> next.None?
    ensures selected != Some(id) ==> next == Some(id)
  {
    if selected == Some(id) then None else Some(id)
  }

  /** Two clicks on the same row undo each other when it was not selected,
      and the last row clicked is selected whatever came before. */
  lemma ClickToggles(selected: Option<Value>, a: Value, b: Value)
    ensures selected.None? ==> Click(Click(selected, a), a) == selected
    ensures a != b ==> Click(Click(selected, a), b) == Some(b)
  {
  }

  /** The first letters of the pieces; an empty piece adds nothing, since its
      missing first letter joins as the empty string. */
  function FirstLetters(pieces: seq<string>): (letters: string)
    requires forall i :: 0 <= i < |pieces| ==> ' ' !in pieces[i]
    ensures |letters| <= |pieces| && ' ' !in letters
  {
    if |pieces| == 0 then ""
    else (if pieces[0] == "" then "" else [pieces[0][0]]) + FirstLetters(pieces[1..])
  }

  /** `attorney.name?.split(' ').map(n => n[0]).join('').slice(0, 2)`:
      nothing for an attorney without a name. */
  function Initials(name: Option<Value>): (r: Option<string>)
    ensures r.Some? <==> name.Some? && name.value.Str?
    ensures r.Some? ==> |r.value| <= 2 && ' ' !in r.value
  {
    if name.Some? && name.value.Str? then
      var letters := FirstLetters(SplitOnSpace(name.value.s));
      Some(if |letters| <= 2 then letters else letters[..2])
    else None
  }

  /** A leading word that is not empty adds its first letter. */
  lemma LeadingLetter(w: string, rest: seq<string>)
    requires w != "" && ' ' !in w
    requires forall i :: 0 <= i < |rest| ==> ' ' !in rest[i]
    ensures FirstLetters([w] + rest) == [w[0]] + FirstLetters(rest)
  {
    assert ([w] + rest)[0] == w && ([w] + rest)[1..] == rest;
  }

  /** Two leading words that are not empty give the first two letters. */
  lemma LeadingLetters(w1: string, w2: string, rest: seq<string>)
    requires w1 != "" && w2 != "" && ' ' !in w1 && ' ' !in w2
    requires forall i :: 0 <= i < |rest| ==> ' ' !in rest[i]
    ensures |FirstLetters([w1, w2] + rest)| >= 2
    ensures FirstLetters([w1, w2] + rest)[..2] == [w1[0], w2[0]]
  {
    LeadingLetter(w2, rest);
    assert [w1, w2] + rest == [w1] + ([w2] + rest);
    LeadingLetter(w1, [w2] + rest);
  }

  /** A name of two or three words shows the first letters of the first two. */
  lemma InitialsOfWords(w1: string, w2: string, w3: string)
    requires w1 != "" && w2 != "" && ' ' !in w1 && ' ' !in w2 && ' ' !in w3
    ensures Initials(Some(Str(w1 + " " + w2))) == Some([w1[0], w2[0]])
    ensures Initials(Some(Str(w1 + " " + w2 + " " + w3))) == Some([w1[0], w2[0]])
  {
    SplitAfterWord(w1, w2);
    SplitOfWord(w2);
    assert SplitOnSpace(w1 + " " + w2) == [w1, w2] + [];
    LeadingLetters(w1, w2, []);
    var two := FirstLetters([w1, w2] + []);
    assert |two| == 2 && two == two[..2];
    assert w1 + " " + w2 + " " + w3 == w1 + " " + (w2 + " " + w3);
    SplitAfterWord(w1, w2 + " " + w3);
    SplitAfterWord(w2, w3);
    SplitOfWord(w3);
    assert SplitOnSpace(w1 + " " + w2 + " " + w3) == [w1, w2] + [w3];
    LeadingLetters(w1, w2, [w3]);
  }
}

=== FILE: createlisting.dfy ===
/** The five-step listing wizard: the form and its edits, the per-step advance
    check, the step navigation, and the record handed to the database. */
module CreateListing {
  import opened Records
  import Seqs

  /** `STEPS.length` */
  const StepCount := 5

  /** The form as first shown: text fields empty, lists empty, flags off,
      condition `fair` and timeline `12-18 months`. */
  const InitialForm: Doc := map[
    "fullAddress" := Str(""), "parcelId" := Str(""),
    "city" := Str(""), "state" := Str(""), "neighborhoodBand" := Str(""),
    "lotSizeRange" := Str(""), "lotSizeMin" := Str(""), "lotSizeMax" := Str(""),
    "zoningDistrict" := Str(""), "overlayFlags" := List([]),
    "existingStructure" := Str(""), "existingUnits" := Str(""), "existingSquareFeet" := Str(""),
    "yearBuilt" := Str(""), "condition" := Str("fair"),
    "buildPotential" := Str(""), "maxUnits" := Str(""), "maxHeight" := Str(""), "maxFAR" := Str(""),
    "targetOutcomes" := List([]), "estimatedBudgetMin" := Str(""), "estimatedBudgetMax" := Str(""),
    "targetTimeline" := Str("12-18 months"),
    "affordableHousingOptIn" := Bool(false), "amiLevel" := Str(""), "affordabilityTerm" := Str(""),
    "publicFundingDesired" := Bool(false),
    "relocationSupport" := Bool(false), "relocationHousing" := Bool(false), "relocationStorage" := Bool(false),
    "ownerNotes" := Str("")]

  /** The form opens blank: every field but the condition and the timeline is
      empty text, an empty list or off, and the two list fields are the
      outcome and overlay lists the toggles act on. */
  lemma InitialFormShape()
    ensures forall k :: k in InitialForm && k != "condition" && k != "targetTimeline" ==>
      InitialForm[k] == Str("") || InitialForm[k] == List([]) || InitialForm[k] == Bool(false)
    ensures forall k :: k in InitialForm ==> (InitialForm[k].List? <==> k == "targetOutcomes" || k == "overlayFlags")
    ensures IsText(Get(InitialForm, "condition"), "fair") && IsText(Get(InitialForm, "targetTimeline"), "12-18 months")
  {
  }

  /** `update(key, value)` */
  function Update(form: Doc, key: string, value: Value): (r: Doc)
    ensures Get(r, key) == Some(value)
    ensures SameOutside(form, r, {key})
    ensures r.Keys == form.Keys + {key}
  {
    Spread(form, map[key := value])
  }

  /** The list part of `toggleArray`: drop every copy of a present value,
      append an absent one. */
  function Toggle(xs: seq<Value>, v: Value): (r: seq<Value>)
    ensures v in xs ==> v !in r && Seqs.IsSubseq(r, xs) && forall x :: x != v ==> (x in r <==> x in xs)
    ensures v !in xs ==> r == xs + [v]
  {
    if v in xs then
      Seqs.FilterIsSubseq(x => x != v, xs);
      Seqs.Filter(x => x != v, xs)
    else xs + [v]
  }

  /** Toggling an absent value twice gives the list back; toggling a present
      value twice leaves it once, at the end. */
  lemma ToggleTwice(xs: seq<Value>, v: Value)
    ensures v !in xs ==> Toggle(Toggle(xs, v), v) == xs
    ensures v in xs ==> Toggle(Toggle(xs, v), v) == Seqs.Filter(x => x != v, xs) + [v]
  {
    if v !in xs {
      Seqs.FilterAppend(x => x != v, xs, [v]);
      Seqs.FilterKeepsAll(x => x != v, xs);
    }
  }

  /** `toggleArray(key, value)` on a list field. */
  function ToggleArray(form: Doc, key: string, v: Value): (r: Doc)
    requires key in form && form[key].List?
    ensures Get(r, key) == Some(List(Toggle(form[key].items, v)))
    ensures SameOutside(form, r, {key})
  {
    Update(form, key, List(Toggle(form[key].items, v)))
  }

  /** `canAdvance()` on a step: the location on step 0, a zoning district on
      step 1, at least one target outcome on step 2; later steps always may. */
  predicate CanAdvance(step: int, form: Doc)
  {
    if step == 0 then Truthy(Get(form, "city")) && Truthy(Get(form, "state")) && Truthy(Get(form, "fullAddress"))
    else if step == 1 then Truthy(Get(form, "zoningDistrict"))
    else if step == 2 then |ListOr(Get(form, "targetOutcomes"))| > 0
    else true
  }

  /** The blank form cannot leave any of the three checked steps. */
  lemma BlankFormCannotAdvance()
    ensures !CanAdvance(0, InitialForm) && !CanAdvance(1, InitialForm) && !CanAdvance(2, InitialForm)
  {
    assert Get(InitialForm, "city") == Some(Str(""));
    assert Get(InitialForm, "zoningDistrict") == Some(Str(""));
    assert Get(InitialForm, "targetOutcomes") == Some(List([]));
  }

  /** Typing in a city, state and address opens step 0 whatever else the form
      holds, and toggling an outcome into an empty outcome list opens step 2. */
  lemma AdvanceAfterEdits(form: Doc, city: string, state: string, address: string, outcome: Value)
    ensures city != "" && state != "" && address != "" ==>
      CanAdvance(0, Update(Update(Update(form, "city", Str(city)), "state", Str(state)), "fullAddress", Str(address)))
    ensures "targetOutcomes" in form && form["targetOutcomes"] == List([]) ==>
      CanAdvance(2, ToggleArray(form, "targetOutcomes", outcome))
  {
    var f1 := Update(form, "city", Str(city));
    var f2 := Update(f1, "state", Str(state));
    var f3 := Update(f2, "fullAddress", Str(address));
    assert Get(f3, "city") == Get(f2, "city") == Get(f1, "city");
    assert Get(f3, "state") == Get(f2, "state");
  }

  /** The wizard's navigation controls. */
  datatype StepEvent =
      /** the Back button, disabled on the first step */
    | Back
      /** the Next button, shown below the last step and disabled unless the step may advance */
    | Next
      /** a click on the stepper's `i`-th dot, acted on only for earlier steps */
    | Jump(i: int)

  /** The step after an event. */
  function StepAfter(step: int, form: Doc, ev: StepEvent): (next: int)
    requires 0 <= step < StepCount
    ensures 0 <= next < StepCount
    ensures next > step ==> ev == Next && next == step + 1 && CanAdvance(step, form)
    ensures ev.Jump? ==> next <= step
  {
    match ev
    case Back => if step == 0 then step else step - 1
    case Next => if step < StepCount - 1 && CanAdvance(step, form) then step + 1 else step
    case Jump(i) => if 0 <= i < StepCount && i < step then i else step
  }

  /** The step after a sequence of events. */
  function Run(step: int, form: Doc, events: seq<StepEvent>): int
    requires 0 <= step < StepCount
    decreases |events|
  {
    if |events| == 0 then step else Run(StepAfter(step, form, events[0]), form, events[1..])
  }

  /** Every sequence of events keeps the step in range, and a step that may
      not advance is never left forward: with an incomplete location, no
      sequence of events gets past the first step. */
  lemma {:induction false} RunStaysInRange(step: int, form: Doc, events: seq<StepEvent>)
    requires 0 <= step < StepCount
    ensures 0 <= Run(step, form, events) < StepCount
    ensures !CanAdvance(step, form) ==> Run(step, form, events) <= step
    ensures step == 0 && !CanAdvance(0, form) ==> Run(step, form, events) == 0
    decreases |events|
  {
    if |events| > 0 {
      var next := StepAfter(step, form, events[0]);
      RunStaysInRange(next, form, events[1..]);
      if !CanAdvance(step, form) {
        assert next <= step;
        if next < step {
          RunNeverPasses(next, step, form, events[1..]);
        }
      }
    }
  }

  /** Starting below a step that may not advance, no run goes past it. */
  lemma {:induction false} RunNeverPasses(step: int, wall: int, form: Doc, events: seq<StepEvent>)
    requires 0 <= step <= wall < StepCount && !CanAdvance(wall, form)
    ensures Run(step, form, events) <= wall
    decreases |events|
  {
    if |events| > 0 {
      RunNeverPasses(StepAfter(step, form, events[0]), wall, form, events[1..]);
    }
  }

  /** The record submitted from the last step: the form, then the owner, the
      pending status, the first disclosure stage and zeroed counters. */
  function SubmittedListing(form: Doc, uid: string, profile: Option<Doc>): (r: Doc)
    ensures IsText(Get(r, "status"), "pending") && IsText(Get(r, "disclosureStage"), "browse")
    ensures IsText(Get(r, "ownerId"), uid)
    ensures Get(r, "views") == Some(Num(0)) && Get(r, "pitchCount") == Some(Num(0))
    ensures Get(r, "ownerName") == Some(Or(Field(profile, "name"), Str("Owner")))
    ensures SameOutside(form, r, {"ownerId", "ownerName", "status", "disclosureStage", "views", "pitchCount"})
  {
    Spread(form, map[
      "ownerId" := Str(uid),
      "ownerName" := Or(Field(profile, "name"), Str("Owner")),
      "status" := Str("pending"),
      "disclosureStage" := Str("browse"),
      "views" := Num(0),
      "pitchCount" := Num(0)])
  }

  /** `createProperty`: the record with its status (or `pending_review`),
      zero views, no pitches, and the server's timestamps. */
  function CreateProperty(data: Doc, stamp: Value): (r: Doc)
    ensures Truthy(Get(data, "status")) ==> Get(r, "status") == Get(data, "status")
    ensures !Truthy(Get(data, "status")) ==> IsText(Get(r, "status"), "pending_review")
    ensures Get(r, "views") == Some(Num(0)) && Get(r, "pitches") == Some(List([]))
    ensures SameOutside(data, r, {"status", "views", "pitches", "createdAt", "updatedAt"})
  {
    Spread(data, map[
      "status" := Or(Get(data, "status"), Str("pending_review")),
      "views" := Num(0),
      "pitches" := List([]),
      "createdAt" := stamp,
      "updatedAt" := stamp])
  }

  /** Whatever the form holds, the stored listing is pending, at the first
      disclosure stage, owned by the submitter, and keeps every other field. */
  lemma StoredListing(form: Doc, uid: string, profile: Option<Doc>, stamp: Value)
    ensures var r := CreateProperty(SubmittedListing(form, uid, profile), stamp);
      IsText(Get(r, "status"), "pending") && IsText(Get(r, "disclosureStage"), "browse") &&
      IsText(Get(r, "ownerId"), uid) && Get(r, "views") == Some(Num(0)) &&
      SameOutside(form, r, {"ownerId", "ownerName", "status", "disclosureStage", "views", "pitchCount",
                            "pitches", "createdAt", "updatedAt"})
  {
  }
}

=== FILE: dashboard.dfy ===
/** The dashboard: the four stat cards filled from requests that settle
    independently, the recent-activity list, the greeting by hour and the
    role badge. */
module Dashboard {
  import opened Records
  import Permissions

  /** The outcome of one request once all four have settled. */
  datatype Settled = Fulfilled(items: seq<Doc>) | Rejected(reason: string)

  /** A per-user request (investments, zoning alerts) is made only with a
      uid; without one it resolves to an empty list at once. */
  function PerUser(user: Option<Doc>, request: Value -> Settled): (outcome: Settled)
    ensures !Truthy(Field(user, "uid")) ==> outcome == Fulfilled([])
    ensures Truthy(Field(user, "uid")) ==> outcome == request(Field(user, "uid").value)
  {
    var uid := Field(user, "uid");
    if Truthy(uid) then request(uid.value) else Fulfilled([])
  }

  /** `r.status === 'fulfilled' ? r.value.length : 0` */
  function Figure(outcome: Settled): nat
  {
    if outcome.Fulfilled? then |outcome.items| else 0
  }

  /** The four figures on the stat cards. */
  datatype Stats = Stats(properties: nat, projects: nat, investments: nat, alerts: nat)

  /** How many properties the recent-activity list shows at most. */
  const RecentLimit: nat := 5

  /** `properties.value.slice(0, 5)` when the properties request fulfilled;
      otherwise the list keeps its initial empty value. */
  function Recent(properties: Settled): (recent: seq<Doc>)
    ensures |recent| <= RecentLimit
    ensures properties.Fulfilled? ==> recent <= properties.items
    ensures properties.Rejected? ==> recent == []
  {
    if properties.Rejected? then []
    else if |properties.items| <= RecentLimit then properties.items
    else properties.items[..RecentLimit]
  }

  /** What the page holds once every request has settled. */
  datatype Overview = Overview(stats: Stats, recent: seq<Doc>)

  /** The settled outcomes turned into the page's data. The per-user requests
      are functions of the uid they would be made with. */
  function Load(user: Option<Doc>, properties: Settled, projects: Settled,
                investmentsOf: Value -> Settled, alertsOf: Value -> Settled): (o: Overview)
    ensures o.stats.properties >= |o.recent|
  {
    var investments := PerUser(user, investmentsOf);
    var alerts := PerUser(user, alertsOf);
    Overview(Stats(Figure(properties), Figure(projects), Figure(investments), Figure(alerts)),
             Recent(properties))
  }

  /** Each figure is the length of its list when that request fulfilled and
      zero when it was rejected; one failed request leaves the other figures
      alone. Without a uid the investment and alert figures are zero whatever
      those requests would have returned. */
  lemma StatsFromSettled(user: Option<Doc>, properties: Settled, projects: Settled,
                         investmentsOf: Value -> Settled, alertsOf: Value -> Settled)
    ensures var s := Load(user, properties, projects, investmentsOf, alertsOf).stats;
      (properties.Fulfilled? ==> s.properties == |properties.items|) &&
      (properties.Rejected? ==> s.properties == 0) &&
      (projects.Fulfilled? ==> s.projects == |projects.items|) &&
      (projects.Rejected? ==> s.projects == 0)
    ensures var s := Load(user, properties, projects, investmentsOf, alertsOf).stats;
      !Truthy(Field(user, "uid")) ==> s.investments == 0 && s.alerts == 0
    ensures var s := Load(user, properties, projects, investmentsOf, alertsOf).stats;
      var uid := Field(user, "uid");
      Truthy(uid) ==>
        (investmentsOf(uid.value).Fulfilled? ==> s.investments == |investmentsOf(uid.value).items|) &&
        (investmentsOf(uid.value).Rejected? ==> s.investments == 0) &&
        (alertsOf(uid.value).Fulfilled? ==> s.alerts == |alertsOf(uid.value).items|) &&
        (alertsOf(uid.value).Rejected? ==> s.alerts == 0)
  {
  }

  /** Recent activity shows the first five properties, or all of them when
      there are fewer, and is empty exactly when the properties figure is
      zero. */
  lemma RecentIsFirstFive(user: Option<Doc>, properties: Settled, projects: Settled,
                          investmentsOf: Value -> Settled, alertsOf: Value -> Settled)
    ensures var o := Load(user, properties, projects, investmentsOf, alertsOf);
      |o.recent| == (if o.stats.properties < RecentLimit then o.stats.properties else RecentLimit)
    ensures var o := Load(user, properties, projects, investmentsOf, alertsOf);
      properties.Fulfilled? ==>
        forall i :: 0 <= i < |o.recent| ==> o.recent[i] == properties.items[i]
    ensures var o := Load(user, properties, projects, investmentsOf, alertsOf);
      o.recent == [] <==> o.stats.properties == 0
  {
  }

  /** The part of the day the greeting names. */
  datatype Period = Morning | Afternoon | Evening

  /** `greeting()`, with the clock's hour passed in. */
  function Greeting(hour: int): (g: string)
    ensures g == "Good morning" || g == "Good afternoon" || g == "Good evening"
  {
    if hour < 12 then "Good morning"
    else if hour < 18 then "Good afternoon"
    else "Good evening"
  }

  /** The part of the day a greeting names. */
  function PeriodOf(g: string): Period
  {
    if g == "Good morning" then Morning
    else if g == "Good afternoon" then Afternoon
    else Evening
  }

  function PeriodRank(p: Period): nat
  {
    match p
    case Morning => 0
    case Afternoon => 1
    case Evening => 2
  }

  /** Hours before noon are morning, noon up to six in the evening is
      afternoon, and six onwards is evening; through the day the greeting
      only moves forward. */
  lemma GreetingByHour(hour: int, later: int)
    ensures PeriodOf(Greeting(hour)) == Morning <==> hour < 12
    ensures PeriodOf(Greeting(hour)) == Afternoon <==> 12 <= hour < 18
    ensures PeriodOf(Greeting(hour)) == Evening <==> hour >= 18
    ensures hour <= later ==> PeriodRank(PeriodOf(Greeting(hour))) <= PeriodRank(PeriodOf(Greeting(later)))
  {
  }

  /** `userData?.role || 'investor'` */
  function Role(userData: Option<Doc>): Value
  {
    Or(Field(userData, "role"), Str("investor"))
  }

  /** The badge's table of role names. */
  const RoleLabels: map<string, string> := map[
    "admin" := "Administrator",
    "owner" := "Property Owner",
    "developer" := "Developer",
    "investor" := "Investor"]

  /** `roleLabels[userRole] || 'User'` */
  function RoleLabel(userData: Option<Doc>): (shown: string)
    ensures shown == "User" || shown in RoleLabels.Values
  {
    var role := Role(userData);
    if role.Str? && role.s in RoleLabels then RoleLabels[role.s] else "User"
  }

  /** A user without a role is labelled an investor; of the platform's seven
      roles, the realtor, the attorney and the property manager fall outside
      the table and are labelled 'User', and every other role its own name.
      A role that is set but not text is labelled 'User' too; a false or zero
      one counts as missing. */
  lemma RoleLabelSpec(userData: Option<Doc>, r: Permissions.Role)
    ensures !Truthy(Field(userData, "role")) ==> RoleLabel(userData) == "Investor"
    ensures Field(userData, "role") == Some(Str(Permissions.RoleKey(r))) ==>
      (RoleLabel(userData) == "User" <==> r in {Permissions.Realtor, Permissions.Attorney, Permissions.PropertyManager})
    ensures forall v :: Field(userData, "role") == Some(v) && Truthy(Some(v)) && !v.Str? ==> RoleLabel(userData) == "User"
  {
  }
}

=== FILE: dealroom.dfy ===
/** The deal room: which projects a user is shown, which one is open, and how
    its phase and milestones are labelled. */
module DealRoom {
  import opened Records
  import Seqs
  import ProjectWorkspace

  /** The page before and after its projects arrive. The fetch only starts once
      a profile is loaded, so without one the page keeps loading. */
  datatype Room = StillLoading | Ready(projects: seq<Doc>)

  predicate OwnedBy(uid: Value, d: Doc)
  {
    Get(d, "ownerId") == Some(uid)
  }

  predicate DevelopedBy(uid: Value, d: Doc)
  {
    Get(d, "developerId") == Some(uid)
  }

  /** `where('investors', 'array-contains', uid)` */
  predicate InvestedBy(uid: Value, d: Doc)
  {
    match Get(d, "investors")
    case Some(List(xs)) => uid in xs
    case _ => false
  }

  /** The projects query for the profile's role, run over the collection `all`.
      A query on a missing uid is rejected by the database, and the page then
      shows no projects. */
  function RoomFor(profile: Option<Doc>, all: seq<Doc>): (room: Room)
    ensures room.StillLoading? <==> profile.None?
    ensures room.Ready? ==> Seqs.IsSubseq(room.projects, all)
  {
    if profile.None? then StillLoading
    else
      var p := profile.value;
      var uid := Get(p, "uid");
      var role := Get(p, "role");
      if IsText(role, "owner") || IsText(role, "developer") || IsText(role, "investor") then
        if uid.None? then Ready([])
        else
          var keep := if IsText(role, "owner") then (d: Doc) => OwnedBy(uid.value, d)
            else if IsText(role, "developer") then (d: Doc) => DevelopedBy(uid.value, d)
            else (d: Doc) => InvestedBy(uid.value, d);
          Seqs.FilterIsSubseq(keep, all);
          Ready(Seqs.Filter(keep, all))
      else
        Seqs.FilterIsSubseq((d: Doc) => true, all);
        Seqs.FilterKeepsAll((d: Doc) => true, all);
        Ready(all)
  }

  /** Each role sees exactly its own projects: owners the ones they own,
      developers the ones they develop, investors the ones listing them among
      the investors, and every other role all projects. */
  lemma RoomShowsOwnProjects(p: Doc, uid: Value, all: seq<Doc>, d: Doc)
    requires Get(p, "uid") == Some(uid)
    ensures IsText(Get(p, "role"), "owner") ==> (d in RoomFor(Some(p), all).projects <==> d in all && OwnedBy(uid, d))
    ensures IsText(Get(p, "role"), "developer") ==> (d in RoomFor(Some(p), all).projects <==> d in all && DevelopedBy(uid, d))
    ensures IsText(Get(p, "role"), "investor") ==> (d in RoomFor(Some(p), all).projects <==> d in all && InvestedBy(uid, d))
    ensures !IsText(Get(p, "role"), "owner") && !IsText(Get(p, "role"), "developer") && !IsText(Get(p, "role"), "investor") ==>
      RoomFor(Some(p), all).projects == all
  {
    Seqs.FilterMembership((x: Doc) => OwnedBy(uid, x), all, d);
    Seqs.FilterMembership((x: Doc) => DevelopedBy(uid, x), all, d);
    Seqs.FilterMembership((x: Doc) => InvestedBy(uid, x), all, d);
  }

  /** An owner, developer or investor without a uid sees no projects. */
  lemma MissingUidSeesNothing(p: Doc, all: seq<Doc>)
    requires "uid" !in p
    requires IsText(Get(p, "role"), "owner") || IsText(Get(p, "role"), "developer") || IsText(Get(p, "role"), "investor")
    ensures RoomFor(Some(p), all) == Ready([])
  {
  }

  /** `selectedProject || projects[0]` */
  function ActiveProject(selected: Option<Doc>, projects: seq<Doc>): (active: Option<Doc>)
    ensures active.Some? <==> selected.Some? || |projects| > 0
    ensures selected.None? && |projects| > 0 ==> active == Some(projects[0])
  {
    if selected.Some? then selected
    else if |projects| > 0 then Some(projects[0])
    else None
  }

  /** A selection is only ever made from the listed projects, so the open
      project is one of them, and a non-empty list always has one open. */
  lemma ActiveProjectIsListed(selected: Option<Doc>, projects: seq<Doc>)
    requires selected.None? || selected.value in projects
    ensures |projects| > 0 <==> ActiveProject(selected, projects).Some?
    ensures ActiveProject(selected, projects).Some? ==> ActiveProject(selected, projects).value in projects
  {
  }

  /** The deal room's phase labels. */
  const PhaseLabel: map<string, string> := map[
    "planning" := "Planning", "permitting" := "Permitting", "funding_close" := "Funding Close",
    "construction" := "Construction", "completion" := "Completion"]

  /** `phaseLabel[p.phase] || p.phase`: the label of a known phase, otherwise
      the stored value itself. */
  function PhaseText(phase: Option<Value>): (shown: Option<Value>)
    ensures forall k :: phase == Some(Str(k)) && k in PhaseLabel ==> shown == Some(Str(PhaseLabel[k]))
    ensures (forall k :: phase == Some(Str(k)) ==> k !in PhaseLabel) ==> shown == phase
  {
    match phase
    case Some(Str(k)) => if k in PhaseLabel then Some(Str(PhaseLabel[k])) else phase
    case _ => phase
  }

  /** The deal room labels the workspace's five phases the way the workspace
      does; an unknown phase shows as stored. */
  lemma PhaseLabelsAgreeWithWorkspace(i: int, raw: string)
    requires 0 <= i < |ProjectWorkspace.PhaseKeys|
    ensures PhaseText(Some(Str(ProjectWorkspace.PhaseKeys[i]))) == Some(Str(ProjectWorkspace.PhaseLabels[i]))
    ensures raw !in ProjectWorkspace.PhaseKeys ==> PhaseText(Some(Str(raw))) == Some(Str(raw))
  {
  }

  /** The badge beside a milestone. */
  function MilestoneBadge(status: Option<Value>): (badge: string)
    ensures badge == "Done" <==> IsText(status, "completed")
    ensures badge == "In Progress" <==> IsText(status, "in_progress")
    ensures badge == "Upcoming" <==> !IsText(status, "completed") && !IsText(status, "in_progress")
  {
    if IsText(status, "completed") then "Done"
    else if IsText(status, "in_progress") then "In Progress"
    else "Upcoming"
  }

  /** `activeProject.milestones || []`, badged in order. */
  function MilestoneBadges(project: Doc): (badges: seq<string>)
    ensures |badges| == |ListOr(Get(project, "milestones"))|
    ensures forall i :: 0 <= i < |badges| ==>
      badges[i] == MilestoneBadge(ProjectWorkspace.StatusOf(ListOr(Get(project, "milestones"))[i]))
  {
    Seqs.Map((m: Value) => MilestoneBadge(ProjectWorkspace.StatusOf(m)), ListOr(Get(project, "milestones")))
  }

  /** The deal room and the workspace spell the running milestone differently
      (`in_progress` against `in-progress`): a milestone the workspace shows as
      current is badged `Upcoming` here, and the other way round. */
  lemma InProgressSpellingsDiffer(m: Value)
    requires ProjectWorkspace.StatusOf(m) == Some(Str("in-progress"))
    ensures ProjectWorkspace.PhaseChip([m], 0) == ProjectWorkspace.CurrentChip
    ensures MilestoneBadge(ProjectWorkspace.StatusOf(m)) == "Upcoming"
    ensures var n := Obj(map["status" := Str("in_progress")]);
      MilestoneBadge(ProjectWorkspace.StatusOf(n)) == "In Progress" &&
      ProjectWorkspace.PhaseChip([n], 0) == ProjectWorkspace.NeutralChip
  {
  }
}

=== FILE: investorportfolio.dfy ===
/** The investor portfolio: the user's investments with their defaults, the
    four totals, and the distribution history. */
module InvestorPortfolio {
  import opened Records
  import Seqs

  /** `{ ...inv, committed: inv.committed || 0, deployed: inv.deployed || 0,
      distributions: inv.distributions || [] }` */
  function Defaulted(inv: Doc): (r: Doc)
    ensures !Truthy(Get(inv, "committed")) ==> Get(r, "committed") == Some(Num(0))
    ensures !Truthy(Get(inv, "deployed")) ==> Get(r, "deployed") == Some(Num(0))
    ensures !Truthy(Get(inv, "distributions")) ==> Get(r, "distributions") == Some(List([]))
    ensures Truthy(Get(inv, "committed")) ==> Get(r, "committed") == Get(inv, "committed")
    ensures Truthy(Get(inv, "deployed")) ==> Get(r, "deployed") == Get(inv, "deployed")
    ensures Truthy(Get(inv, "distributions")) ==> Get(r, "distributions") == Get(inv, "distributions")
    ensures SameOutside(inv, r, {"committed", "deployed", "distributions"})
  {
    Spread(inv, map[
      "committed" := Or(Get(inv, "committed"), Num(0)),
      "deployed" := Or(Get(inv, "deployed"), Num(0)),
      "distributions" := Or(Get(inv, "distributions"), List([]))])
  }

  /** `where('userId', '==', uid)` */
  predicate HeldBy(uid: Value, s: Stored)
  {
    Get(s.data, "userId") == Some(uid)
  }

  /** The query as a test on stored documents. */
  function Held(uid: Value): Stored -> bool
  {
    s => HeldBy(uid, s)
  }

  /** One listed investment: the stored document with its id, defaulted. */
  function Listed(s: Stored): Doc
  {
    Defaulted(WithId(s))
  }

  /** The investments listed for a profile: none without a uid (the fetch
      never starts) or when the fetch fails (`None`). */
  function Portfolio(profile: Option<Doc>, collection: Option<seq<Stored>>): (invs: seq<Doc>)
    ensures !Truthy(Field(profile, "uid")) || collection.None? ==> invs == []
    ensures collection.Some? ==> |invs| <= |collection.value|
    ensures forall i :: 0 <= i < |invs| ==>
      Get(invs[i], "userId") == Field(profile, "uid") && Get(invs[i], "distributions").Some?
  {
    var uid := Field(profile, "uid");
    if !Truthy(uid) || collection.None? then []
    else
      Seqs.Map(Listed, Seqs.Filter(Held(uid.value), collection.value))
  }

  /** Every listed investment is a stored investment of the user, defaulted. */
  lemma ListsOnlyHeld(profile: Doc, docs: seq<Stored>)
    requires Truthy(Get(profile, "uid"))
    ensures var invs := Portfolio(Some(profile), Some(docs));
      forall i :: 0 <= i < |invs| ==>
        exists s :: s in docs && HeldBy(Get(profile, "uid").value, s) && invs[i] == Listed(s)
  {
    var uid := Get(profile, "uid").value;
    var kept := Seqs.Filter(Held(uid), docs);
    var invs := Portfolio(Some(profile), Some(docs));
    assert invs == Seqs.Map(Listed, kept);
    forall i | 0 <= i < |invs|
      ensures exists s :: s in docs && HeldBy(uid, s) && invs[i] == Listed(s)
    {
      assert kept[i] in docs && Held(uid)(kept[i]);
      assert HeldBy(uid, kept[i]) && invs[i] == Listed(kept[i]);
    }
    assert forall i :: 0 <= i < |invs| ==> exists s :: s in docs && HeldBy(uid, s) && invs[i] == Listed(s);
    assert Portfolio(Some(profile), Some(docs)) == invs;
  }

  /** Every stored investment of the user is listed. */
  lemma ListsEveryHeld(profile: Doc, docs: seq<Stored>, s: Stored)
    requires Truthy(Get(profile, "uid"))
    ensures s in docs && HeldBy(Get(profile, "uid").value, s) ==>
      Listed(s) in Portfolio(Some(profile), Some(docs))
  {
    if s in docs && HeldBy(Get(profile, "uid").value, s) {
      Seqs.MapOfFilter(Listed, Held(Get(profile, "uid").value), docs, s);
    }
  }

  /** `inv.committed` once defaulted, as a number. */
  function Committed(inv: Doc): int
  {
    IntOr(Get(inv, "committed"), 0)
  }

  function Deployed(inv: Doc): int
  {
    IntOr(Get(inv, "deployed"), 0)
  }

  /** `d.amount` of one distribution. */
  function AmountOf(d: Value): int
  {
    if d.Obj? then IntOr(Get(d.fields, "amount"), 0) else 0
  }

  /** `inv.distributions` once defaulted. */
  function Distributions(inv: Doc): seq<Value>
  {
    ListOr(Get(inv, "distributions"))
  }

  /** `inv.distributions.reduce((s, d) => s + d.amount, 0)` */
  function Distributed(inv: Doc): int
  {
    Seqs.SumOf(AmountOf, Distributions(inv))
  }

  function TotalCommitted(invs: seq<Doc>): int
  {
    Seqs.SumOf(Committed, invs)
  }

  function TotalDeployed(invs: seq<Doc>): int
  {
    Seqs.SumOf(Deployed, invs)
  }

  function TotalDistributions(invs: seq<Doc>): int
  {
    Seqs.SumOf(Distributed, invs)
  }

  /** `inv.status` */
  function StatusOf(inv: Doc): Option<Value>
  {
    Get(inv, "status")
  }

  predicate IsActive(inv: Doc)
  {
    IsText(StatusOf(inv), "active")
  }

  /** `investments.filter(i => i.status === 'active').length` */
  function ActiveCount(invs: seq<Doc>): nat
  {
    CountActive(StatusOf, invs)
  }

  /** `createInvestment`: the record stored as active. */
  function CreateInvestment(data: Doc, stamp: Value): (r: Doc)
    ensures IsText(Get(r, "status"), "active")
    ensures SameOutside(data, r, {"status", "createdAt"})
  {
    Spread(data, map["status" := Str("active"), "createdAt" := stamp])
  }

  /** A newly created investment, once defaulted, is active and carries the
      amounts it was created with (nothing when an amount is missing). */
  lemma NewInvestmentFigures(data: Doc, stamp: Value)
    ensures var inv := Defaulted(CreateInvestment(data, stamp));
      IsActive(inv) && Committed(inv) == IntOr(Get(data, "committed"), 0) &&
      Deployed(inv) == IntOr(Get(data, "deployed"), 0) && Distributed(inv) == Distributed(data)
  {
    var inv := Defaulted(CreateInvestment(data, stamp));
    assert Distributions(inv) == Distributions(data);
  }

  /** The totals add up over a split of the list, so a newly created
      investment raises the active count by one and each total by its own
      amount. */
  lemma TotalsAreAdditive(invs: seq<Doc>, data: Doc, stamp: Value)
    ensures var inv := Defaulted(CreateInvestment(data, stamp));
      ActiveCount(invs + [inv]) == ActiveCount(invs) + 1 &&
      TotalCommitted(invs + [inv]) == TotalCommitted(invs) + IntOr(Get(data, "committed"), 0) &&
      TotalDeployed(invs + [inv]) == TotalDeployed(invs) + IntOr(Get(data, "deployed"), 0) &&
      TotalDistributions(invs + [inv]) == TotalDistributions(invs) + Distributed(data)
  {
    var inv := Defaulted(CreateInvestment(data, stamp));
    NewInvestmentFigures(data, stamp);
    CountActiveAppend(StatusOf, invs, [inv]);
    Seqs.SumOfAppend(Committed, invs, [inv]);
    Seqs.SumOfAppend(Deployed, invs, [inv]);
    Seqs.SumOfAppend(Distributed, invs, [inv]);
  }

  /** With non-negative amounts every total is non-negative. */
  lemma TotalsNonNegative(invs: seq<Doc>)
    requires forall i :: 0 <= i < |invs| ==> Committed(invs[i]) >= 0 && Deployed(invs[i]) >= 0
    ensures TotalCommitted(invs) >= 0 && TotalDeployed(invs) >= 0
  {
    Seqs.SumOfNonNegative(Committed, invs);
    Seqs.SumOfNonNegative(Deployed, invs);
  }

  /** One row of the distribution history. */
  datatype Row = Row(investment: Doc, distribution: Value)

  function RowAmount(r: Row): int
  {
    AmountOf(r.distribution)
  }

  function RowsOf(inv: Doc): (rows: seq<Row>)
    ensures |rows| == |Distributions(inv)|
    ensures forall i :: 0 <= i < |rows| ==> rows[i] == Row(inv, Distributions(inv)[i])
  {
    Seqs.Map((d: Value) => Row(inv, d), Distributions(inv))
  }

  /** `investments.flatMap(inv => inv.distributions.map(...))` */
  function DistributionRows(invs: seq<Doc>): seq<Row>
  {
    Seqs.FlatMap(RowsOf, invs)
  }

  /** The rows of one investment carry its distributed total. */
  lemma {:induction false} RowsOfCarryAmounts(inv: Doc, ds: seq<Value>)
    ensures Seqs.SumOf(RowAmount, Seqs.Map((d: Value) => Row(inv, d), ds)) == Seqs.SumOf(AmountOf, ds)
  {
    if |ds| > 0 {
      var f := (d: Value) => Row(inv, d);
      assert Seqs.Map(f, ds)[1..] == Seqs.Map(f, ds[1..]);
      RowsOfCarryAmounts(inv, ds[1..]);
    }
  }

  /** The history lists each investment's distributions, investment by
      investment, and its amounts add up to the distributions total. */
  lemma {:induction false} HistoryMatchesTotal(invs: seq<Doc>)
    ensures Seqs.SumOf(RowAmount, DistributionRows(invs)) == TotalDistributions(invs)
    ensures |DistributionRows(invs)| == Seqs.SumOf(inv => |Distributions(inv)|, invs)
  {
    if |invs| > 0 {
      Seqs.SumOfAppend(RowAmount, RowsOf(invs[0]), DistributionRows(invs[1..]));
      RowsOfCarryAmounts(invs[0], Distributions(invs[0]));
      HistoryMatchesTotal(invs[1..]);
    }
  }

  /** The history of two lists of investments is their histories joined. */
  lemma HistoryInOrder(a: seq<Doc>, b: seq<Doc>)
    ensures DistributionRows(a + b) == DistributionRows(a) + DistributionRows(b)
  {
    Seqs.FlatMapAppend(RowsOf, a, b);
  }
}

=== FILE: layout.dfy ===
/** The application shell's sidebar: the role it falls back to, the bucketing of
    the role's navigation links into sections, the section headings and the
    admin-only console link. */
module Layout {
  import opened Records
  import Seqs
  import opened Permissions

  /** `userData?.role || 'investor'`: the role the sidebar is computed for. */
  function SidebarRole(profile: Option<Doc>): (role: string)
    ensures role != ""
    ensures forall s :: IsText(Field(profile, "role"), s) && s != "" ==> role == s
    ensures !Truthy(Field(profile, "role")) ==> role == "investor"
  {
    StrOr(Field(profile, "role"), "investor")
  }

  /** One section of the sidebar: its key and its links, in the order pushed. */
  datatype Bucket<T> = Bucket(key: string, items: seq<T>)

  function Keys<T>(b: seq<Bucket<T>>): (ks: seq<string>)
    ensures |ks| == |b|
    ensures forall j :: 0 <= j < |b| ==> ks[j] == b[j].key
  {
    seq(|b|, j requires 0 <= j < |b| => b[j].key)
  }

  /** Where `sections[k]` lives: the first bucket with key `k`, or -1. */
  function BucketIndex<T>(b: seq<Bucket<T>>, k: string): (j: int)
    ensures -1 <= j < |b|
    ensures j == -1 <==> k !in Keys(b)
    ensures j >= 0 ==> b[j].key == k && forall i :: 0 <= i < j ==> b[i].key != k
  {
    if |b| == 0 then -1
    else if b[0].key == k then 0
    else
      var j := BucketIndex(b[1..], k);
      assert Keys(b) == [b[0].key] + Keys(b[1..]);
      if j == -1 then -1 else j + 1
  }

  /** One step of the `forEach`: push `x` onto the bucket for `k`, creating that
      bucket at the end when it is new. */
  function Place<T>(b: seq<Bucket<T>>, k: string, x: T): seq<Bucket<T>>
  {
    var j := BucketIndex(b, k);
    if j == -1 then b + [Bucket(k, [x])] else b[j := Bucket(k, b[j].items + [x])]
  }

  /** The sections object after visiting every item, as its ordered entries. */
  function GroupBy<T>(items: seq<T>, key: T -> string): seq<Bucket<T>>
    decreases |items|
  {
    if |items| == 0 then []
    else Place(GroupBy(items[..|items| - 1], key), key(items[|items| - 1]), items[|items| - 1])
  }

  /** The links of all sections, read section by section. */
  function Flatten<T>(b: seq<Bucket<T>>): seq<T>
  {
    Seqs.FlatMap((bk: Bucket<T>) => bk.items, b)
  }

  /** The filter selecting the items with key `k`. */
  function HasKey<T>(key: T -> string, k: string): T -> bool
  {
    x => key(x) == k
  }

  /** Pushing onto a bucket leaves the keys alone; a new key goes last. */
  lemma KeysOfPlace<T>(b: seq<Bucket<T>>, k: string, x: T)
    ensures Keys(Place(b, k, x)) == if k in Keys(b) then Keys(b) else Keys(b) + [k]
  {
    var j := BucketIndex(b, k);
    if j != -1 {
      assert Keys(b[j := Bucket(k, b[j].items + [x])]) == Keys(b);
    } else {
      assert Keys(b + [Bucket(k, [x])]) == Keys(b) + [k];
    }
  }

  /** Buckets appear in first-seen order of their keys, each key once. */
  lemma {:induction false} GroupKeys<T>(items: seq<T>, key: T -> string)
    ensures Keys(GroupBy(items, key)) == Seqs.Distinct(Seqs.Map(key, items))
    decreases |items|
  {
    if |items| > 0 {
      var init := items[..|items| - 1];
      var last := items[|items| - 1];
      var k := key(last);
      var b := GroupBy(init, key);
      var ks := Seqs.Map(key, init);
      GroupKeys(init, key);
      Seqs.MapInit(key, items);
      assert (k in Keys(b)) == (k in ks) by {
        Seqs.DistinctMembership(ks, k);
      }
      calc {
        Keys(GroupBy(items, key));
        Keys(Place(b, k, last));
        { KeysOfPlace(b, k, last); }
        if k in Keys(b) then Keys(b) else Keys(b) + [k];
        if k in ks then Seqs.Distinct(ks) else Seqs.Distinct(ks) + [k];
        { Seqs.DistinctSnoc(ks, k); }
        Seqs.Distinct(ks + [k]);
        Seqs.Distinct(Seqs.Map(key, items));
      }
    }
  }

  /** Each bucket holds exactly the items with its key, in their original order. */
  lemma {:induction false} GroupBuckets<T>(items: seq<T>, key: T -> string)
    ensures forall j :: 0 <= j < |GroupBy(items, key)| ==>
      GroupBy(items, key)[j].items == Seqs.Filter(HasKey(key, GroupBy(items, key)[j].key), items)
    decreases |items|
  {
    if |items| > 0 {
      var init := items[..|items| - 1];
      var last := items[|items| - 1];
      Seqs.InitLast(items);
      var b := GroupBy(init, key);
      GroupBuckets(init, key);
      GroupKeys(init, key);
      var k := key(last);
      var r := GroupBy(items, key);
      var jf := BucketIndex(b, k);
      forall j | 0 <= j < |r| ensures r[j].items == Seqs.Filter(HasKey(key, r[j].key), items) {
        var p := HasKey(key, r[j].key);
        Seqs.FilterAppend(p, init, [last]);
        assert Seqs.Filter(p, [last]) == if p(last) then [last] else [];
        if jf == -1 && j == |b| {
          forall i | 0 <= i < |init| ensures !p(init[i]) {
            assert Seqs.Map(key, init)[i] == key(init[i]);
          }
          Seqs.FilterDropsAll(p, init);
        } else if jf == -1 {
          assert r[j] == b[j];
        } else if j != jf {
          assert r[j] == b[j];
          assert Keys(b)[j] != Keys(b)[jf];
        }
      }
    }
  }

  /** Reading the sections around section `j`. */
  lemma FlattenAround<T>(b: seq<Bucket<T>>, j: nat)
    requires j < |b|
    ensures Flatten(b) == Flatten(b[..j]) + b[j].items + Flatten(b[j + 1..])
  {
    var f := (bk: Bucket<T>) => bk.items;
    assert b == b[..j] + ([b[j]] + b[j + 1..]);
    Seqs.FlatMapAppend(f, b[..j], [b[j]] + b[j + 1..]);
    Seqs.FlatMapAppend(f, [b[j]], b[j + 1..]);
  }

  /** Reading the sections after one more is opened at the end. */
  lemma FlattenSnoc<T>(b: seq<Bucket<T>>, nb: Bucket<T>)
    ensures Flatten(b + [nb]) == Flatten(b) + nb.items
  {
    Seqs.FlatMapAppend((bk: Bucket<T>) => bk.items, b, [nb]);
  }

  /** Reading the sections after `x` is pushed onto section `j`. */
  lemma FlattenPush<T>(b: seq<Bucket<T>>, j: nat, k: string, x: T)
    requires j < |b|
    ensures var before := Flatten(b[..j]); var after := Flatten(b[j + 1..]);
      Flatten(b) == before + b[j].items + after &&
      Flatten(b[j := Bucket(k, b[j].items + [x])]) == before + (b[j].items + [x]) + after
  {
    var r := b[j := Bucket(k, b[j].items + [x])];
    FlattenAround(b, j);
    FlattenAround(r, j);
    assert r[..j] == b[..j] && r[j + 1..] == b[j + 1..];
  }

  /** Pushing onto a section that exists adds `x` to what the sections hold. */
  lemma FlattenPlaceCounts<T>(b: seq<Bucket<T>>, k: string, x: T)
    requires BucketIndex(b, k) >= 0
    ensures multiset(Flatten(Place(b, k, x))) == multiset(Flatten(b)) + multiset{x}
  {
    var j := BucketIndex(b, k);
    var before, mid, after := Flatten(b[..j]), b[j].items, Flatten(b[j + 1..]);
    assert Flatten(Place(b, k, x)) == before + (mid + [x]) + after && Flatten(b) == before + mid + after by {
      FlattenPush(b, j, k, x);
    }
  }

  /** Pushing onto the last section reads `x` last. */
  lemma FlattenPlaceLast<T>(b: seq<Bucket<T>>, k: string, x: T)
    requires 0 <= BucketIndex(b, k) == |b| - 1
    ensures Flatten(Place(b, k, x)) == Flatten(b) + [x]
  {
    var j := BucketIndex(b, k);
    var before, mid := Flatten(b[..j]), b[j].items;
    assert Flatten(b[j + 1..]) == [] by {
      assert b[j + 1..] == [];
    }
    assert Flatten(Place(b, k, x)) == before + (mid + [x]) + [] && Flatten(b) == before + mid + [] by {
      FlattenPush(b, j, k, x);
    }
  }

  /** Pushing `x` adds exactly `x` to what the sections hold, and when `x` goes to
      the last section, or to a new one, it is read last. */
  lemma FlattenPlace<T>(b: seq<Bucket<T>>, k: string, x: T)
    ensures multiset(Flatten(Place(b, k, x))) == multiset(Flatten(b)) + multiset{x}
    ensures BucketIndex(b, k) == -1 || BucketIndex(b, k) == |b| - 1 ==>
      Flatten(Place(b, k, x)) == Flatten(b) + [x]
  {
    if BucketIndex(b, k) == -1 {
      FlattenSnoc(b, Bucket(k, [x]));
    } else {
      FlattenPlaceCounts(b, k, x);
      if BucketIndex(b, k) == |b| - 1 {
        FlattenPlaceLast(b, k, x);
      }
    }
  }

  /** No link is lost or duplicated: the sections together hold the same links. */
  lemma {:induction false} GroupKeepsEveryItem<T>(items: seq<T>, key: T -> string)
    ensures multiset(Flatten(GroupBy(items, key))) == multiset(items)
    decreases |items|
  {
    if |items| > 0 {
      var init := items[..|items| - 1];
      var last := items[|items| - 1];
      Seqs.InitLast(items);
      GroupKeepsEveryItem(init, key);
      FlattenPlace(GroupBy(init, key), key(last), last);
    }
  }

  /** In a sorted sequence whose ranks tell keys apart, an element whose key was
      already seen shares the key of the element just before it. */
  lemma SortedRepeatIsAdjacent<T>(init: seq<T>, last: T, key: T -> string, rank: T -> int)
    requires Seqs.SortedBy(rank, init + [last])
    requires forall x, y :: key(x) == key(y) <==> rank(x) == rank(y)
    requires key(last) in Seqs.Map(key, init)
    ensures |init| > 0 && key(init[|init| - 1]) == key(last)
  {
    var s := init + [last];
    var m :| 0 <= m < |init| && Seqs.Map(key, init)[m] == key(last);
    assert s[m] == init[m] && s[|init| - 1] == init[|init| - 1] && s[|init|] == last;
    assert rank(s[m]) <= rank(s[|init| - 1]) <= rank(s[|init|]);
  }

  /** When items arrive sorted by a rank that tells keys apart (so that every key's
      items are contiguous), reading the sections in order gives back the items
      unchanged, and the last section is the last item's. */
  lemma {:induction false} GroupOfSortedIsIdentity<T>(items: seq<T>, key: T -> string, rank: T -> int)
    requires Seqs.SortedBy(rank, items)
    requires forall x, y :: key(x) == key(y) <==> rank(x) == rank(y)
    ensures Flatten(GroupBy(items, key)) == items
    ensures |items| > 0 ==> (|GroupBy(items, key)| > 0 &&
      GroupBy(items, key)[|GroupBy(items, key)| - 1].key == key(items[|items| - 1]))
    decreases |items|
  {
    if |items| > 0 {
      var init := items[..|items| - 1];
      var last := items[|items| - 1];
      Seqs.InitLast(items);
      Seqs.SortedPrefix(rank, init, [last]);
      GroupOfSortedIsIdentity(init, key, rank);
      GroupSortedStep(init, last, key, rank);
    }
  }

  /** The inductive step of `GroupOfSortedIsIdentity`. */
  lemma GroupSortedStep<T>(init: seq<T>, last: T, key: T -> string, rank: T -> int)
    requires Seqs.SortedBy(rank, init + [last])
    requires forall x, y :: key(x) == key(y) <==> rank(x) == rank(y)
    requires Flatten(GroupBy(init, key)) == init
    requires |init| > 0 ==> (|GroupBy(init, key)| > 0 &&
      GroupBy(init, key)[|GroupBy(init, key)| - 1].key == key(init[|init| - 1]))
    ensures Flatten(GroupBy(init + [last], key)) == init + [last]
    ensures |GroupBy(init + [last], key)| > 0
    ensures GroupBy(init + [last], key)[|GroupBy(init + [last], key)| - 1].key == key(last)
  {
    var items := init + [last];
    assert items[..|items| - 1] == init;
    var b := GroupBy(init, key);
    GroupKeys(init, key);
    var jf := BucketIndex(b, key(last));
    if jf != -1 {
      SortedRepeatIsAdjacent(init, last, key, rank);
      assert Keys(b)[|b| - 1] == Keys(b)[jf];
    }
    FlattenPlace(b, key(last), last);
  }

  /** `item.section || 'main'` */
  function SectionKey(e: NavItem): (k: string)
    ensures k != ""
  {
    if NavSection(e) == "" then "main" else NavSection(e)
  }

  /** The position of each link's section in the navigation table. */
  function SectionRank(e: NavItem): int
  {
    match e
    case DashboardLink | MarketplaceLink | CreateListingLink | ZoningLink => 0
    case DealRoomLink | ComplianceLink | AttorneysLink | AffordableHousingLink => 1
    case PortfolioLink | ReferralsLink => 2
    case PropertyManagementLink => 3
  }

  /** The section key at each position. */
  function SectionAtRank(n: int): string
  {
    if n == 0 then "main" else if n == 1 then "deals" else if n == 2 then "finance" else "operations"
  }

  /** The navigation table lists each section's links together, and the section
      positions tell the section keys apart. */
  lemma NavTableSortedBySection()
    ensures Seqs.SortedBy(SectionRank, AllNav)
    ensures forall x, y :: SectionKey(x) == SectionKey(y) <==> SectionRank(x) == SectionRank(y)
  {
    forall i | 0 <= i < |AllNav| - 1 ensures SectionRank(AllNav[i]) <= SectionRank(AllNav[i + 1]) {
    }
    Seqs.SortedFromAdjacent(SectionRank, AllNav);
    assert forall x :: SectionKey(x) == SectionAtRank(SectionRank(x));
    assert forall x :: SectionRank(x) == RankOfKey(SectionKey(x));
  }

  function RankOfKey(k: string): int
  {
    if k == "main" then 0 else if k == "deals" then 1 else if k == "finance" then 2 else 3
  }

  /** The sidebar's sections for a role, in the order they are rendered. */
  function SidebarSections(role: string): seq<Bucket<NavItem>>
  {
    GroupBy(NavigationForRole(role), SectionKey)
  }

  /** The sidebar shows a role's navigation list exactly: reading the sections in
      order gives the list back, and each section holds that section's links in
      list order. */
  lemma SidebarShowsNavigation(role: string)
    ensures Flatten(SidebarSections(role)) == NavigationForRole(role)
    ensures forall j :: 0 <= j < |SidebarSections(role)| ==>
      SidebarSections(role)[j].items == Seqs.Filter(HasKey(SectionKey, SidebarSections(role)[j].key), NavigationForRole(role))
    ensures Keys(SidebarSections(role)) == Seqs.Distinct(Seqs.Map(SectionKey, NavigationForRole(role)))
  {
    NavTableSortedBySection();
    Seqs.FilterKeepsSorted(e => NavVisible(role, e), SectionRank, AllNav);
    GroupOfSortedIsIdentity(NavigationForRole(role), SectionKey, SectionRank);
    GroupBuckets(NavigationForRole(role), SectionKey);
    GroupKeys(NavigationForRole(role), SectionKey);
  }

  /** The `forEach` that builds the sections object. */
  method GroupIntoSections(items: seq<NavItem>) returns (sections: seq<Bucket<NavItem>>)
    ensures sections == GroupBy(items, SectionKey)
    ensures multiset(Flatten(sections)) == multiset(items)
  {
    sections := [];
    var i := 0;
    while i < |items|
      invariant 0 <= i <= |items|
      invariant sections == GroupBy(items[..i], SectionKey)
    {
      assert items[..i + 1][..i] == items[..i];
      sections := Place(sections, SectionKey(items[i]), items[i]);
      i := i + 1;
    }
    assert items[..i] == items;
    GroupKeepsEveryItem(items, SectionKey);
  }

  /** `NAV_SECTIONS[key] || key` */
  function SectionHeading(key: string): (heading: string)
    ensures key in NavSections && NavSections[key] != "" ==> heading == NavSections[key]
    ensures key !in NavSections ==> heading == key
  {
    if key in NavSections && NavSections[key] != "" then NavSections[key] else key
  }

  /** Every link's section key has a non-empty label. */
  lemma SectionKeyHasHeading(e: NavItem)
    ensures SectionKey(e) in NavSections && NavSections[SectionKey(e)] != ""
  {
  }

  /** Every section the sidebar can show is headed by its label, never the raw key. */
  lemma SidebarHeadingsAreLabels(role: string, j: nat)
    requires j < |SidebarSections(role)|
    ensures SidebarSections(role)[j].key in NavSections
    ensures SectionHeading(SidebarSections(role)[j].key) == NavSections[SidebarSections(role)[j].key]
  {
    var nav := NavigationForRole(role);
    GroupKeys(nav, SectionKey);
    var ks := Seqs.Map(SectionKey, nav);
    var k := Keys(SidebarSections(role))[j];
    assert k in Seqs.Distinct(ks);
    var i :| 0 <= i < |ks| && ks[i] == k;
    SectionKeyHasHeading(nav[i]);
  }

  /** `userData?.role === 'admin'`: the Admin Console link. */
  predicate ShowsAdminLink(profile: Option<Doc>)
  {
    IsText(Field(profile, "role"), RoleKey(Admin))
  }

  /** The console link appears only for a stored role of exactly 'admin', and such a
      profile also gets the full navigation list. */
  lemma AdminLinkOnlyForAdmins(profile: Option<Doc>)
    ensures ShowsAdminLink(profile) <==> profile.Some? && Get(profile.value, "role") == Some(Str("admin"))
    ensures ShowsAdminLink(profile) ==> SidebarRole(profile) == "admin"
    ensures !Truthy(Field(profile, "role")) ==> !ShowsAdminLink(profile)
  {
  }
}

=== FILE: login.dfy ===
/** The login form: the empty-field check on submit and the translation of
    provider errors. */
module Login {
  import opened Text
  import opened Messages

  const EmptyFieldsMessage := "Please fill in both email and password."

  /** The outcome of pressing submit: an error, or the arguments passed to `login`. */
  datatype LoginOutcome = Refused(message: string) | Attempt(email: string, password: string)

  /** `handleSubmit`: both fields must be non-blank; the email is trimmed and
      the password passed as typed. */
  function ValidateLogin(email: string, password: string): (o: LoginOutcome)
    ensures o.Attempt? <==> !IsBlank(email) && !IsBlank(password)
    ensures o.Refused? ==> o.message == EmptyFieldsMessage
    ensures o.Attempt? ==> o.email == Trim(email) && o.password == password
  {
    TrimEmptyIffBlank(email);
    TrimEmptyIffBlank(password);
    if Trim(email) == "" || Trim(password) == "" then Refused(EmptyFieldsMessage)
    else Attempt(Trim(email), password)
  }

  /** Spaces around the email are dropped before the sign-in attempt. */
  lemma LoginTrimsTheEmail(email: string, password: string)
    requires |email| > 0 && !IsSpace(email[0]) && !IsSpace(email[|email| - 1])
    requires !IsBlank(password)
    ensures ValidateLogin(" " + email + " ", password) == Attempt(email, password)
  {
    TrimPadded(email);
    assert !IsBlank(email) by { assert !IsSpace(email[0]); }
  }

  /** The password is passed with its spaces, and a password of spaces alone
      is refused. */
  lemma LoginKeepsPasswordSpaces(email: string, password: string)
    requires !IsBlank(email) && !IsBlank(password)
    ensures ValidateLogin(email, " " + password) == Attempt(Trim(email), " " + password)
    ensures ValidateLogin(email, " ") == Refused(EmptyFieldsMessage)
  {
    if IsBlank(" " + password) {
      forall i | 0 <= i < |password| ensures IsSpace(password[i]) {
        assert password[i] == (" " + password)[i + 1];
      }
    }
    assert IsBlank(" ");
  }

  const NoAccountMessage := "No account found with that email. Please sign up first."

  /** The login page's error rules, in order; the first test matches either of
      two codes, so it is two rules with one text. */
  const LoginRules: seq<Rule> := [
    Rule("user-not-found", NoAccountMessage),
    Rule("invalid-credential", NoAccountMessage),
    Rule("wrong-password", "Incorrect password. Please try again or reset your password."),
    Rule("invalid-email", "Please enter a valid email address."),
    Rule("too-many-requests", "Too many attempts. Please wait a minute and try again."),
    Rule("network-request-failed", "Network error \U{2014} please check your connection.")]

  const GenericLoginError := "Unable to sign in. Please check your credentials and try again."

  /** `friendlyError` */
  function LoginFriendlyError(msg: string): string
  {
    Translate(LoginRules, msg, GenericLoginError)
  }

  /** An unknown account or bad credential wins over every later rule; a
      message matching no rule gets the generic text. */
  lemma LoginErrorPriority(msg: string)
    ensures Contains(msg, "user-not-found") || Contains(msg, "invalid-credential") ==>
      LoginFriendlyError(msg) == NoAccountMessage
    ensures (forall j :: 0 <= j < |LoginRules| ==> !Fires(msg, LoginRules[j])) ==>
      LoginFriendlyError(msg) == GenericLoginError
  {
    var i := FirstFiring(LoginRules, msg);
    if Contains(msg, "user-not-found") || Contains(msg, "invalid-credential") {
      assert Fires(msg, LoginRules[0]) || Fires(msg, LoginRules[1]);
      assert 0 <= i <= 1;
    }
  }

  /** Rule `k` decides the message when it is the first to fire. */
  lemma LoginRulePriority(msg: string, k: int)
    requires 0 <= k < |LoginRules|
    ensures Fires(msg, LoginRules[k]) && (forall j :: 0 <= j < k ==> !Fires(msg, LoginRules[j])) ==>
      LoginFriendlyError(msg) == LoginRules[k].text
  {
    TranslatePriority(LoginRules, msg, GenericLoginError, k);
  }
}

=== FILE: messages.dfy ===
/** The auth pages turn a raw error message into a friendly one by testing
    substrings in a fixed order; the first rule whose key occurs wins. */
module Messages {
  import opened Text
  import Seqs

  /** If the raw message contains `key`, show `text`. */
  datatype Rule = Rule(key: string, text: string)

  /** Does the rule's key occur in the message? */
  predicate Fires(msg: string, rule: Rule)
  {
    Contains(msg, rule.key)
  }

  /** The index of the first rule that fires, or -1 when none does. */
  function FirstFiring(rules: seq<Rule>, msg: string): (i: int)
    ensures -1 <= i < |rules|
    ensures i == -1 <==> forall j :: 0 <= j < |rules| ==> !Fires(msg, rules[j])
    ensures i >= 0 ==> Fires(msg, rules[i]) && forall j :: 0 <= j < i ==> !Fires(msg, rules[j])
  {
    Seqs.FindIndex(rule => Fires(msg, rule), rules)
  }

  /** The text of the first rule that fires, or `fallback`. */
  function Translate(rules: seq<Rule>, msg: string, fallback: string): string
  {
    var i := FirstFiring(rules, msg);
    if i >= 0 then rules[i].text else fallback
  }

  /** Rule `k` decides the message exactly when it fires and no earlier rule
      does; when no rule fires the fallback is shown. */
  lemma TranslatePriority(rules: seq<Rule>, msg: string, fallback: string, k: int)
    requires 0 <= k < |rules|
    ensures Fires(msg, rules[k]) && (forall j :: 0 <= j < k ==> !Fires(msg, rules[j])) ==>
      Translate(rules, msg, fallback) == rules[k].text
    ensures (forall j :: 0 <= j < |rules| ==> !Fires(msg, rules[j])) ==> Translate(rules, msg, fallback) == fallback
  {
    var i := FirstFiring(rules, msg);
    if Fires(msg, rules[k]) && (forall j :: 0 <= j < k ==> !Fires(msg, rules[j])) {
      assert i >= 0 && !(i < k) && !(k < i);
    }
  }
}

=== FILE: onboarding.dfy ===
/** How a user's profile moves through the access checks: from signup (or
    first sign-in) through the route guard, the admin console's approval
    actions, and the maintenance helpers. */
module Onboarding {
  import opened Records
  import opened Text
  import opened Permissions
  import opened Profiles
  import opened RouteGuard
  import Auth
  import Signup
  import AdminConsole
  import UserMaintenance

  /** A signup profile whose extra fields leave the status and role alone
      waits for approval unless the role is admin. */
  lemma SignupProfileAwaitsApproval(account: Auth.Account, name: string, role: string, extra: Doc, now: string)
    requires "approvalStatus" !in extra && "role" !in extra && role != "admin"
    ensures PrivateRoute(false, true, Some(Auth.SignupProfile(account, name, role, extra, now))) == RedirectToPendingApproval
  {
    var p := Auth.SignupProfile(account, name, role, extra, now);
    assert !IsAdminProfile(p);
    NonAdminRoutedByApproval(p);
  }

  /** A form that passes the signup checks produces a profile that waits for
      approval: pending, with the chosen role, which is never admin. */
  lemma SignupAwaitsApproval(f: Signup.SignupForm, account: Auth.Account, now: string)
    requires f.role in Signup.SignupRoles && Signup.ExtrasBelongToRole(f)
    requires Signup.Validate(f).Submit?
    ensures var o := Signup.Validate(f);
      var p := Auth.SignupProfile(account, o.name, o.role, Signup.ExtraDoc(o.extra), now);
      ApprovalOf(p) == Some(Pending) && IsText(Get(p, "role"), f.role) &&
      PrivateRoute(false, true, Some(p)) == RedirectToPendingApproval
  {
    var o := Signup.Validate(f);
    assert o == Signup.Submit(Trim(f.email), f.password, f.role, Trim(f.name), f.extra);
    assert f.role != "admin" by {
      Signup.AdminCannotSignUp();
    }
    Signup.ExtrasAreNotReserved(f);
    SignupProfileAwaitsApproval(account, o.name, o.role, Signup.ExtraDoc(o.extra), now);
  }

  /** The document created at first sign-in also waits for approval. */
  lemma CreatedProfileAwaitsApproval(account: Auth.Account, now: string)
    ensures PrivateRoute(false, true, Some(Auth.CreatedProfile(account, now))) == RedirectToPendingApproval
  {
    NonAdminRoutedByApproval(Auth.CreatedProfile(account, now));
  }

  /** The minimal profile used when the database is unavailable has no status,
      so the guard lets it through without approval. */
  lemma FallbackProfileIsAdmitted(account: Auth.Account)
    ensures PrivateRoute(false, true, Some(Auth.FallbackProfile(account))) == ShowChildren
  {
    NonAdminRoutedByApproval(Auth.FallbackProfile(account));
  }

  /** The two backfills of a missing status disagree: the auth listener treats
      the profile as approved and lets a non-admin in, the maintenance script
      marks it pending and the guard holds it back. */
  lemma BackfillsDisagree(u: Doc, now: string)
    requires !Truthy(Get(u, "approvalStatus")) && !IsAdminProfile(u)
    ensures ApprovalOf(Auth.Backfill(u)) == Some(Approved)
    ensures ApprovalOf(UserMaintenance.BackfillOne(u, now)) == Some(Pending)
    ensures PrivateRoute(false, true, Some(Auth.Backfill(u))) == ShowChildren
    ensures PrivateRoute(false, true, Some(UserMaintenance.BackfillOne(u, now))) == RedirectToPendingApproval
  {
    var a := Auth.Backfill(u);
    var m := UserMaintenance.BackfillOne(u, now);
    assert Get(a, "role") == Get(u, "role") && Get(m, "role") == Get(u, "role");
    NonAdminRoutedByApproval(a);
    NonAdminRoutedByApproval(m);
  }

  /** After the console approves a user the guard lets them in; after it
      rejects a non-admin the guard sends them to the login page. */
  lemma ConsoleDecisionsReachTheGuard(u: Doc, reason: Option<string>, now: string)
    ensures PrivateRoute(false, true, Some(AdminConsole.ApproveUser(u, now))) == ShowChildren
    ensures !IsAdminProfile(u) ==>
      PrivateRoute(false, true, Some(AdminConsole.RejectUser(u, reason, now))) == RedirectToLogin
  {
    var a := AdminConsole.ApproveUser(u, now);
    assert Get(a, "role") == Get(u, "role");
    AdmittedIff(false, true, Some(a));
    var r := AdminConsole.RejectUser(u, reason, now);
    assert Get(r, "role") == Get(u, "role");
    if !IsAdminProfile(u) {
      NonAdminRoutedByApproval(r);
    }
  }

  /** A profile promoted to admin passes the guard, holds every permission
      and is kept by the admin console. */
  lemma PromotedAdminHasEverything(u: Doc, now: string, action: string)
    ensures var v := UserMaintenance.MakeUserAdmin(u, now);
      PrivateRoute(false, true, Some(v)) == ShowChildren &&
      Auth.BoundHasPermission(Some(v), action) &&
      !AdminConsole.RedirectsAway(Some(v))
  {
    var v := UserMaintenance.MakeUserAdmin(u, now);
    AdminAlwaysAdmitted(v);
    Auth.BoundHasPermissionOfRole(v, Admin, action);
  }
}

=== FILE: permissions.dfy ===
/** The central permissions service: the seven roles, the action-to-roles
    matrix with its admin override, the role-filtered navigation table, the
    sidebar section labels and the extra signup fields each role asks for. */
module Permissions {
  import opened Records
  import Seqs

  datatype Role = Owner | Developer | Investor | Realtor | Attorney | PropertyManager | Admin

  const AllRoles: seq<Role> := [Owner, Developer, Investor, Realtor, Attorney, PropertyManager, Admin]

  /** The string stored in a user's `role` field for each role. */
  function RoleKey(r: Role): string
  {
    match r
    case Owner => "owner"
    case Developer => "developer"
    case Investor => "investor"
    case Realtor => "realtor"
    case Attorney => "attorney"
    case PropertyManager => "property_manager"
    case Admin => "admin"
  }

  /** Reads a stored role string; any other string is no role at all. */
  function ParseRole(s: string): (r: Option<Role>)
    ensures r.Some? ==> RoleKey(r.value) == s
  {
    match s
    case "owner" => Some(Owner)
    case "developer" => Some(Developer)
    case "investor" => Some(Investor)
    case "realtor" => Some(Realtor)
    case "attorney" => Some(Attorney)
    case "property_manager" => Some(PropertyManager)
    case "admin" => Some(Admin)
    case _ => None
  }

  /** Role strings and roles correspond one to one. */
  lemma RoleKeyRoundTrip(r: Role)
    ensures ParseRole(RoleKey(r)) == Some(r)
  {
  }

  /** A string that parses to no role is the key of no role. */
  lemma UnknownRoleIsNoKey(s: string)
    requires ParseRole(s) == None
    ensures forall r: Role :: RoleKey(r) != s
  {
    forall r: Role ensures RoleKey(r) != s {
      RoleKeyRoundTrip(r);
    }
  }

  /** The permissions matrix: each action to the roles allowed to perform it. */
  const PermissionTable: map<string, seq<Role>> := map[
    "listing:create" := [Owner],
    "listing:view" := [Owner, Developer, Investor, Realtor, Admin],
    "listing:edit" := [Owner, Admin],
    "listing:delete" := [Owner, Admin],
    "pitch:create" := [Developer],
    "pitch:view" := [Owner, Developer, Admin],
    "pitch:accept" := [Owner],
    "pitch:reject" := [Owner],
    "investment:commit" := [Investor],
    "investment:view" := [Investor, Owner, Developer, Admin],
    "project:view" := [Owner, Developer, Investor, Attorney, Realtor, Admin],
    "project:manage" := [Owner, Developer, Admin],
    "project:milestone" := [Owner, Developer, Admin],
    "contract:generate" := [Owner, Developer, Admin],
    "contract:sign" := [Owner, Developer, Investor, Attorney],
    "document:upload" := [Owner, Developer, Attorney, Admin],
    "document:view" := [Owner, Developer, Investor, Attorney, Realtor, Admin],
    "equity:view" := [Owner, Developer, Investor, Realtor, Admin],
    "equity:manage" := [Admin],
    "payment:view" := [Owner, Developer, Investor, Admin],
    "zoning:view" := [Owner, Developer, Investor, Realtor, Admin],
    "compliance:view" := [Owner, Developer, Investor, Attorney, Admin],
    "attorney:marketplace" := [Owner, Developer, Admin],
    "attorney:profile" := [Attorney],
    "propmanage:dashboard" := [PropertyManager, Owner, Admin],
    "propmanage:rentroll" := [PropertyManager, Owner, Admin],
    "propmanage:maintenance" := [PropertyManager, Owner, Admin],
    "propmanage:compliance" := [PropertyManager, Owner, Admin],
    "affordable:manage" := [Owner, Developer, Admin],
    "affordable:view" := [Owner, Developer, Investor, Admin],
    "portfolio:view" := [Investor, Admin],
    "realtor:referrals" := [Realtor, Admin],
    "realtor:equity" := [Realtor, Admin],
    "messaging:send" := [Owner, Developer, Investor, Attorney, Realtor, PropertyManager],
    "messaging:view" := [Owner, Developer, Investor, Attorney, Realtor, PropertyManager, Admin],
    "admin:console" := [Admin],
    "admin:approve_users" := [Admin],
    "admin:fee_config" := [Admin],
    "admin:disputes" := [Admin],
    "admin:reports" := [Admin]
  ]

  /** `roles.includes(role)` for a list of roles and a role string. */
  predicate RoleListed(role: string, roles: seq<Role>)
  {
    |roles| > 0 && (RoleKey(roles[0]) == role || RoleListed(role, roles[1..]))
  }

  lemma {:induction false} RoleListedIff(role: string, roles: seq<Role>)
    ensures RoleListed(role, roles) <==> exists r :: r in roles && RoleKey(r) == role
  {
    if |roles| > 0 {
      RoleListedIff(role, roles[1..]);
      assert forall r :: r in roles <==> r == roles[0] || r in roles[1..];
    }
  }

  /** `hasPermission(role, action)`: admin may do everything; an action missing
      from the matrix is denied to everyone else; otherwise the role must be listed. */
  function HasPermission(role: string, action: string): (granted: bool)
    ensures role == "admin" ==> granted
    ensures role != "admin" && action !in PermissionTable ==> !granted
    ensures role != "admin" && action in PermissionTable ==>
      (granted <==> exists r :: r in PermissionTable[action] && RoleKey(r) == role)
  {
    RoleListedIff(role, if action in PermissionTable then PermissionTable[action] else []);
    if role == RoleKey(Admin) then true
    else if action !in PermissionTable then false
    else RoleListed(role, PermissionTable[action])
  }

  /** A string that names no role is denied every action, listed or not. */
  lemma UnknownRoleDenied(role: string, action: string)
    requires ParseRole(role) == None
    ensures !HasPermission(role, action)
  {
    UnknownRoleIsNoKey(role);
  }

  /** The concrete grants and denials the matrix is meant to encode. */
  lemma PermissionScenarios()
    ensures HasPermission("owner", "listing:create")
    ensures !HasPermission("developer", "listing:create")
    ensures HasPermission("attorney", "attorney:profile")
    ensures !HasPermission("investor", "attorney:profile")
    ensures forall r :: r != Owner && r != Admin ==> !HasPermission(RoleKey(r), "listing:create")
    ensures forall r :: r != Attorney && r != Admin ==> !HasPermission(RoleKey(r), "attorney:profile")
  {
    assert PermissionTable["listing:create"] == [Owner];
    assert PermissionTable["attorney:profile"] == [Attorney];
    forall r: Role ensures r != Owner && r != Admin ==> !HasPermission(RoleKey(r), "listing:create") {
      HasPermissionOfRole(r, "listing:create");
    }
    forall r: Role ensures r != Attorney && r != Admin ==> !HasPermission(RoleKey(r), "attorney:profile") {
      HasPermissionOfRole(r, "attorney:profile");
    }
  }

  /** An action the matrix does not know is granted to admin alone. */
  lemma UnknownActionScenarios()
    ensures HasPermission("admin", "nonexistent:action")
    ensures !HasPermission("owner", "nonexistent:action")
  {
    assert "nonexistent:action" !in PermissionTable;
  }

  /** A role string that is some role's key is listed exactly when that role is. */
  lemma RoleListedKey(r: Role, roles: seq<Role>)
    ensures RoleListed(RoleKey(r), roles) <==> r in roles
  {
    RoleListedIff(RoleKey(r), roles);
    forall q | RoleKey(q) == RoleKey(r) ensures q == r {
      RoleKeyRoundTrip(q);
      RoleKeyRoundTrip(r);
    }
  }

  /** For a known role, `hasPermission` is membership in the action's row. */
  lemma HasPermissionOfRole(r: Role, action: string)
    ensures HasPermission(RoleKey(r), action) <==>
      r == Admin || (action in PermissionTable && r in PermissionTable[action])
  {
    if action in PermissionTable {
      RoleListedKey(r, PermissionTable[action]);
    }
  }

  /** The eleven sidebar links, in display order. */
  datatype NavItem =
    | DashboardLink | MarketplaceLink | CreateListingLink | ZoningLink | DealRoomLink | ComplianceLink
    | AttorneysLink | AffordableHousingLink | PortfolioLink | ReferralsLink | PropertyManagementLink

  const AllNav: seq<NavItem> := [
    DashboardLink, MarketplaceLink, CreateListingLink, ZoningLink, DealRoomLink, ComplianceLink,
    AttorneysLink, AffordableHousingLink, PortfolioLink, ReferralsLink, PropertyManagementLink]

  /** The target path of a link. */
  function NavPath(e: NavItem): string
  {
    match e
    case DashboardLink => "/app"
    case MarketplaceLink => "/app/marketplace"
    case CreateListingLink => "/app/create-listing"
    case ZoningLink => "/app/zoning"
    case DealRoomLink => "/app/deal-room"
    case ComplianceLink => "/app/compliance"
    case AttorneysLink => "/app/attorneys"
    case AffordableHousingLink => "/app/affordable-housing"
    case PortfolioLink => "/app/portfolio"
    case ReferralsLink => "/app/referrals"
    case PropertyManagementLink => "/app/property-management"
  }

  /** The link text. */
  function NavTitle(e: NavItem): string
  {
    match e
    case DashboardLink => "Dashboard"
    case MarketplaceLink => "Marketplace"
    case CreateListingLink => "Create Listing"
    case ZoningLink => "Zoning Intelligence"
    case DealRoomLink => "JV Deal Room"
    case ComplianceLink => "Legal & Compliance"
    case AttorneysLink => "Attorney Marketplace"
    case AffordableHousingLink => "Affordable Housing"
    case PortfolioLink => "My Portfolio"
    case ReferralsLink => "Referrals & Equity"
    case PropertyManagementLink => "Property Management"
  }

  /** The section key a link is grouped under. */
  function NavSection(e: NavItem): string
  {
    match e
    case DashboardLink | MarketplaceLink | CreateListingLink | ZoningLink => "main"
    case DealRoomLink | ComplianceLink | AttorneysLink | AffordableHousingLink => "deals"
    case PortfolioLink | ReferralsLink => "finance"
    case PropertyManagementLink => "operations"
  }

  /** Only the dashboard link matches its path exactly. */
  predicate NavExact(e: NavItem)
  {
    e == DashboardLink
  }

  /** Links whose audience is `'all'`. */
  predicate OpenToAll(e: NavItem)
  {
    e == DashboardLink || e == MarketplaceLink
  }

  /** The roles a gated link is shown to (empty for the links open to all). */
  function NavAudience(e: NavItem): seq<Role>
  {
    match e
    case DashboardLink | MarketplaceLink => []
    case CreateListingLink => [Owner]
    case ZoningLink => [Owner, Developer, Investor, Realtor]
    case DealRoomLink => [Owner, Developer, Investor]
    case ComplianceLink => [Owner, Developer, Investor, Attorney]
    case AttorneysLink => [Owner, Developer]
    case AffordableHousingLink => [Owner, Developer, Investor]
    case PortfolioLink => [Investor]
    case ReferralsLink => [Realtor]
    case PropertyManagementLink => [PropertyManager, Owner]
  }

  /** The filter condition of `getNavigationForRole`. */
  predicate NavVisible(role: string, e: NavItem)
  {
    role == RoleKey(Admin) || OpenToAll(e) || RoleListed(role, NavAudience(e))
  }

  /** `getNavigationForRole(role)` */
  function NavigationForRole(role: string): seq<NavItem>
  {
    Seqs.Filter(e => NavVisible(role, e), AllNav)
  }

  /** Every link is in the table. */
  lemma InNavTable(e: NavItem)
    ensures e in AllNav
  {
  }

  /** A link is in a role's navigation exactly when it is visible to the role. */
  lemma NavigationMembership(role: string, e: NavItem)
    ensures e in NavigationForRole(role) <==> NavVisible(role, e)
  {
    Seqs.FilterMembership(e => NavVisible(role, e), AllNav, e);
    InNavTable(e);
  }

  /** The navigation list keeps table order and holds exactly the visible links. */
  lemma NavigationIsVisibleSubsequence(role: string)
    ensures Seqs.IsSubseq(NavigationForRole(role), AllNav)
    ensures forall e :: e in NavigationForRole(role) <==> NavVisible(role, e)
  {
    Seqs.FilterIsSubseq(e => NavVisible(role, e), AllNav);
    forall e ensures e in NavigationForRole(role) <==> NavVisible(role, e) {
      NavigationMembership(role, e);
    }
  }

  /** For a known role, a gated link is shown exactly when the role is in its audience. */
  lemma NavVisibleOfRole(r: Role, e: NavItem)
    ensures NavVisible(RoleKey(r), e) <==> r == Admin || OpenToAll(e) || r in NavAudience(e)
  {
    RoleListedKey(r, NavAudience(e));
  }

  /** Admin sees all eleven links in table order. */
  lemma AdminSeesAllNavigation(role: string)
    requires role == RoleKey(Admin)
    ensures NavigationForRole(role) == AllNav
    ensures |NavigationForRole(role)| == 11
  {
    FilterNavKeepsAll(e => NavVisible(role, e));
  }

  /** Filtering the table with a condition every link meets keeps the whole table. */
  lemma FilterNavKeepsAll(p: NavItem -> bool)
    requires forall e :: p(e)
    ensures Seqs.Filter(p, AllNav) == AllNav
  {
    Seqs.FilterKeepsAll(p, AllNav);
  }

  /** Filtering the table with a condition that holds for the two open links
      keeps them, in front. */
  lemma FilterNavStartsOpen(p: NavItem -> bool)
    requires p(DashboardLink) && p(MarketplaceLink)
    ensures |Seqs.Filter(p, AllNav)| >= 2
    ensures Seqs.Filter(p, AllNav)[..2] == [DashboardLink, MarketplaceLink]
  {
    assert AllNav == [DashboardLink, MarketplaceLink] + AllNav[2..];
    Seqs.FilterAppend(p, [DashboardLink, MarketplaceLink], AllNav[2..]);
  }

  /** Filtering the table with a condition that holds for the open links only
      leaves just those two. */
  lemma FilterNavOpenOnly(p: NavItem -> bool)
    requires forall e :: p(e) <==> OpenToAll(e)
    ensures Seqs.Filter(p, AllNav) == [DashboardLink, MarketplaceLink]
  {
    var gated := AllNav[2..];
    assert AllNav == [DashboardLink, MarketplaceLink] + gated;
    forall i | 0 <= i < |gated| ensures !p(gated[i]) {
      assert !OpenToAll(AllNav[i + 2]);
    }
    Seqs.FilterAppend(p, [DashboardLink, MarketplaceLink], gated);
    Seqs.FilterDropsAll(p, gated);
  }

  /** The dashboard and the marketplace are shown to every role string, first. */
  lemma EveryoneLinksAlwaysShown(role: string)
    ensures |NavigationForRole(role)| >= 2
    ensures NavigationForRole(role)[..2] == [DashboardLink, MarketplaceLink]
  {
    FilterNavStartsOpen(e => NavVisible(role, e));
  }

  /** A role string naming no role sees only the dashboard and the marketplace. */
  lemma UnknownRoleNavigation(role: string)
    requires ParseRole(role) == None
    ensures NavigationForRole(role) == [DashboardLink, MarketplaceLink]
  {
    UnknownRoleIsNoKey(role);
    forall e: NavItem ensures NavVisible(role, e) <==> OpenToAll(e) {
      RoleListedIff(role, NavAudience(e));
    }
    FilterNavOpenOnly(e => NavVisible(role, e));
  }

  /** Investors are shown their portfolio but not the referral page; realtors are
      shown referrals but not listing creation. */
  lemma NavigationScenarios()
    ensures NavVisible("investor", PortfolioLink) && !NavVisible("investor", ReferralsLink)
    ensures NavVisible("realtor", ReferralsLink) && !NavVisible("realtor", CreateListingLink)
  {
  }

  /** The action each role-gated link leads to. */
  function GuardingAction(e: NavItem): Option<string>
  {
    match e
    case DashboardLink | MarketplaceLink => None
    case CreateListingLink => Some("listing:create")
    case ZoningLink => Some("zoning:view")
    case DealRoomLink => Some("project:view")
    case ComplianceLink => Some("compliance:view")
    case AttorneysLink => Some("attorney:marketplace")
    case AffordableHousingLink => Some("affordable:view")
    case PortfolioLink => Some("portfolio:view")
    case ReferralsLink => Some("realtor:referrals")
    case PropertyManagementLink => Some("propmanage:dashboard")
  }

  /** The navigation table and the permission matrix agree: a role is shown a
      gated link exactly when it holds the link's action, except that the deal
      room link is withheld from attorneys and realtors, who may view projects. */
  lemma NavigationAgreesWithPermissions(r: Role, e: NavItem)
    requires !OpenToAll(e)
    ensures GuardingAction(e).Some?
    ensures NavVisible(RoleKey(r), e) ==> HasPermission(RoleKey(r), GuardingAction(e).value)
    ensures e != DealRoomLink ==>
      (NavVisible(RoleKey(r), e) <==> HasPermission(RoleKey(r), GuardingAction(e).value))
    ensures e == DealRoomLink ==>
      (NavVisible(RoleKey(r), e) <==> HasPermission(RoleKey(r), "project:view") && r != Attorney && r != Realtor)
  {
    NavVisibleOfRole(r, e);
    GuardingRows();
    GuardingRowsOfServices();
    GuardingRowsOfRoles();
    HasPermissionOfRole(r, GuardingAction(e).value);
  }

  /** The rows of the listing, zoning and deal-room links. */
  lemma GuardingRows()
    ensures "listing:create" in PermissionTable && PermissionTable["listing:create"] == [Owner]
    ensures "zoning:view" in PermissionTable && PermissionTable["zoning:view"] == [Owner, Developer, Investor, Realtor, Admin]
    ensures "project:view" in PermissionTable && PermissionTable["project:view"] == [Owner, Developer, Investor, Attorney, Realtor, Admin]
  {
  }

  /** The rows of the compliance, attorney and affordable-housing links. */
  lemma GuardingRowsOfServices()
    ensures "compliance:view" in PermissionTable && PermissionTable["compliance:view"] == [Owner, Developer, Investor, Attorney, Admin]
    ensures "attorney:marketplace" in PermissionTable && PermissionTable["attorney:marketplace"] == [Owner, Developer, Admin]
    ensures "affordable:view" in PermissionTable && PermissionTable["affordable:view"] == [Owner, Developer, Investor, Admin]
  {
  }

  /** The rows of the portfolio, referrals and property management links. */
  lemma GuardingRowsOfRoles()
    ensures "portfolio:view" in PermissionTable && PermissionTable["portfolio:view"] == [Investor, Admin]
    ensures "realtor:referrals" in PermissionTable && PermissionTable["realtor:referrals"] == [Realtor, Admin]
    ensures "propmanage:dashboard" in PermissionTable && PermissionTable["propmanage:dashboard"] == [PropertyManager, Owner, Admin]
  {
  }

  /** Sidebar section keys and their headings. */
  const NavSections: map<string, string> := map[
    "main" := "Navigation",
    "deals" := "Deals & Compliance",
    "finance" := "Finance",
    "operations" := "Operations"
  ]

  /** Every section used by the navigation table has a heading. */
  lemma EveryNavSectionHasHeading()
    ensures forall e :: NavSection(e) in NavSections
  {
  }

  /** An extra signup field: storage key, title, input type, requiredness. */
  datatype SignupField = SignupField(key: string, title: string, kind: string, required: bool)

  /** `ROLE_SIGNUP_FIELDS`: admin has no entry. */
  const RoleSignupFields: map<string, seq<SignupField>> := map[
    "owner" := [],
    "developer" := [
      SignupField("company", "Company Name", "text", true),
      SignupField("experience", "Years of Experience", "number", false)],
    "investor" := [
      SignupField("company", "Fund / Company", "text", false),
      SignupField("accreditedInvestor", "Accredited Investor", "checkbox", false)],
    "realtor" := [
      SignupField("licenseNumber", "License Number", "text", true),
      SignupField("brokerage", "Brokerage", "text", true),
      SignupField("licenseState", "License State", "text", true)],
    "attorney" := [
      SignupField("barNumber", "Bar Number", "text", true),
      SignupField("barState", "Bar State", "text", true),
      SignupField("firm", "Law Firm", "text", false),
      SignupField("specialties", "Specialties", "text", false)],
    "property_manager" := [
      SignupField("company", "Management Company", "text", true),
      SignupField("licenseNumber", "License Number", "text", false),
      SignupField("portfolioSize", "Portfolio Size (units)", "number", false)]
  ]
}

=== FILE: profiles.dfy ===
/** The parts of a user profile document that access decisions read: its
    `approvalStatus` and whether its `role` is exactly `admin`. */
module Profiles {
  import opened Records
  import opened Permissions

  /** The three approval states a profile moves through. */
  datatype Approval = Pending | Approved | Rejected

  function ApprovalKey(a: Approval): string
  {
    match a
    case Pending => "pending"
    case Approved => "approved"
    case Rejected => "rejected"
  }

  /** `p.approvalStatus === key(a)` */
  predicate HasApproval(p: Doc, a: Approval)
  {
    IsText(Get(p, "approvalStatus"), ApprovalKey(a))
  }

  /** The approval state a profile is in, if its `approvalStatus` is one of the
      three known values; `None` for a missing or any other value. */
  function ApprovalOf(p: Doc): (a: Option<Approval>)
    ensures forall s :: HasApproval(p, s) <==> a == Some(s)
  {
    if HasApproval(p, Pending) then Some(Pending)
    else if HasApproval(p, Approved) then Some(Approved)
    else if HasApproval(p, Rejected) then Some(Rejected)
    else None
  }

  /** `p.role === 'admin'` */
  predicate IsAdminProfile(p: Doc)
  {
    IsText(Get(p, "role"), RoleKey(Admin))
  }

  /** Setting `approvalStatus` to a known value puts the profile in that state. */
  lemma ApprovalOfSet(p: Doc, a: Approval)
    ensures ApprovalOf(p["approvalStatus" := Str(ApprovalKey(a))]) == Some(a)
  {
    assert HasApproval(p["approvalStatus" := Str(ApprovalKey(a))], a);
  }
}

=== FILE: projectworkspace.dfy ===
/** One project's workspace: the project as loaded (or its stand-in), the equity
    ledger and milestones shown when the project has none, the summary counts,
    the phase chips, and the message composer's guard. */
module ProjectWorkspace {
  import opened Records
  import opened Text
  import Seqs

  /** The keys of `MILESTONE_PHASES`, in order. */
  const PhaseKeys: seq<string> := ["planning", "permitting", "funding_close", "construction", "completion"]

  /** The labels of `MILESTONE_PHASES`, in order. */
  const PhaseLabels: seq<string> := ["Planning", "Permitting", "Funding Close", "Construction", "Completion"]

  /** The stand-in for a project whose document does not exist. */
  function FallbackProject(id: string): Doc
  {
    map[
      "id" := Str(id), "name" := Str("Project"), "status" := Str("active"), "phase" := Str("planning"),
      "milestones" := List([]), "equityLedger" := List([]), "totalBudget" := Num(0), "deployedBudget" := Num(0)]
  }

  /** How the load ended: `getProject` threw, or it returned the document
      (`None` for a document that does not exist). */
  datatype Load = LoadFailed | Loaded(doc: Option<Doc>)

  /** The `project` state after loading: a missing document is replaced by the
      stand-in, a failed load leaves no project at all. */
  function ProjectAfterLoad(load: Load, id: string): (project: Option<Doc>)
    ensures project.None? <==> load.LoadFailed?
    ensures load == Loaded(None) ==>
      project.Some? && IsText(Get(project.value, "id"), id) &&
      Get(project.value, "milestones") == Some(List([])) && Get(project.value, "equityLedger") == Some(List([]))
    ensures load.Loaded? && load.doc.Some? ==> project == load.doc
  {
    match load
    case LoadFailed => None
    case Loaded(None) => Some(FallbackProject(id))
    case Loaded(Some(d)) => Some(d)
  }

  /** One row of the equity ledger. */
  datatype Share = Share(party: string, pct: int, vested: bool)

  /** The ledger shown for a project without one. */
  const FallbackLedger: seq<Share> := [
    Share("Owner", 40, true), Share("Developer", 45, true),
    Share("Investor Pool", 14, false), Share("Realtor", 1, false)]

  function ShareValue(s: Share): Value
  {
    Obj(map["party" := Str(s.party), "pct" := Num(s.pct), "vested" := Bool(s.vested)])
  }

  function Pct(s: Share): int
  {
    s.pct
  }

  /** `project?.equityLedger || [fallback]` */
  function EquityData(project: Option<Doc>): Value
  {
    Or(Field(project, "equityLedger"), List(Seqs.Map(ShareValue, FallbackLedger)))
  }

  /** The fallback ledger gives out exactly 100 percent, the realtor's carried
      share is 1 percent, and only the owner's and developer's shares are vested. */
  lemma FallbackLedgerShares()
    ensures Seqs.SumOf(Pct, FallbackLedger) == 100
    ensures forall i :: 0 <= i < |FallbackLedger| && FallbackLedger[i].party == "Realtor" ==> FallbackLedger[i].pct == 1
    ensures forall i :: 0 <= i < |FallbackLedger| ==> (FallbackLedger[i].vested <==> FallbackLedger[i].party in {"Owner", "Developer"})
  {
    var l := FallbackLedger;
    assert l[1..][1..][1..][1..] == [];
    assert Seqs.SumOf(Pct, l[1..][1..][1..]) == 1;
  }

  /** The fallback ledger replaces only a missing (or falsy) ledger: an empty
      ledger is kept, so the stand-in project shows no shares, while a project
      that failed to load shows the fallback ones. */
  lemma WhenFallbackLedgerShows(project: Option<Doc>, id: string)
    ensures !Truthy(Field(project, "equityLedger")) ==> EquityData(project) == List(Seqs.Map(ShareValue, FallbackLedger))
    ensures Field(project, "equityLedger") == Some(List([])) ==> EquityData(project) == List([])
    ensures EquityData(ProjectAfterLoad(Loaded(None), id)) == List([])
    ensures EquityData(ProjectAfterLoad(LoadFailed, id)) == List(Seqs.Map(ShareValue, FallbackLedger))
  {
  }

  /** The fallback milestone for phase `i`: in progress for the first phase,
      pending for the rest, with no budget, spending, due date or notes. */
  function FallbackMilestone(i: nat): Value
    requires i < |PhaseKeys|
  {
    Obj(map[
      "key" := Str(PhaseKeys[i]), "label" := Str(PhaseLabels[i]),
      "status" := Str(if i == 0 then "in-progress" else "pending"),
      "budget" := Num(0), "spent" := Num(0), "due" := Str(""), "notes" := Str("")])
  }

  const FallbackMilestones: seq<Value> := [
    FallbackMilestone(0), FallbackMilestone(1), FallbackMilestone(2), FallbackMilestone(3), FallbackMilestone(4)]

  /** `m.status` on a list entry; entries that are not objects have none. */
  function StatusOf(m: Value): Option<Value>
  {
    if m.Obj? then Get(m.fields, "status") else None
  }

  /** `project?.milestones || [fallback]`. */
  function Milestones(project: Option<Doc>): (ms: seq<Value>)
    ensures !Truthy(Field(project, "milestones")) ==> ms == FallbackMilestones
    ensures forall xs :: Field(project, "milestones") == Some(List(xs)) ==> ms == xs
  {
    match Field(project, "milestones")
    case Some(List(xs)) => xs
    case v => if Truthy(v) then [] else FallbackMilestones
  }

  /** One fallback milestone per phase, in phase order: the first in progress,
      the others pending, none completed. */
  lemma FallbackMilestonesShape()
    ensures |FallbackMilestones| == 5
    ensures forall i :: 0 <= i < 5 ==>
      FallbackMilestones[i].Obj? && IsText(Get(FallbackMilestones[i].fields, "key"), PhaseKeys[i])
    ensures IsText(StatusOf(FallbackMilestones[0]), "in-progress")
    ensures forall i :: 1 <= i < 5 ==> IsText(StatusOf(FallbackMilestones[i]), "pending")
  {
  }

  predicate IsCompleted(m: Value)
  {
    IsText(StatusOf(m), "completed")
  }

  /** The numerator of the `done/total` milestone stat. */
  function CompletedCount(ms: seq<Value>): (done: nat)
    ensures done <= |ms|
  {
    Seqs.Count(IsCompleted, ms)
  }

  /** The stat reads `total/total` exactly when every milestone is completed,
      and `0/total` exactly when none is; the fallback milestones read `0/5`. */
  lemma CompletedCountMeaning(ms: seq<Value>)
    ensures CompletedCount(ms) == |ms| <==> forall i :: 0 <= i < |ms| ==> IsCompleted(ms[i])
    ensures CompletedCount(ms) == 0 <==> forall i :: 0 <= i < |ms| ==> !IsCompleted(ms[i])
    ensures CompletedCount(FallbackMilestones) == 0
  {
    Seqs.FilterFullIffAll(IsCompleted, ms);
    if forall i :: 0 <= i < |ms| ==> !IsCompleted(ms[i]) {
      Seqs.FilterDropsAll(IsCompleted, ms);
    }
    FallbackMilestonesShape();
    Seqs.FilterDropsAll(IsCompleted, FallbackMilestones);
  }

  /** `(project?.investors?.length || 0) + 2`: the investors plus the owner and
      the developer. */
  function TeamSize(project: Option<Doc>): (n: int)
    ensures n >= 2
    ensures forall xs :: Field(project, "investors") == Some(List(xs)) ==> n == |xs| + 2
    ensures Field(project, "investors") == None ==> n == 2
  {
    match Field(project, "investors")
    case Some(List(xs)) => |xs| + 2
    case Some(Str(s)) => |s| + 2
    case _ => 2
  }

  /** Adding an investor grows the team by one. */
  lemma TeamGrowsWithInvestors(project: Doc, xs: seq<Value>, uid: Value)
    requires Get(project, "investors") == Some(List(xs))
    ensures TeamSize(Some(project["investors" := List(xs + [uid])])) == TeamSize(Some(project)) + 1
  {
  }

  /** How a phase chip is drawn. */
  datatype Chip = DoneChip | CurrentChip | NeutralChip

  /** Chip `i` follows `milestones[i] || {}`. */
  function PhaseChip(ms: seq<Value>, i: nat): (c: Chip)
    ensures i >= |ms| ==> c == NeutralChip
    ensures i < |ms| ==> (c == DoneChip <==> IsText(StatusOf(ms[i]), "completed"))
    ensures i < |ms| ==> (c == CurrentChip <==> IsText(StatusOf(ms[i]), "in-progress"))
  {
    var m := if i < |ms| && Truthy(Some(ms[i])) then ms[i] else Obj(map[]);
    if IsText(StatusOf(m), "completed") then DoneChip
    else if IsText(StatusOf(m), "in-progress") then CurrentChip
    else NeutralChip
  }

  /** With the fallback milestones only the first chip is current; the stand-in
      project has no milestones, so all its chips are neutral. */
  lemma ChipsOfFallbacks(i: nat, id: string)
    requires i < |PhaseKeys|
    ensures PhaseChip(FallbackMilestones, i) == (if i == 0 then CurrentChip else NeutralChip)
    ensures PhaseChip(Milestones(ProjectAfterLoad(Loaded(None), id)), i) == NeutralChip
  {
    FallbackMilestonesShape();
  }

  /** `handleSendMessage`: nothing is sent for a blank message; otherwise the
      text goes out as typed, signed with the sender's name or `User`. */
  function MessageToSend(projectId: string, profile: Option<Doc>, text: string): (m: Option<Doc>)
    ensures m.None? <==> IsBlank(text)
    ensures m.Some? ==> IsText(Get(m.value, "text"), text) && IsText(Get(m.value, "projectId"), projectId)
    ensures m.Some? ==> Get(m.value, "senderName") == Some(Or(Field(profile, "name"), Str("User")))
    ensures m.Some? ==> Get(m.value, "senderId") == Field(profile, "uid")
  {
    TrimEmptyIffBlank(text);
    if Trim(text) == "" then None
    else
      var sender := if Field(profile, "uid").Some? then map["senderId" := Field(profile, "uid").value] else map[];
      Some(Spread(Spread(map["projectId" := Str(projectId)], sender),
        map["senderName" := Or(Field(profile, "name"), Str("User")), "text" := Str(text)]))
  }

  /** White space alone sends nothing; surrounding white space is not trimmed
      from a message that is sent. */
  lemma MessageGuard(projectId: string, profile: Option<Doc>)
    ensures MessageToSend(projectId, profile, " \n ").None?
    ensures var m := MessageToSend(projectId, profile, " hi ");
      m.Some? && IsText(Get(m.value, "text"), " hi ")
  {
    assert !IsBlank(" hi ") by { assert !IsSpace(" hi "[1]); }
  }
}

=== FILE: propertydetail.dfy ===
/** The listing page: the seven-stage disclosure stepper, the owner check, and
    the pitch a developer submits. */
module PropertyDetail {
  import opened Records
  import Seqs
  import CreateListing

  /** The disclosure stages, from anonymous browsing to the full reveal. */
  datatype Stage = Browse | Interest | Pitch | Accepted | AttorneySelected | FeeAck | Revealed

  function StageKey(s: Stage): string
  {
    match s
    case Browse => "browse"
    case Interest => "interest"
    case Pitch => "pitch"
    case Accepted => "accepted"
    case AttorneySelected => "attorney"
    case FeeAck => "fee_ack"
    case Revealed => "revealed"
  }

  /** `DISCLOSURE_STAGES`, in order. */
  const Stages: seq<Stage> := [Browse, Interest, Pitch, Accepted, AttorneySelected, FeeAck, Revealed]

  /** The stage table lists every stage exactly once, under distinct keys. */
  lemma StageTableIsComplete()
    ensures |Stages| == 7 && Seqs.NoDuplicates(Stages)
    ensures forall s :: s in Stages
    ensures forall s, t :: StageKey(s) == StageKey(t) ==> s == t
  {
    forall s ensures s in Stages {
      match s
      case Browse => assert Stages[0] == s;
      case Interest => assert Stages[1] == s;
      case Pitch => assert Stages[2] == s;
      case Accepted => assert Stages[3] == s;
      case AttorneySelected => assert Stages[4] == s;
      case FeeAck => assert Stages[5] == s;
      case Revealed => assert Stages[6] == s;
    }
  }

  /** `property.disclosureStage || 'browse'` */
  function StageValue(property: Doc): Value
  {
    Or(Get(property, "disclosureStage"), Str("browse"))
  }

  /** `currentStageIndex`: the position of the property's stage, -1 when the
      stored value is not a stage key. */
  function StageIndex(property: Doc): (i: int)
    ensures -1 <= i < |Stages|
    ensures i >= 0 ==> StageValue(property) == Str(StageKey(Stages[i]))
    ensures i == -1 <==> forall s :: StageValue(property) != Str(StageKey(s))
  {
    Seqs.FindIndex(s => StageValue(property) == Str(StageKey(s)), Stages)
  }

  /** A missing or empty stage reads as the first stage. */
  lemma MissingStageIsBrowse(property: Doc)
    requires !Truthy(Get(property, "disclosureStage"))
    ensures StageIndex(property) == 0
  {
  }

  /** Stage `i` is complete when it lies before the current one. */
  predicate IsComplete(i: int, current: int)
  {
    i < current
  }

  /** Stage `i` is the current one. */
  predicate IsActive(i: int, current: int)
  {
    i == current
  }

  /** The stepper's positions `0 .. n - 1`. */
  function Positions(n: nat): (ps: seq<int>)
    ensures |ps| == n && forall i :: 0 <= i < n ==> ps[i] == i
  {
    seq(n, i => i)
  }

  /** The positions of a stepper of `n` stages that are active. */
  function ActivePositions(n: nat, current: int): seq<int>
  {
    Seqs.Filter(i => IsActive(i, current), Positions(n))
  }

  /** Exactly the current position is active when it is on the stepper, and
      none otherwise. */
  lemma {:induction false} OneActivePosition(n: nat, current: int)
    ensures 0 <= current < n ==> ActivePositions(n, current) == [current]
    ensures !(0 <= current < n) ==> ActivePositions(n, current) == []
  {
    if n > 0 {
      OneActivePosition(n - 1, current);
      assert Positions(n) == Positions(n - 1) + [n - 1];
      Seqs.FilterAppend(i => IsActive(i, current), Positions(n - 1), [n - 1]);
    }
  }

  /** For a known stage exactly one position is active and the positions
      before it are complete; for an unknown stage nothing is active or
      complete. */
  lemma StepperMarks(property: Doc)
    ensures var c := StageIndex(property);
      c >= 0 ==> ActivePositions(|Stages|, c) == [c] && forall i :: 0 <= i < |Stages| ==> (IsComplete(i, c) <==> i < c)
    ensures var c := StageIndex(property);
      c == -1 ==> ActivePositions(|Stages|, c) == [] && forall i :: 0 <= i < |Stages| ==> !IsComplete(i, c)
  {
    OneActivePosition(|Stages|, StageIndex(property));
  }

  /** `isOwner`: the viewer is an owner and the listing's owner id is the
      viewer's uid (two missing values compare equal). */
  predicate IsOwner(profile: Option<Doc>, property: Doc)
  {
    IsText(Field(profile, "role"), "owner") && Get(property, "ownerId") == Field(profile, "uid")
  }

  /** An owner views their own listing as owner; a viewer of any other role
      never does, whatever the ids. */
  lemma OwnerCheck(profile: Doc, property: Doc, uid: string)
    ensures IsText(Get(profile, "role"), "owner") && IsText(Get(profile, "uid"), uid) && IsText(Get(property, "ownerId"), uid) ==>
      IsOwner(Some(profile), property)
    ensures !IsText(Get(profile, "role"), "owner") ==> !IsOwner(Some(profile), property)
    ensures !IsOwner(None, property)
  {
  }

  /** A listing just stored by the wizard opens at the first stage. */
  lemma NewListingStartsAtBrowse(form: Doc, uid: string, profile: Option<Doc>, stamp: Value)
    ensures StageIndex(CreateListing.CreateProperty(CreateListing.SubmittedListing(form, uid, profile), stamp)) == 0
  {
    CreateListing.StoredListing(form, uid, profile, stamp);
  }

  /** The pitch form: disabled while a submission runs or with no proposal. */
  predicate PitchSubmitEnabled(submitting: bool, proposal: string)
  {
    !submitting && proposal != ""
  }

  /** A submission in flight or an empty proposal blocks the button; a
      proposal of white space alone does not. */
  lemma PitchGuard(submitting: bool, proposal: string)
    ensures submitting || proposal == "" ==> !PitchSubmitEnabled(submitting, proposal)
    ensures PitchSubmitEnabled(false, " ")
  {
  }

  /** The pitch form's fields. */
  datatype PitchForm = PitchForm(proposal: string, budget: string, timeline: string, experience: string, affordableCapability: string)

  /** The pitch the page hands over, `status: 'pending'` last. */
  function PitchRecord(propertyId: string, profile: Option<Doc>, form: PitchForm): Doc
  {
    var developer := if Field(profile, "uid").Some? then map["developerId" := Field(profile, "uid").value] else map[];
    Spread(
      Spread(map["propertyId" := Str(propertyId)], developer)["developerName" := Or(Field(profile, "name"), Str("Developer"))],
      map[
        "proposal" := Str(form.proposal), "budget" := Str(form.budget), "timeline" := Str(form.timeline),
        "experience" := Str(form.experience), "affordableCapability" := Str(form.affordableCapability),
        "status" := Str("pending")])
  }

  /** `createPitch`: the record with status `submitted` and the server's timestamps. */
  function CreatePitch(data: Doc, stamp: Value): (r: Doc)
    ensures IsText(Get(r, "status"), "submitted")
    ensures SameOutside(data, r, {"status", "createdAt", "updatedAt"})
  {
    Spread(data, map["status" := Str("submitted"), "createdAt" := stamp, "updatedAt" := stamp])
  }

  /** The stored pitch is `submitted` although the page asks for `pending`,
      and carries the proposal, the listing id and the developer as entered. */
  lemma StoredPitch(propertyId: string, profile: Option<Doc>, form: PitchForm, stamp: Value)
    ensures IsText(Get(PitchRecord(propertyId, profile, form), "status"), "pending")
    ensures var r := CreatePitch(PitchRecord(propertyId, profile, form), stamp);
      IsText(Get(r, "status"), "submitted") && IsText(Get(r, "proposal"), form.proposal) &&
      IsText(Get(r, "propertyId"), propertyId) &&
      Get(r, "developerId") == Field(profile, "uid") &&
      Get(r, "developerName") == Some(Or(Field(profile, "name"), Str("Developer")))
  {
  }
}

=== FILE: propertymanagement.dfy ===
/** The property management page: which properties a user manages, the
    defaults filled in for each, its vacancy, and the property selected first. */
module PropertyManagement {
  import opened Records
  import Seqs
  import CreateListing

  /** The page's query: owners get the properties whose `ownerUid` is theirs,
      property managers those whose `managerId` is theirs, and every other
      role the approved ones. */
  predicate Managed(role: Option<Value>, uid: Value, s: Stored)
  {
    if IsText(role, "owner") then Get(s.data, "ownerUid") == Some(uid)
    else if IsText(role, "property_manager") then Get(s.data, "managerId") == Some(uid)
    else IsText(Get(s.data, "status"), "approved")
  }

  /** `(units - occupied) / units`, as the two counts before the division. */
  datatype Vacancy = Vacancy(vacant: int, units: int)

  /** `data.units ? ... : 0`: no vacancy figure for a property without units. */
  function VacancyOf(data: Doc): (r: Option<Vacancy>)
    ensures r.None? <==> !Truthy(Get(data, "units"))
    ensures forall u :: Get(data, "units") == Some(Num(u)) && u != 0 ==>
      r == Some(Vacancy(u - IntOr(Get(data, "occupied"), 0), u))
  {
    if Truthy(Get(data, "units")) then
      Some(Vacancy(IntOr(Get(data, "units"), 0) - IntOr(Get(data, "occupied"), 0), IntOr(Get(data, "units"), 0)))
    else None
  }

  /** With a sensible occupancy the vacancy lies between none and all units,
      and is none exactly when every unit is occupied. */
  lemma VacancyBounds(data: Doc, u: int, o: int)
    requires Get(data, "units") == Some(Num(u)) && Get(data, "occupied") == Some(Num(o))
    requires 0 <= o <= u && u > 0
    ensures VacancyOf(data).Some? && 0 <= VacancyOf(data).value.vacant <= VacancyOf(data).value.units == u
    ensures VacancyOf(data).value.vacant == 0 <==> o == u
  {
  }

  /** One property as the page shows it, with defaults for missing fields. */
  datatype ManagedProperty = ManagedProperty(
    id: string, name: Value, address: Value, units: Value, occupied: Value,
    vacancyRate: Option<Vacancy>, monthlyRevenue: Value, status: Value, manager: Value,
    affordable: Value, affordableUnits: Value, maintenance: Value, rentRoll: Value)

  function PropertyView(s: Stored): ManagedProperty
  {
    var d := s.data;
    ManagedProperty(
      s.id, Or(Get(d, "name"), Str("Unnamed Property")), Or(Get(d, "address"), Str("Address unlisted")),
      Or(Get(d, "units"), Num(0)), Or(Get(d, "occupied"), Num(0)), VacancyOf(d),
      Or(Get(d, "monthlyRevenue"), Num(0)), Or(Get(d, "status"), Str("unknown")),
      Or(Get(d, "managerName"), Str("Owner Managed")), Or(Get(d, "affordable"), Bool(false)),
      Or(Get(d, "affordableUnits"), Num(0)), Or(Get(d, "maintenance"), List([])), Or(Get(d, "rentRoll"), List([])))
  }

  /** Missing fields show their defaults, present ones as stored, and a
      property stored with no fields shows no vacancy and an empty
      maintenance list and rent roll. */
  lemma PropertyDefaults(s: Stored)
    ensures !Truthy(Get(s.data, "name")) ==> PropertyView(s).name == Str("Unnamed Property")
    ensures Truthy(Get(s.data, "name")) ==> Some(PropertyView(s).name) == Get(s.data, "name")
    ensures !Truthy(Get(s.data, "managerName")) ==> PropertyView(s).manager == Str("Owner Managed")
    ensures !Truthy(Get(s.data, "units")) ==> PropertyView(s).units == Num(0) && PropertyView(s).vacancyRate.None?
    ensures !Truthy(Get(s.data, "occupied")) ==> PropertyView(s).occupied == Num(0)
    ensures s.data == map[] ==>
      PropertyView(s).maintenance == List([]) && PropertyView(s).rentRoll == List([]) &&
      PropertyView(s).status == Str("unknown") && PropertyView(s).id == s.id
  {
  }

  /** What the page shows. Without a uid the fetch never starts and the page
      keeps loading; a failed fetch leaves the list empty. */
  datatype Page = Loading | NoProperties | Showing(properties: seq<ManagedProperty>, selected: ManagedProperty)

  /** The query for a profile's role and uid. */
  function Query(profile: Option<Doc>): Stored -> bool
  {
    var uid := Field(profile, "uid");
    s => uid.Some? && Managed(Field(profile, "role"), uid.value, s)
  }

  function ManagementPage(profile: Option<Doc>, collection: Option<seq<Stored>>): (page: Page)
    ensures page.Loading? <==> !Truthy(Field(profile, "uid"))
    ensures Truthy(Field(profile, "uid")) && collection.None? ==> page.NoProperties?
    ensures page.Showing? ==> |page.properties| > 0 && page.selected == page.properties[0]
    ensures page.Showing? ==> collection.Some? && |page.properties| <= |collection.value|
  {
    if !Truthy(Field(profile, "uid")) then Loading
    else if collection.None? then NoProperties
    else
      var listed := Seqs.Map(PropertyView, Seqs.Filter(Query(profile), collection.value));
      if |listed| == 0 then NoProperties else Showing(listed, listed[0])
  }

  /** Every property shown is the view of a stored property the query
      selects. */
  lemma ShowsOnlyManaged(profile: Doc, docs: seq<Stored>)
    requires Truthy(Get(profile, "uid"))
    ensures var page := ManagementPage(Some(profile), Some(docs));
      page.Showing? ==> forall i :: 0 <= i < |page.properties| ==>
        exists t :: t in docs && Managed(Get(profile, "role"), Get(profile, "uid").value, t) && page.properties[i] == PropertyView(t)
  {
    var kept := Seqs.Filter(Query(Some(profile)), docs);
    var listed := Seqs.Map(PropertyView, kept);
    forall i | 0 <= i < |listed|
      ensures exists t :: t in docs && Managed(Get(profile, "role"), Get(profile, "uid").value, t) && listed[i] == PropertyView(t)
    {
      assert kept[i] in docs && Query(Some(profile))(kept[i]);
    }
  }

  /** Every stored property the query selects is shown, so the page is empty
      only when none is selected. */
  lemma ShowsEveryManaged(profile: Doc, docs: seq<Stored>, s: Stored)
    requires Truthy(Get(profile, "uid"))
    ensures var page := ManagementPage(Some(profile), Some(docs));
      s in docs && Managed(Get(profile, "role"), Get(profile, "uid").value, s) ==>
        page.Showing? && PropertyView(s) in page.properties
  {
    if s in docs && Managed(Get(profile, "role"), Get(profile, "uid").value, s) {
      Seqs.MapOfFilter(PropertyView, Query(Some(profile)), docs, s);
    }
  }

  /** A listing created through the wizard records its owner as `ownerId` and
      starts out pending, so it is not among the properties this page fetches
      for its owner, nor among the approved ones. */
  lemma NewListingNotManagedByItsOwner(form: Doc, uid: string, profile: Option<Doc>, stamp: Value, id: string)
    requires "ownerUid" !in form
    ensures var d := CreateListing.CreateProperty(CreateListing.SubmittedListing(form, uid, profile), stamp);
      !Managed(Some(Str("owner")), Str(uid), Stored(id, d)) &&
      !Managed(Some(Str("admin")), Str(uid), Stored(id, d))
  {
    CreateListing.StoredListing(form, uid, profile, stamp);
  }
}

=== FILE: realtormanagement.dfy ===
/** The realtor's referrals page: each referred project's carried equity and
    defaults, and the totals over all referrals. */
module RealtorManagement {
  import opened Records
  import Seqs
  import ProjectWorkspace

  /** `e.party === 'Realtor' || e.realtorId === uid` for a ledger entry. */
  predicate IsRealtorEntry(uid: Value, e: Value)
  {
    e.Obj? && (IsText(Get(e.fields, "party"), "Realtor") || Get(e.fields, "realtorId") == Some(uid))
  }

  /** `realtorEquity ? realtorEquity.pct : (data.realtorCarriedEquity || 0)`,
      where `realtorEquity` is the first realtor entry of the ledger. */
  function CarriedEquity(uid: Value, data: Doc): (carried: Option<Value>)
    ensures var ledger := ListOr(Get(data, "equityLedger"));
      forall i ::
        (0 <= i < |ledger| && IsRealtorEntry(uid, ledger[i]) && forall j :: 0 <= j < i ==> !IsRealtorEntry(uid, ledger[j]))
        ==> carried == Get(ledger[i].fields, "pct")
    ensures var ledger := ListOr(Get(data, "equityLedger"));
      (forall i :: 0 <= i < |ledger| ==> !IsRealtorEntry(uid, ledger[i])) ==>
        carried == Some(Or(Get(data, "realtorCarriedEquity"), Num(0)))
  {
    var ledger := ListOr(Get(data, "equityLedger"));
    var i := Seqs.FindIndex(e => IsRealtorEntry(uid, e), ledger);
    if i >= 0 then Get(ledger[i].fields, "pct")
    else Some(Or(Get(data, "realtorCarriedEquity"), Num(0)))
  }

  /** The carried equity is shown as stored: nothing holds it to the one
      percent the page's subtitle promises. The workspace's fallback ledger,
      when stored, gives the realtor its one percent. */
  lemma CarriedEquityIsNotCapped(uid: Value, data: Doc, pct: int)
    requires Get(data, "equityLedger") == Some(List([Obj(map["party" := Str("Realtor"), "pct" := Num(pct)])]))
    ensures CarriedEquity(uid, data) == Some(Num(pct))
    ensures var ledger := Seqs.Map(ProjectWorkspace.ShareValue, ProjectWorkspace.FallbackLedger);
      CarriedEquity(uid, data["equityLedger" := List(ledger)]) == Some(Num(1))
  {
    var ledger := Seqs.Map(ProjectWorkspace.ShareValue, ProjectWorkspace.FallbackLedger);
    var d := data["equityLedger" := List(ledger)];
    assert ListOr(Get(d, "equityLedger")) == ledger;
    assert IsRealtorEntry(uid, ledger[3]) && Get(ledger[3].fields, "pct") == Some(Num(1));
    forall j | 0 <= j < 3 ensures !IsRealtorEntry(uid, ledger[j]) {
      assert Get(ledger[j].fields, "realtorId") == None;
    }
  }

  /** One referral as the page shows it, with defaults for missing fields. */
  datatype Referral = Referral(
    id: string, projectName: Value, ownerName: Value, propertyCity: Value, status: Value,
    carriedEquity: Option<Value>, vested: Value, vestingCondition: Value,
    estimatedValue: Value, paidOut: Value)

  function ReferralOf(uid: Value, s: Stored): Referral
  {
    var d := s.data;
    Referral(
      s.id, Or(Get(d, "name"), Str("Unnamed Project")), Or(Get(d, "ownerName"), Str("Property Owner")),
      Or(Get(d, "propertyCity"), Str("Unknown City")), Or(Get(d, "status"), Str("active")),
      CarriedEquity(uid, d), Or(Get(d, "realtorVested"), Bool(false)),
      Or(Get(d, "realtorVestingCondition"), Str("Project completion")),
      Or(Get(d, "realtorEstimatedValue"), Num(0)), Or(Get(d, "realtorPaidOut"), Num(0)))
  }

  /** A project stored without the realtor fields reads as active, unvested,
      vesting on completion, worth nothing yet and paid nothing. */
  lemma ReferralDefaults(uid: Value, s: Stored)
    ensures !Truthy(Get(s.data, "status")) ==> ReferralOf(uid, s).status == Str("active")
    ensures !Truthy(Get(s.data, "realtorVested")) ==> ReferralOf(uid, s).vested == Bool(false)
    ensures !Truthy(Get(s.data, "realtorVestingCondition")) ==> ReferralOf(uid, s).vestingCondition == Str("Project completion")
    ensures !Truthy(Get(s.data, "realtorEstimatedValue")) ==> ReferralOf(uid, s).estimatedValue == Num(0)
    ensures !Truthy(Get(s.data, "realtorPaidOut")) ==> ReferralOf(uid, s).paidOut == Num(0)
    ensures s.data == map[] ==> ReferralOf(uid, s).carriedEquity == Some(Num(0))
  {
  }

  /** `where('realtorId', '==', uid)` */
  predicate ReferredBy(uid: Value, s: Stored)
  {
    Get(s.data, "realtorId") == Some(uid)
  }

  /** The query as a test on stored documents. */
  function Referred(uid: Value): Stored -> bool
  {
    s => ReferredBy(uid, s)
  }

  /** The referral view as a function of the stored project. */
  function ViewOf(uid: Value): Stored -> Referral
  {
    s => ReferralOf(uid, s)
  }

  /** The referrals listed for a profile: none without a uid or when the fetch
      fails (`None`). */
  function Referrals(profile: Option<Doc>, collection: Option<seq<Stored>>): (refs: seq<Referral>)
    ensures !Truthy(Field(profile, "uid")) || collection.None? ==> refs == []
    ensures collection.Some? && Truthy(Field(profile, "uid")) ==>
      |refs| == Seqs.Count(Referred(Field(profile, "uid").value), collection.value)
  {
    var uid := Field(profile, "uid");
    if !Truthy(uid) || collection.None? then []
    else Seqs.Map(ViewOf(uid.value), Seqs.Filter(Referred(uid.value), collection.value))
  }

  /** Every listed referral is the view of a project the realtor referred. */
  lemma ListsOnlyReferred(profile: Doc, docs: seq<Stored>)
    requires Truthy(Get(profile, "uid"))
    ensures var uid := Get(profile, "uid").value;
      var refs := Referrals(Some(profile), Some(docs));
      forall i :: 0 <= i < |refs| ==> exists s :: s in docs && ReferredBy(uid, s) && refs[i] == ReferralOf(uid, s)
  {
    var uid := Get(profile, "uid").value;
    var kept := Seqs.Filter(Referred(uid), docs);
    var refs := Referrals(Some(profile), Some(docs));
    assert refs == Seqs.Map(ViewOf(uid), kept);
    forall i | 0 <= i < |refs|
      ensures exists s :: s in docs && ReferredBy(uid, s) && refs[i] == ReferralOf(uid, s)
    {
      assert kept[i] in docs && Referred(uid)(kept[i]);
      assert ReferredBy(uid, kept[i]) && refs[i] == ReferralOf(uid, kept[i]);
    }
    assert forall i :: 0 <= i < |refs| ==> exists s :: s in docs && ReferredBy(uid, s) && refs[i] == ReferralOf(uid, s);
    assert Referrals(Some(profile), Some(docs)) == refs;
  }

  /** Every project the realtor referred is listed. */
  lemma ListsEveryReferred(profile: Doc, docs: seq<Stored>, s: Stored)
    requires Truthy(Get(profile, "uid"))
    ensures var uid := Get(profile, "uid").value;
      s in docs && ReferredBy(uid, s) ==> ReferralOf(uid, s) in Referrals(Some(profile), Some(docs))
  {
    var uid := Get(profile, "uid").value;
    if s in docs && ReferredBy(uid, s) {
      Seqs.MapOfFilter(ViewOf(uid), Referred(uid), docs, s);
    }
  }

  function Estimated(r: Referral): int
  {
    IntOr(Some(r.estimatedValue), 0)
  }

  /** `r.paidOut || 0` */
  function Paid(r: Referral): int
  {
    IntOr(Some(r.paidOut), 0)
  }

  /** `r.status` */
  function StatusOf(r: Referral): Option<Value>
  {
    Some(r.status)
  }

  predicate IsActive(r: Referral)
  {
    IsText(StatusOf(r), "active")
  }

  function TotalEstimated(refs: seq<Referral>): int
  {
    Seqs.SumOf(Estimated, refs)
  }

  function TotalPaid(refs: seq<Referral>): int
  {
    Seqs.SumOf(Paid, refs)
  }

  /** `referrals.filter(r => r.status === 'active').length` */
  function ActiveReferrals(refs: seq<Referral>): nat
  {
    CountActive(StatusOf, refs)
  }

  /** The totals add up over a split of the referrals; every referral is
      active exactly when the count equals the number of referrals, which is
      the case when no project has a status of its own. */
  lemma ReferralTotals(a: seq<Referral>, b: seq<Referral>, uid: Value, docs: seq<Stored>)
    ensures TotalEstimated(a + b) == TotalEstimated(a) + TotalEstimated(b)
    ensures TotalPaid(a + b) == TotalPaid(a) + TotalPaid(b)
    ensures ActiveReferrals(a + b) == ActiveReferrals(a) + ActiveReferrals(b)
    ensures ActiveReferrals(a) == |a| <==> forall i :: 0 <= i < |a| ==> IsActive(a[i])
    ensures (forall i :: 0 <= i < |docs| ==> !Truthy(Get(docs[i].data, "status"))) ==>
      ActiveReferrals(Seqs.Map(s => ReferralOf(uid, s), docs)) == |docs|
  {
    Seqs.SumOfAppend(Estimated, a, b);
    Seqs.SumOfAppend(Paid, a, b);
    CountActiveAppend(StatusOf, a, b);
  }
}

=== FILE: records.dfy ===
/** Documents as the pages see them: plain JavaScript objects read from the
    document database. A field may be missing, and `a || b` picks a default when
    it is missing or falsy. */
module Records {
  import Seqs

  datatype Option<+T> = None | Some(value: T)

  /** A field value. Numbers are integers in this model. */
  datatype Value =
    | Str(s: string)
    | Num(n: int)
    | Bool(b: bool)
    | List(items: seq<Value>)
    | Obj(fields: map<string, Value>)

  /** One document (or one plain object): field name to value. */
  type Doc = map<string, Value>

  /** A document as a query returns it: its id and its fields. */
  datatype Stored = Stored(id: string, data: Doc)

  /** `{ id: d.id, ...d.data() }`: the fields with the id in front; a stored
      `id` field wins. */
  function WithId(s: Stored): (d: Doc)
    ensures d.Keys == s.data.Keys + {"id"}
    ensures "id" !in s.data ==> d["id"] == Str(s.id)
    ensures forall k :: k in s.data ==> d[k] == s.data[k]
  {
    map["id" := Str(s.id)] + s.data
  }

  /** `d[k]`, which is `undefined` when the field is missing. */
  function Get(d: Doc, k: string): Option<Value>
  {
    if k in d then Some(d[k]) else None
  }

  /** `d?.[k]`: a field of a document that may itself be missing. */
  function Field(d: Option<Doc>, k: string): Option<Value>
  {
    if d.None? then None else Get(d.value, k)
  }

  /** JavaScript truthiness of a possibly missing value:
      `undefined`, `""`, `0` and `false` are falsy; arrays and objects are truthy. */
  predicate Truthy(v: Option<Value>)
  {
    match v
    case None => false
    case Some(Str(s)) => s != ""
    case Some(Num(n)) => n != 0
    case Some(Bool(b)) => b
    case Some(List(_)) => true
    case Some(Obj(_)) => true
  }

  /** `v || fallback` */
  function Or(v: Option<Value>, fallback: Value): (r: Value)
    ensures Truthy(v) ==> Some(r) == v
    ensures !Truthy(v) ==> r == fallback
  {
    if Truthy(v) then v.value else fallback
  }

  /** `v || fallback` for a text field: the text if it is a non-empty string,
      otherwise the fallback. */
  function StrOr(v: Option<Value>, fallback: string): string
  {
    match v
    case Some(Str(s)) => if s != "" then s else fallback
    case _ => fallback
  }

  /** `v || fallback` for a numeric field: the number if it is non-zero,
      otherwise the fallback. */
  function IntOr(v: Option<Value>, fallback: int): int
  {
    match v
    case Some(Num(n)) => if n != 0 then n else fallback
    case _ => fallback
  }

  /** `v || []` for an array field. */
  function ListOr(v: Option<Value>): seq<Value>
  {
    match v
    case Some(List(xs)) => xs
    case _ => []
  }

  /** `v || false` for a flag. */
  function FlagOf(v: Option<Value>): bool
  {
    match v
    case Some(Bool(b)) => b
    case _ => false
  }

  /** `v === "text"` */
  predicate IsText(v: Option<Value>, text: string)
  {
    v == Some(Str(text))
  }

  /** `x.status === 'active'`, for items whose status `statusOf` reads. */
  function ActiveTest<T>(statusOf: T -> Option<Value>): T -> bool
  {
    x => IsText(statusOf(x), "active")
  }

  /** `xs.filter(x => x.status === 'active').length`: the investment and
      referral pages count their active entries this way. */
  function CountActive<T(==)>(statusOf: T -> Option<Value>, xs: seq<T>): (n: nat)
    ensures n <= |xs|
    ensures n == |xs| <==> forall i :: 0 <= i < |xs| ==> IsText(statusOf(xs[i]), "active")
  {
    Seqs.FilterFullIffAll(ActiveTest(statusOf), xs);
    Seqs.Count(ActiveTest(statusOf), xs)
  }

  /** The active count adds up over a split of the list. */
  lemma CountActiveAppend<T>(statusOf: T -> Option<Value>, a: seq<T>, b: seq<T>)
    ensures CountActive(statusOf, a + b) == CountActive(statusOf, a) + CountActive(statusOf, b)
  {
    Seqs.FilterAppend(ActiveTest(statusOf), a, b);
  }

  /** `{...base, ...over}`: fields of `over` win. */
  function Spread(base: Doc, over: Doc): (r: Doc)
    ensures r.Keys == base.Keys + over.Keys
    ensures forall k :: Get(r, k) == (if k in over then Get(over, k) else Get(base, k))
  {
    base + over
  }

  /** Two documents agree on every field outside `keys`. */
  ghost predicate SameOutside(a: Doc, b: Doc, keys: set<string>)
  {
    forall k :: k !in keys ==> Get(a, k) == Get(b, k)
  }
}

=== FILE: routeguard.dfy ===
/** `PrivateRoute`: what a protected page renders, given the auth session and
    the loaded profile. */
module RouteGuard {
  import opened Records
  import opened Profiles

  /** The four outcomes of the guard. */
  datatype Gate = LoadingFallback | RedirectToLogin | RedirectToPendingApproval | ShowChildren

  /** The guard's decision. `loading` is the auth listener's flag, `signedIn`
      whether there is a current user, and `profile` the profile document once
      it has been loaded. The session checks come before any profile check. */
  function PrivateRoute(loading: bool, signedIn: bool, profile: Option<Doc>): (g: Gate)
    ensures loading ==> g == LoadingFallback
    ensures !loading && !signedIn ==> g == RedirectToLogin
    ensures !loading && signedIn && profile.None? ==> g == LoadingFallback
    ensures g == ShowChildren ==> !loading && signedIn && profile.Some?
  {
    if loading then LoadingFallback
    else if !signedIn then RedirectToLogin
    else if profile.None? then LoadingFallback
    else if IsText(Get(profile.value, "approvalStatus"), "pending") && !IsText(Get(profile.value, "role"), "admin") then
      RedirectToPendingApproval
    else if IsText(Get(profile.value, "approvalStatus"), "rejected") && !IsText(Get(profile.value, "role"), "admin") then
      RedirectToLogin
    else ShowChildren
  }

  /** Once the session and profile are loaded, a non-admin is routed by its
      approval state alone: pending waits for approval, rejected goes back to
      the login page, and approved, missing or any other value is let in. */
  lemma NonAdminRoutedByApproval(p: Doc)
    requires !IsAdminProfile(p)
    ensures ApprovalOf(p) == Some(Pending) <==> PrivateRoute(false, true, Some(p)) == RedirectToPendingApproval
    ensures ApprovalOf(p) == Some(Rejected) <==> PrivateRoute(false, true, Some(p)) == RedirectToLogin
    ensures ApprovalOf(p) !in {Some(Pending), Some(Rejected)} <==> PrivateRoute(false, true, Some(p)) == ShowChildren
  {
    assert HasApproval(p, Pending) <==> ApprovalOf(p) == Some(Pending);
    assert HasApproval(p, Rejected) <==> ApprovalOf(p) == Some(Rejected);
  }

  /** An admin reaches the page whatever its approval state. */
  lemma AdminAlwaysAdmitted(p: Doc)
    requires IsAdminProfile(p)
    ensures PrivateRoute(false, true, Some(p)) == ShowChildren
  {
  }

  /** The guard admits exactly the loaded sessions whose profile is an admin or
      is neither pending nor rejected. */
  lemma AdmittedIff(loading: bool, signedIn: bool, profile: Option<Doc>)
    ensures PrivateRoute(loading, signedIn, profile) == ShowChildren <==>
      (!loading && signedIn && profile.Some? &&
        (IsAdminProfile(profile.value) || ApprovalOf(profile.value) !in {Some(Pending), Some(Rejected)}))
  {
    if !loading && signedIn && profile.Some? {
      var p := profile.value;
      assert HasApproval(p, Pending) <==> ApprovalOf(p) == Some(Pending);
      assert HasApproval(p, Rejected) <==> ApprovalOf(p) == Some(Rejected);
    }
  }
}

=== FILE: seqs.dfy ===
/** Order-preserving filtering, counting, summing and flattening of sequences:
    the array operations (`filter`, `length`, `reduce`, `flatMap`, `new Set`)
    the pages apply to the records they load. */
module Seqs {

  /** `a` is obtained from `b` by deleting elements; the rest keep their order. */
  predicate IsSubseq<T(==)>(a: seq<T>, b: seq<T>)
    decreases |b|
  {
    |a| == 0 ||
    (|b| > 0 && ((a[0] == b[0] && IsSubseq(a[1..], b[1..])) || IsSubseq(a, b[1..])))
  }

  /** `Array.prototype.filter`: the elements satisfying `p`, in their original order. */
  function Filter<T(==)>(p: T -> bool, s: seq<T>): (r: seq<T>)
    ensures |r| <= |s|
    ensures forall i :: 0 <= i < |r| ==> r[i] in s && p(r[i])
    ensures forall i :: 0 <= i < |s| && p(s[i]) ==> s[i] in r
  {
    if |s| == 0 then []
    else if p(s[0]) then [s[0]] + Filter(p, s[1..])
    else Filter(p, s[1..])
  }

  /** Filtering only deletes elements: the survivors keep their order. */
  lemma {:induction false} FilterIsSubseq<T>(p: T -> bool, s: seq<T>)
    ensures IsSubseq(Filter(p, s), s)
  {
    if |s| > 0 {
      FilterIsSubseq(p, s[1..]);
    }
  }

  /** An element is in the filtered sequence exactly when it is in `s` and satisfies `p`. */
  lemma FilterMembership<T>(p: T -> bool, s: seq<T>, x: T)
    ensures x in Filter(p, s) <==> x in s && p(x)
  {
  }

  /** `s.filter(p).map(f)` holds the image of every kept element. */
  lemma MapOfFilter<T, U>(f: T -> U, p: T -> bool, s: seq<T>, x: T)
    requires x in s && p(x)
    ensures f(x) in Map(f, Filter(p, s))
  {
    var kept := Filter(p, s);
    var j :| 0 <= j < |kept| && kept[j] == x;
    assert Map(f, kept)[j] == f(x);
  }

  /** `s.filter(p).length` */
  function Count<T(==)>(p: T -> bool, s: seq<T>): nat
  {
    |Filter(p, s)|
  }

  lemma {:induction false} FilterAppend<T>(p: T -> bool, a: seq<T>, b: seq<T>)
    ensures Filter(p, a + b) == Filter(p, a) + Filter(p, b)
  {
    if |a| > 0 {
      assert (a + b)[1..] == a[1..] + b;
      FilterAppend(p, a[1..], b);
    } else {
      assert a + b == b;
    }
  }

  /** Filtering with a predicate every element satisfies keeps the whole sequence. */
  lemma {:induction false} FilterKeepsAll<T>(p: T -> bool, s: seq<T>)
    requires forall i :: 0 <= i < |s| ==> p(s[i])
    ensures Filter(p, s) == s
  {
    if |s| > 0 {
      FilterKeepsAll(p, s[1..]);
    }
  }

  /** Filtering keeps every element exactly when every element satisfies `p`. */
  lemma {:induction false} FilterFullIffAll<T>(p: T -> bool, s: seq<T>)
    ensures |Filter(p, s)| == |s| <==> forall i :: 0 <= i < |s| ==> p(s[i])
  {
    if |s| > 0 {
      FilterFullIffAll(p, s[1..]);
      if |Filter(p, s)| == |s| {
        assert p(s[0]);
        forall i | 0 <= i < |s| ensures p(s[i]) {
          if i > 0 {
            assert s[i] == s[1..][i - 1];
          }
        }
      }
    }
  }

  /** Filtering with a predicate no element satisfies leaves nothing. */
  lemma {:induction false} FilterDropsAll<T>(p: T -> bool, s: seq<T>)
    requires forall i :: 0 <= i < |s| ==> !p(s[i])
    ensures Filter(p, s) == []
  {
    if |s| > 0 {
      FilterDropsAll(p, s[1..]);
    }
  }

  /** Filtering twice is filtering once with the conjunction. */
  lemma {:induction false} FilterFilter<T>(p: T -> bool, q: T -> bool, s: seq<T>)
    ensures Filter(p, Filter(q, s)) == Filter(x => p(x) && q(x), s)
  {
    if |s| > 0 {
      FilterFilter(p, q, s[1..]);
    }
  }

  /** Filters agreeing on every element of `s` give the same result. */
  lemma {:induction false} FilterCongruent<T>(p: T -> bool, q: T -> bool, s: seq<T>)
    requires forall i :: 0 <= i < |s| ==> p(s[i]) == q(s[i])
    ensures Filter(p, s) == Filter(q, s)
  {
    if |s| > 0 {
      FilterCongruent(p, q, s[1..]);
    }
  }

  /** Counting two mutually exclusive predicates separately adds up to counting
      their disjunction, so the two counts together never exceed the length. */
  lemma {:induction false} CountExclusive<T>(p: T -> bool, q: T -> bool, s: seq<T>)
    requires forall x :: !(p(x) && q(x))
    ensures Count(p, s) + Count(q, s) == Count(x => p(x) || q(x), s)
    ensures Count(p, s) + Count(q, s) <= |s|
  {
    if |s| > 0 {
      CountExclusive(p, q, s[1..]);
    }
  }

  /** `s.findIndex(p)`: the first index whose element satisfies `p`, or -1. */
  function FindIndex<T>(p: T -> bool, s: seq<T>): (i: int)
    ensures -1 <= i < |s|
    ensures i == -1 <==> forall j :: 0 <= j < |s| ==> !p(s[j])
    ensures i >= 0 ==> p(s[i]) && forall j :: 0 <= j < i ==> !p(s[j])
  {
    if |s| == 0 then -1
    else if p(s[0]) then 0
    else
      var k := FindIndex(p, s[1..]);
      if k == -1 then -1 else k + 1
  }

  /** Three pairwise exclusive predicates count no more elements than there are. */
  lemma {:induction false} CountExclusive3<T>(p: T -> bool, q: T -> bool, r: T -> bool, s: seq<T>)
    requires forall x :: !(p(x) && q(x)) && !(p(x) && r(x)) && !(q(x) && r(x))
    ensures Count(p, s) + Count(q, s) + Count(r, s) <= |s|
  {
    if |s| > 0 {
      CountExclusive3(p, q, r, s[1..]);
    }
  }

  /** A stricter predicate counts no more elements. */
  lemma {:induction false} CountMonotone<T>(p: T -> bool, q: T -> bool, s: seq<T>)
    requires forall x :: p(x) ==> q(x)
    ensures Count(p, s) <= Count(q, s)
  {
    if |s| > 0 {
      CountMonotone(p, q, s[1..]);
    }
  }

  /** `reduce((sum, x) => sum + f(x), 0)` */
  function SumOf<T>(f: T -> int, s: seq<T>): int
  {
    if |s| == 0 then 0 else f(s[0]) + SumOf(f, s[1..])
  }

  lemma {:induction false} SumOfAppend<T>(f: T -> int, a: seq<T>, b: seq<T>)
    ensures SumOf(f, a + b) == SumOf(f, a) + SumOf(f, b)
  {
    if |a| > 0 {
      assert (a + b)[1..] == a[1..] + b;
      SumOfAppend(f, a[1..], b);
    } else {
      assert a + b == b;
    }
  }

  /** A sum of non-negative terms is non-negative. */
  lemma {:induction false} SumOfNonNegative<T>(f: T -> int, s: seq<T>)
    requires forall i :: 0 <= i < |s| ==> f(s[i]) >= 0
    ensures SumOf(f, s) >= 0
  {
    if |s| > 0 {
      SumOfNonNegative(f, s[1..]);
    }
  }

  /** `s.map(f)` */
  function Map<T, U>(f: T -> U, s: seq<T>): (r: seq<U>)
    ensures |r| == |s|
    ensures forall i :: 0 <= i < |s| ==> r[i] == f(s[i])
  {
    seq(|s|, i requires 0 <= i < |s| => f(s[i]))
  }

  /** Mapping a non-empty sequence maps all but its last element, then that one. */
  lemma MapInit<T, U>(f: T -> U, s: seq<T>)
    requires |s| > 0
    ensures Map(f, s) == Map(f, s[..|s| - 1]) + [f(s[|s| - 1])]
  {
  }

  /** A non-empty sequence is all but its last element, then that one. */
  lemma InitLast<T>(s: seq<T>)
    requires |s| > 0
    ensures s == s[..|s| - 1] + [s[|s| - 1]]
  {
  }

  /** Every element ranks no lower than the ones before it. */
  predicate SortedBy<T>(rank: T -> int, s: seq<T>)
  {
    forall i, j :: 0 <= i < j < |s| ==> rank(s[i]) <= rank(s[j])
  }

  /** Sortedness follows from the order of neighbours. */
  lemma {:induction false} SortedFromAdjacent<T>(rank: T -> int, s: seq<T>)
    requires forall i :: 0 <= i < |s| - 1 ==> rank(s[i]) <= rank(s[i + 1])
    ensures SortedBy(rank, s)
  {
    if |s| > 1 {
      SortedFromAdjacent(rank, s[1..]);
      assert forall j :: 0 < j < |s| ==> rank(s[0]) <= rank(s[1]) <= rank(s[j]);
    }
  }

  /** A prefix of a sorted sequence is sorted. */
  lemma SortedPrefix<T>(rank: T -> int, a: seq<T>, b: seq<T>)
    requires SortedBy(rank, a + b)
    ensures SortedBy(rank, a)
  {
    forall i, j | 0 <= i < j < |a| ensures rank(a[i]) <= rank(a[j]) {
      assert a[i] == (a + b)[i] && a[j] == (a + b)[j];
    }
  }

  /** Filtering keeps a sequence sorted. */
  lemma {:induction false} FilterKeepsSorted<T>(p: T -> bool, rank: T -> int, s: seq<T>)
    requires SortedBy(rank, s)
    ensures SortedBy(rank, Filter(p, s))
  {
    if |s| > 0 {
      FilterKeepsSorted(p, rank, s[1..]);
      var rest := Filter(p, s[1..]);
      forall i | 0 <= i < |rest| ensures rank(s[0]) <= rank(rest[i]) {
        var k :| 0 <= k < |s[1..]| && s[1..][k] == rest[i];
        assert s[k + 1] == rest[i];
      }
      if p(s[0]) {
        SortedCons(rank, s[0], rest);
      }
    }
  }

  /** An element ranked no higher than a sorted list's elements can lead it. */
  lemma SortedCons<T>(rank: T -> int, x: T, rest: seq<T>)
    requires SortedBy(rank, rest)
    requires forall i :: 0 <= i < |rest| ==> rank(x) <= rank(rest[i])
    ensures SortedBy(rank, [x] + rest)
  {
    var s := [x] + rest;
    forall i, j | 0 <= i < j < |s| ensures rank(s[i]) <= rank(s[j]) {
      assert s[j] == rest[j - 1];
      if i > 0 {
        assert s[i] == rest[i - 1];
      }
    }
  }

  /** `flatMap(f)`: the concatenation of `f(x)` over `s`, in order. */
  function FlatMap<T, U>(f: T -> seq<U>, s: seq<T>): seq<U>
  {
    if |s| == 0 then [] else f(s[0]) + FlatMap(f, s[1..])
  }

  /** Summing the flattened rows is summing each row and then the row totals. */
  lemma {:induction false} SumOfFlatMap<T, U>(g: U -> int, f: T -> seq<U>, s: seq<T>)
    ensures SumOf(g, FlatMap(f, s)) == SumOf(x => SumOf(g, f(x)), s)
  {
    if |s| > 0 {
      SumOfAppend(g, f(s[0]), FlatMap(f, s[1..]));
      SumOfFlatMap(g, f, s[1..]);
    }
  }

  lemma {:induction false} FlatMapAppend<T, U>(f: T -> seq<U>, a: seq<T>, b: seq<T>)
    ensures FlatMap(f, a + b) == FlatMap(f, a) + FlatMap(f, b)
  {
    if |a| > 0 {
      assert (a + b)[1..] == a[1..] + b;
      FlatMapAppend(f, a[1..], b);
    } else {
      assert a + b == b;
    }
  }

  /** The length of the flattened rows is the sum of the row lengths. */
  lemma {:induction false} FlatMapLength<T, U>(f: T -> seq<U>, s: seq<T>)
    ensures |FlatMap(f, s)| == SumOf(x => |f(x)|, s)
  {
    if |s| > 0 {
      FlatMapLength(f, s[1..]);
    }
  }

  /** No element occurs twice. */
  predicate NoDuplicates<T(==)>(s: seq<T>)
  {
    forall i, j :: 0 <= i < j < |s| ==> s[i] != s[j]
  }

  /** Index of the first occurrence of `x` in `s`. */
  function FirstIndex<T(==)>(s: seq<T>, x: T): (i: nat)
    requires x in s
    ensures i < |s| && s[i] == x
    ensures forall j :: 0 <= j < i ==> s[j] != x
  {
    if s[0] == x then 0 else 1 + FirstIndex(s[1..], x)
  }

  /** `[...new Set(s)]`: the distinct elements of `s`, each at the place it is first seen. */
  function Distinct<T(==)>(s: seq<T>): (r: seq<T>)
    ensures NoDuplicates(r)
    ensures forall i :: 0 <= i < |r| ==> r[i] in s
    ensures forall i :: 0 <= i < |s| ==> s[i] in r
    decreases |s|
  {
    if |s| == 0 then []
    else
      var init := s[..|s| - 1];
      var last := s[|s| - 1];
      var d := Distinct(init);
      assert s == init + [last];
      if last in d then d else d + [last]
  }

  /** The distinct elements are the elements. */
  lemma DistinctMembership<T>(s: seq<T>, x: T)
    ensures x in Distinct(s) <==> x in s
  {
    var r := Distinct(s);
    if x in s {
      var i :| 0 <= i < |s| && s[i] == x;
      assert s[i] in r;
    }
    if x in r {
      var i :| 0 <= i < |r| && r[i] == x;
      assert r[i] in s;
    }
  }

  /** Appending one element adds it at the end unless it was already seen. */
  lemma DistinctSnoc<T>(s: seq<T>, x: T)
    ensures Distinct(s + [x]) == if x in s then Distinct(s) else Distinct(s) + [x]
  {
    var t := s + [x];
    assert t[..|t| - 1] == s && t[|t| - 1] == x;
  }

  /** The distinct elements are listed in the order they are first seen. */
  lemma {:induction false} DistinctKeepsFirstSeenOrder<T>(s: seq<T>)
    ensures forall i, j :: 0 <= i < j < |Distinct(s)| ==> FirstIndex(s, Distinct(s)[i]) < FirstIndex(s, Distinct(s)[j])
    decreases |s|
  {
    if |s| > 0 {
      var init := s[..|s| - 1];
      var last := s[|s| - 1];
      assert s == init + [last];
      DistinctKeepsFirstSeenOrder(init);
      FirstIndexOfPrefix(init, last);
    }
  }

  /** Helper for `Distinct`: first occurrences inside a prefix do not move when
      an element is appended; a new element is first seen at the end. */
  lemma FirstIndexOfPrefix<T>(init: seq<T>, last: T)
    ensures forall x :: x in init ==> FirstIndex(init + [last], x) == FirstIndex(init, x)
    ensures last !in init ==> FirstIndex(init + [last], last) == |init|
  {
    forall x | x in init
      ensures FirstIndex(init + [last], x) == FirstIndex(init, x)
    {
      var k := FirstIndex(init, x);
      var s := init + [last];
      assert s[k] == x;
      var m := FirstIndex(s, x);
      assert m <= k;
      assert s[m] == x;
    }
    if last !in init {
      var s := init + [last];
      assert s[|init|] == last;
    }
  }
}

=== FILE: signup.dfy ===
/** The signup form: its role choice and role-specific extra fields, the ordered
    checks run on submit, and the translation of provider errors. */
module Signup {
  import opened Records
  import opened Text
  import opened Permissions
  import opened Messages
  import Seqs

  /** What the form stores for an extra field: text inputs store their text,
      checkboxes their checked flag. */
  datatype FieldInput = TextInput(text: string) | CheckboxInput(checked: bool)

  /** The form state. */
  datatype SignupForm = SignupForm(
    name: string, email: string, password: string, role: string, agreed: bool,
    extra: map<string, FieldInput>)

  /** The role buttons on the form; admin is not among them. */
  const SignupRoles: seq<string> := ["owner", "developer", "investor", "realtor", "attorney", "property_manager"]

  /** Admin is not a role one can sign up for. */
  lemma AdminCannotSignUp()
    ensures "admin" !in SignupRoles
  {
  }

  /** The form as first shown: investor selected, nothing filled in. */
  const InitialForm := SignupForm("", "", "", "investor", false, map[])

  /** `ROLE_SIGNUP_FIELDS[role] || []` */
  function RoleFields(role: string): (fields: seq<SignupField>)
    ensures role !in RoleSignupFields ==> fields == []
    ensures role in RoleSignupFields ==> fields == RoleSignupFields[role]
  {
    if role in RoleSignupFields then RoleSignupFields[role] else []
  }

  /** Owners have no extra fields, and neither does a role without an entry. */
  lemma RolesWithoutExtraFields(role: string)
    ensures RoleFields("owner") == []
    ensures role !in SignupRoles ==> RoleFields(role) == []
  {
  }

  /** `!!extraFields[key]?.toString().trim()`: a checkbox value prints as
      `true` or `false`, so it always counts as filled. */
  predicate Filled(v: Option<FieldInput>)
  {
    match v
    case None => false
    case Some(TextInput(t)) => Trim(t) != ""
    case Some(CheckboxInput(_)) => true
  }

  function Lookup(extra: map<string, FieldInput>, key: string): Option<FieldInput>
  {
    if key in extra then Some(extra[key]) else None
  }

  /** A required field left empty. */
  predicate Missing(field: SignupField, extra: map<string, FieldInput>)
  {
    field.required && !Filled(Lookup(extra, field.key))
  }

  /** The index of the first required field left empty, or -1. */
  function FirstMissing(fields: seq<SignupField>, extra: map<string, FieldInput>): (i: int)
    ensures -1 <= i < |fields|
    ensures i == -1 <==> forall j :: 0 <= j < |fields| ==> !Missing(fields[j], extra)
    ensures i >= 0 ==> Missing(fields[i], extra) && forall j :: 0 <= j < i ==> !Missing(fields[j], extra)
  {
    Seqs.FindIndex(field => Missing(field, extra), fields)
  }

  const NameMessage := "Please enter your full name."
  const EmailMessage := "Please enter your email address."
  const PasswordMessage := "Password must be at least 6 characters."
  const TermsMessage := "Please accept the Terms of Service to continue."

  function FieldMessage(title: string): string
  {
    "Please fill in " + title + "."
  }

  /** The outcome of pressing submit: an error, or the arguments passed to `signup`. */
  datatype Outcome =
    | Invalid(message: string)
    | Submit(email: string, password: string, role: string, name: string, extra: map<string, FieldInput>)

  /** `handleSubmit`'s checks, in order; the first failure is reported. */
  function Validate(f: SignupForm): (o: Outcome)
    ensures o.Submit? <==>
      Trim(f.name) != "" && Trim(f.email) != "" && |f.password| >= 6 && f.agreed &&
      forall j :: 0 <= j < |RoleFields(f.role)| ==> !Missing(RoleFields(f.role)[j], f.extra)
    ensures o.Submit? ==> o == Submit(Trim(f.email), f.password, f.role, Trim(f.name), f.extra)
  {
    if Trim(f.name) == "" then Invalid(NameMessage)
    else if Trim(f.email) == "" then Invalid(EmailMessage)
    else if |f.password| < 6 then Invalid(PasswordMessage)
    else if !f.agreed then Invalid(TermsMessage)
    else
      var fields := RoleFields(f.role);
      var i := FirstMissing(fields, f.extra);
      if i >= 0 then Invalid(FieldMessage(fields[i].title))
      else Submit(Trim(f.email), f.password, f.role, Trim(f.name), f.extra)
  }

  /** The field messages differ from the four fixed messages. */
  lemma FieldMessageIsDistinct(title: string)
    ensures FieldMessage(title) != NameMessage && FieldMessage(title) != EmailMessage
    ensures FieldMessage(title) != PasswordMessage && FieldMessage(title) != TermsMessage
  {
    assert FieldMessage(title)[7] == 'f' && FieldMessage(title)[1] == 'l';
    assert NameMessage[7] == 'e' && EmailMessage[7] == 'e' && PasswordMessage[1] == 'a' && TermsMessage[7] == 'a';
  }

  /** Each fixed message is reported exactly when its check is the first to fail. */
  lemma ValidationOrder(f: SignupForm)
    ensures Validate(f) == Invalid(NameMessage) <==> Trim(f.name) == ""
    ensures Validate(f) == Invalid(EmailMessage) <==> Trim(f.name) != "" && Trim(f.email) == ""
    ensures Validate(f) == Invalid(PasswordMessage) <==>
      Trim(f.name) != "" && Trim(f.email) != "" && |f.password| < 6
    ensures Validate(f) == Invalid(TermsMessage) <==>
      Trim(f.name) != "" && Trim(f.email) != "" && |f.password| >= 6 && !f.agreed
  {
    var fields := RoleFields(f.role);
    var i := FirstMissing(fields, f.extra);
    if i >= 0 {
      FieldMessageIsDistinct(fields[i].title);
    }
  }

  /** Once the fixed checks pass, the first required field left empty is named. */
  lemma ReportsFirstMissingField(f: SignupForm, k: int)
    requires Trim(f.name) != "" && Trim(f.email) != "" && |f.password| >= 6 && f.agreed
    requires 0 <= k < |RoleFields(f.role)| && Missing(RoleFields(f.role)[k], f.extra)
    requires forall j :: 0 <= j < k ==> !Missing(RoleFields(f.role)[j], f.extra)
    ensures Validate(f) == Invalid(FieldMessage(RoleFields(f.role)[k].title))
  {
    var fields := RoleFields(f.role);
    assert FirstMissing(fields, f.extra) == k by {
      var i := FirstMissing(fields, f.extra);
      assert !(i < k) && !(k < i);
    }
  }

  /** A name or email of white space only is refused. */
  lemma BlankNameOrEmailRefused(f: SignupForm)
    ensures IsBlank(f.name) ==> Validate(f) == Invalid(NameMessage)
    ensures !IsBlank(f.name) && IsBlank(f.email) ==> Validate(f) == Invalid(EmailMessage)
  {
    TrimEmptyIffBlank(f.name);
    TrimEmptyIffBlank(f.email);
  }

  /** Choosing a role button clears every extra field. */
  function SelectRole(f: SignupForm, role: string): (g: SignupForm)
    ensures g.role == role && g.extra == map[]
    ensures g.name == f.name && g.email == f.email && g.password == f.password && g.agreed == f.agreed
  {
    f.(role := role, extra := map[])
  }

  /** Typing into, or ticking, an extra field. */
  function EditField(f: SignupForm, key: string, v: FieldInput): (g: SignupForm)
    ensures g.extra.Keys == f.extra.Keys + {key} && g.extra[key] == v
    ensures forall k :: k in f.extra && k != key ==> g.extra[k] == f.extra[k]
  {
    f.(extra := f.extra[key := v])
  }

  /** The extra fields held are fields of the selected role. */
  predicate ExtrasBelongToRole(f: SignupForm)
  {
    forall k :: k in f.extra ==> exists j :: 0 <= j < |RoleFields(f.role)| && RoleFields(f.role)[j].key == k
  }

  /** Starting fresh, choosing a role, and editing fields shown for that role
      keep the extra fields within the role's own fields. */
  lemma ExtrasStayWithRole(f: SignupForm, role: string, j: int, v: FieldInput)
    ensures ExtrasBelongToRole(InitialForm)
    ensures ExtrasBelongToRole(SelectRole(f, role))
    ensures ExtrasBelongToRole(f) && 0 <= j < |RoleFields(f.role)| ==>
      ExtrasBelongToRole(EditField(f, RoleFields(f.role)[j].key, v))
  {
  }

  /** The stored form of the extra fields. */
  function ExtraDoc(extra: map<string, FieldInput>): (d: Doc)
    ensures d.Keys == extra.Keys
  {
    map k | k in extra :: match extra[k] case TextInput(t) => Str(t) case CheckboxInput(b) => Bool(b)
  }

  /** No role's extra fields use one of the keys the profile itself sets. */
  lemma RoleFieldKeysAreNotReserved(role: string)
    ensures forall j :: 0 <= j < |RoleFields(role)| ==>
      RoleFields(role)[j].key !in {"uid", "email", "name", "role", "kycStatus", "approvalStatus", "createdAt", "updatedAt"}
  {
  }

  /** Extra fields of the selected role never carry the status or the role. */
  lemma ExtrasAreNotReserved(f: SignupForm)
    requires ExtrasBelongToRole(f)
    ensures "approvalStatus" !in f.extra && "role" !in f.extra
    ensures "approvalStatus" !in ExtraDoc(f.extra) && "role" !in ExtraDoc(f.extra)
  {
    RoleFieldKeysAreNotReserved(f.role);
  }

  /** The signup page's error rules, in order. */
  const SignupRules: seq<Rule> := [
    Rule("configuration-not-found",
      "Firebase project configuration error. Please ensure Firebase Authentication is properly set up in the Firebase Console."),
    Rule("operation-not-allowed",
      "Email/password sign-up is not enabled. Please enable it in Firebase Console \U{2192} Authentication \U{2192} Sign-in method \U{2192} Email/Password."),
    Rule("email-already-in-use", "An account with this email already exists. Try logging in instead."),
    Rule("weak-password", "Password must be at least 6 characters long."),
    Rule("invalid-email", "Please enter a valid email address."),
    Rule("network-request-failed", "Network error \U{2014} please check your connection.")]

  const GenericSignupError := "Unable to create account. Please check Firebase Console configuration or contact support."

  /** `msg.split('auth/')[1]?.split(')')[0] || 'Unknown error'` */
  function AuthErrorDetail(msg: string): (detail: string)
    requires Contains(msg, "auth/")
    ensures detail != "" && !Contains(detail, ")")
  {
    var code := FirstPiece(SecondPiece(msg, "auth/"), ")");
    if code != "" then code else
      MissingCharNotContained("Unknown error", ")", 0);
      "Unknown error"
  }

  /** `friendlyError` */
  function SignupFriendlyError(msg: string): string
  {
    var i := FirstFiring(SignupRules, msg);
    if i >= 0 then SignupRules[i].text
    else if Contains(msg, "auth/") then
      "Authentication error: " + AuthErrorDetail(msg) + ". Please check Firebase Console settings."
    else GenericSignupError
  }

  /** The first rule that fires decides the message; failing all rules, an
      `auth/` code is quoted back, and otherwise the generic text is shown. */
  lemma SignupErrorPriority(msg: string, k: int)
    requires 0 <= k < |SignupRules|
    ensures Fires(msg, SignupRules[k]) && (forall j :: 0 <= j < k ==> !Fires(msg, SignupRules[j])) ==>
      SignupFriendlyError(msg) == SignupRules[k].text
    ensures (forall j :: 0 <= j < |SignupRules| ==> !Fires(msg, SignupRules[j])) && Contains(msg, "auth/") ==>
      SignupFriendlyError(msg) == "Authentication error: " + AuthErrorDetail(msg) + ". Please check Firebase Console settings."
    ensures (forall j :: 0 <= j < |SignupRules| ==> !Fires(msg, SignupRules[j])) && !Contains(msg, "auth/") ==>
      SignupFriendlyError(msg) == GenericSignupError
  {
    TranslatePriority(SignupRules, msg, GenericSignupError, k);
  }
}

=== FILE: text.dfy ===
/** The string operations the pages use: `toLowerCase`, `includes`, `trim`,
    `indexOf` and `split`. Lower-casing covers the ASCII letters only. */
module Text {

  /** ASCII lower-casing of one character. */
  function LowerChar(c: char): char
  {
    if 'A' <= c <= 'Z' then (c as int + 32) as char else c
  }

  /** `s.toLowerCase()`, restricted to ASCII letters. */
  function Lower(s: string): (r: string)
    ensures |r| == |s|
    ensures forall i :: 0 <= i < |s| ==> r[i] == LowerChar(s[i])
  {
    seq(|s|, i requires 0 <= i < |s| => LowerChar(s[i]))
  }

  /** `sub` occurs in `s` starting at index `i`. */
  predicate OccursAt(s: string, sub: string, i: int)
  {
    0 <= i && i + |sub| <= |s| && s[i..i + |sub|] == sub
  }

  /** `s.includes(sub)` */
  predicate Contains(s: string, sub: string)
  {
    exists i | 0 <= i <= |s| - |sub| :: OccursAt(s, sub, i)
  }

  /** Case-insensitive `includes`, as the search boxes use it:
      `s.toLowerCase().includes(q.toLowerCase())`. */
  predicate ContainsIgnoringCase(s: string, q: string)
  {
    Contains(Lower(s), Lower(q))
  }

  /** Every string contains the empty string. */
  lemma ContainsEmpty(s: string)
    ensures Contains(s, "")
  {
    assert OccursAt(s, "", 0);
  }

  lemma ContainsIgnoringCaseEmpty(s: string)
    ensures ContainsIgnoringCase(s, "")
  {
    ContainsEmpty(Lower(s));
  }

  /** A string contains itself. */
  lemma ContainsSelf(s: string)
    ensures Contains(s, s)
  {
    assert OccursAt(s, s, 0);
  }

  /** A string lacking one of the characters of `sub` does not contain `sub`. */
  lemma MissingCharNotContained(s: string, sub: string, k: int)
    requires 0 <= k < |sub| && sub[k] !in s
    ensures !Contains(s, sub)
  {
    forall i | 0 <= i <= |s| - |sub| ensures !OccursAt(s, sub, i) {
      assert s[i + k] in s;
    }
  }

  /** The characters `String.prototype.trim` removes: white space and line terminators. */
  predicate IsSpace(c: char)
  {
    c == ' ' || c == '\t' || c == '\n' || c == '\r' || c == '\U{000B}' || c == '\U{000C}'
    || c == '\U{00A0}' || c == '\U{FEFF}' || c == '\U{1680}' || ('\U{2000}' <= c <= '\U{200A}')
    || c == '\U{2028}' || c == '\U{2029}' || c == '\U{202F}' || c == '\U{205F}' || c == '\U{3000}'
  }

  /** Nothing but white space (the empty string included). */
  predicate IsBlank(s: string)
  {
    forall i :: 0 <= i < |s| ==> IsSpace(s[i])
  }

  /** `trimStart`: the suffix left after dropping leading white space. */
  function TrimStart(s: string): (r: string)
    ensures |r| <= |s| && r == s[|s| - |r|..]
    ensures forall k :: 0 <= k < |s| - |r| ==> IsSpace(s[k])
    ensures |r| == 0 || !IsSpace(r[0])
  {
    if |s| > 0 && IsSpace(s[0]) then TrimStart(s[1..]) else s
  }

  /** `trimEnd`: the prefix left after dropping trailing white space. */
  function TrimEnd(s: string): (r: string)
    ensures |r| <= |s| && r == s[..|r|]
    ensures forall k :: |r| <= k < |s| ==> IsSpace(s[k])
    ensures |r| == 0 || !IsSpace(r[|r| - 1])
  {
    if |s| > 0 && IsSpace(s[|s| - 1]) then TrimEnd(s[..|s| - 1]) else s
  }

  /** `s.trim()` */
  function Trim(s: string): string
  {
    TrimEnd(TrimStart(s))
  }

  /** `trim` keeps a contiguous piece of `s` and removes only white space
      around it. */
  lemma TrimSpec(s: string)
    ensures exists i, j :: (0 <= i <= j <= |s| && Trim(s) == s[i..j]
      && (forall k :: 0 <= k < i ==> IsSpace(s[k]))
      && (forall k :: j <= k < |s| ==> IsSpace(s[k])))
  {
    var i, j := TrimWindow(s);
  }

  /** `trim` leaves no white space at either end. */
  lemma TrimEnds(s: string)
    ensures |Trim(s)| == 0 || (!IsSpace(Trim(s)[0]) && !IsSpace(Trim(s)[|Trim(s)| - 1]))
  {
    var t := TrimStart(s);
    var r := TrimEnd(t);
    if |r| > 0 {
      assert r[0] == t[0];
    }
  }

  /** The window of `s` that `trim` keeps. */
  lemma TrimWindow(s: string) returns (i: nat, j: nat)
    ensures i <= j <= |s| && Trim(s) == s[i..j]
    ensures forall k :: 0 <= k < i ==> IsSpace(s[k])
    ensures forall k :: j <= k < |s| ==> IsSpace(s[k])
  {
    var t := TrimStart(s);
    i := |s| - |t|;
    var r := TrimEnd(t);
    j := i + |r|;
    assert t == s[i..];
    forall k | j <= k < |s| ensures IsSpace(s[k]) {
      assert s[k] == t[k - i];
    }
  }

  /** One space on each side of a word is exactly what `trim` removes. */
  lemma TrimPadded(w: string)
    requires |w| > 0 && !IsSpace(w[0]) && !IsSpace(w[|w| - 1])
    ensures Trim(" " + w + " ") == w
  {
    var padded := " " + w + " ";
    assert padded[1..] == w + " ";
    assert TrimStart(padded) == TrimStart(w + " ");
    assert (w + " ")[0] == w[0];
    assert TrimStart(w + " ") == w + " ";
    assert (w + " ")[..|w|] == w;
    assert TrimEnd(w + " ") == TrimEnd(w);
  }

  /** `!s.trim()`: the trimmed string is empty exactly when `s` is blank. */
  lemma TrimEmptyIffBlank(s: string)
    ensures Trim(s) == "" <==> IsBlank(s)
  {
  }

  /** `s.indexOf(sub)`: the first index where `sub` occurs, or -1. */
  function IndexOf(s: string, sub: string): (i: int)
    ensures -1 <= i <= |s|
    ensures i == -1 <==> !Contains(s, sub)
    ensures i >= 0 ==> OccursAt(s, sub, i) && forall k :: 0 <= k < i ==> !OccursAt(s, sub, k)
  {
    IndexFrom(s, sub, 0)
  }

  /** First occurrence of `sub` at or after `from`, or -1. */
  function IndexFrom(s: string, sub: string, from: nat): (i: int)
    requires from <= |s| + 1
    ensures -1 <= i <= |s|
    ensures i == -1 <==> forall k :: from <= k <= |s| - |sub| ==> !OccursAt(s, sub, k)
    ensures i >= 0 ==> from <= i && OccursAt(s, sub, i) && forall k :: from <= k < i ==> !OccursAt(s, sub, k)
    decreases |s| + 1 - from
  {
    if from + |sub| > |s| then -1
    else if s[from..from + |sub|] == sub then assert OccursAt(s, sub, from); from
    else IndexFrom(s, sub, from + 1)
  }

  /** `s.split(sep)[1]` when `sep` occurs in `s`: the text between the first and
      the second occurrence of `sep` (or the end of `s`). */
  function SecondPiece(s: string, sep: string): (r: string)
    requires |sep| > 0 && Contains(s, sep)
    ensures !Contains(r, sep)
  {
    var i := IndexOf(s, sep);
    var rest := s[i + |sep|..];
    var j := IndexOf(rest, sep);
    if j == -1 then rest else PrefixHasNoOccurrence(rest, sep, j); rest[..j]
  }

  /** `s.split(sep)[0]`: the text before the first occurrence of `sep` (all of `s` if none). */
  function FirstPiece(s: string, sep: string): (r: string)
    requires |sep| > 0
    ensures !Contains(r, sep)
    ensures |r| <= |s| && r == s[..|r|]
  {
    var j := IndexOf(s, sep);
    if j == -1 then s else PrefixHasNoOccurrence(s, sep, j); s[..j]
  }

  /** A prefix ending at the first occurrence of `sep` does not contain `sep`. */
  lemma PrefixHasNoOccurrence(s: string, sep: string, j: int)
    requires 0 <= j <= |s| && |sep| > 0
    requires forall k :: 0 <= k < j ==> !OccursAt(s, sep, k)
    ensures !Contains(s[..j], sep)
  {
    forall k | 0 <= k <= j - |sep| ensures !OccursAt(s[..j], sep, k) {
      if OccursAt(s[..j], sep, k) {
        assert s[..j][k..k + |sep|] == s[k..k + |sep|];
        assert OccursAt(s, sep, k);
      }
    }
  }

  /** `s.split(' ')`: the pieces between single spaces; there is always at least one. */
  function SplitOnSpace(s: string): (pieces: seq<string>)
    ensures |pieces| >= 1
    ensures forall i :: 0 <= i < |pieces| ==> ' ' !in pieces[i]
  {
    if |s| == 0 then [""]
    else
      var rest := SplitOnSpace(s[1..]);
      if s[0] == ' ' then [""] + rest
      else [[s[0]] + rest[0]] + rest[1..]
  }

  /** A piece without spaces splits into itself. */
  lemma {:induction false} SplitOfWord(w: string)
    requires ' ' !in w
    ensures SplitOnSpace(w) == [w]
  {
    if |w| > 0 {
      SplitOfWord(w[1..]);
      assert [w[0]] + w[1..] == w;
    }
  }

  /** A word followed by a space splits off as the first piece. */
  lemma {:induction false} SplitAfterWord(w: string, rest: string)
    requires ' ' !in w
    ensures SplitOnSpace(w + " " + rest) == [w] + SplitOnSpace(rest)
  {
    var s := w + " " + rest;
    if |w| == 0 {
      assert s == " " + rest && s[1..] == rest;
    } else {
      assert s[1..] == w[1..] + " " + rest;
      SplitAfterWord(w[1..], rest);
      assert [w[0]] + w[1..] == w;
    }
  }
}

=== FILE: usermaintenance.dfy ===
/** The one-off maintenance helpers for user profiles: the backfill of a
    missing approval status over all users, manual approval, and promotion to
    admin. The user collection is the sequence of profile documents read. */
module UserMaintenance {
  import opened Records
  import opened Permissions
  import opened Profiles
  import Seqs

  /** A profile the backfill rewrites: its approval status is falsy. */
  predicate LacksStatus(u: Doc)
  {
    !Truthy(Get(u, "approvalStatus"))
  }

  /** The backfill of one profile: a profile lacking a status becomes pending. */
  function BackfillOne(u: Doc, now: string): (v: Doc)
    ensures LacksStatus(u) ==> ApprovalOf(v) == Some(Pending) && IsText(Get(v, "updatedAt"), now)
    ensures LacksStatus(u) ==> SameOutside(u, v, {"approvalStatus", "updatedAt"})
    ensures !LacksStatus(u) ==> v == u
    ensures !LacksStatus(v)
  {
    if LacksStatus(u) then
      var v := Spread(u, map["approvalStatus" := Str("pending"), "updatedAt" := Str(now)]);
      assert HasApproval(v, Pending);
      v
    else u
  }

  /** The profiles after the backfill, one for one. */
  function BackfillAll(users: seq<Doc>, now: string): (r: seq<Doc>)
    ensures |r| == |users|
    ensures forall i :: 0 <= i < |users| ==> r[i] == BackfillOne(users[i], now)
  {
    Seqs.Map(u => BackfillOne(u, now), users)
  }

  /** What the script returns: `{ success: true, updated }` or
      `{ success: false, error }`. */
  datatype Report = Succeeded(updated: nat) | Errored(error: string)

  /** The write for profile `i` is attempted and fails: `failAt` names the
      profile whose `updateDoc` rejects, and only profiles lacking a status
      are written at all. */
  predicate WriteFails(users: seq<Doc>, failAt: Option<nat>, i: nat)
  {
    failAt == Some(i) && i < |users| && LacksStatus(users[i])
  }

  /** No attempted write fails. */
  predicate AllWritesSucceed(users: seq<Doc>, failAt: Option<nat>)
  {
    failAt.None? || !WriteFails(users, failAt, failAt.value)
  }

  /** `updateExistingUsers`: rewrites the profiles lacking a status, one
      write at a time, and reports how many it rewrote. `readOk` says whether
      reading the collection succeeds; `failAt` names the profile whose write
      fails, if any; `message` is the error's message. A failure is caught
      once for the whole script: the writes already done stay done, the rest
      are never attempted, and no count is returned. */
  method UpdateExistingUsers(users: seq<Doc>, readOk: bool, failAt: Option<nat>, message: string, now: string)
    returns (stored: seq<Doc>, report: Report)
    ensures |stored| == |users|
    ensures !readOk ==> stored == users && report == Errored(message)
    ensures readOk && AllWritesSucceed(users, failAt) ==>
      stored == BackfillAll(users, now) && report == Succeeded(Seqs.Count(LacksStatus, users))
    ensures readOk && !AllWritesSucceed(users, failAt) ==>
      failAt.value < |users| && report == Errored(message) &&
      stored == BackfillAll(users[..failAt.value], now) + users[failAt.value..]
    ensures forall i :: 0 <= i < |users| && !LacksStatus(users[i]) ==> stored[i] == users[i]
  {
    if !readOk {
      return users, Errored(message);
    }
    var done, updated;
    stored, done, updated := WriteMissing(users, failAt, now);
    PartialUntouched(users, done, now);
    if done < |users| {
      report := Errored(message);
    } else {
      PartialEnds(users, now);
      assert users[..done] == users;
      report := Succeeded(updated);
    }
  }

  /** The loop of `updateExistingUsers`: writes the profiles lacking a
      status in order and stops at the first write that fails. `done` is the
      position it stopped at, `|users|` when every write succeeded;
      `updated` counts the writes that went through. */
  method WriteMissing(users: seq<Doc>, failAt: Option<nat>, now: string)
    returns (stored: seq<Doc>, done: nat, updated: nat)
    ensures done <= |users| && stored == Partial(users, done, now)
    ensures updated == Seqs.Count(LacksStatus, users[..done])
    ensures done < |users| <==> !AllWritesSucceed(users, failAt)
    ensures done < |users| ==> failAt == Some(done)
  {
    var handled: seq<Doc> := [];
    updated := 0;
    done := 0;
    while done < |users| && !WriteFails(users, failAt, done)
      invariant done <= StopAt(users, failAt)
      invariant handled == BackfillAll(users[..done], now)
      invariant updated == Seqs.Count(LacksStatus, users[..done])
    {
      BackfillStep(users, done, now);
      PastWrite(users, failAt, done);
      if LacksStatus(users[done]) {
        updated := updated + 1;
      }
      handled := handled + [BackfillOne(users[done], now)];
      done := done + 1;
    }
    Stopped(users, failAt, done);
    stored := handled + users[done..];
  }

  /** Where the run stops: at the failing write, or past the last profile. */
  function StopAt(users: seq<Doc>, failAt: Option<nat>): (n: nat)
    ensures n <= |users|
    ensures n < |users| <==> !AllWritesSucceed(users, failAt)
  {
    if AllWritesSucceed(users, failAt) then |users| else failAt.value
  }

  /** A profile whose write does not fail lies before the stopping point. */
  lemma PastWrite(users: seq<Doc>, failAt: Option<nat>, i: nat)
    requires i < |users| && i <= StopAt(users, failAt) && !WriteFails(users, failAt, i)
    ensures i + 1 <= StopAt(users, failAt)
  {
  }

  /** The loop ends exactly at the stopping point. */
  lemma Stopped(users: seq<Doc>, failAt: Option<nat>, i: nat)
    requires i <= StopAt(users, failAt)
    requires i < |users| ==> WriteFails(users, failAt, i)
    ensures i == StopAt(users, failAt)
    ensures i < |users| ==> failAt == Some(i)
  {
  }

  /** The profiles while the script runs: backfilled before `k`, untouched
      from `k` on. */
  function Partial(users: seq<Doc>, k: nat, now: string): (r: seq<Doc>)
    requires k <= |users|
    ensures |r| == |users|
  {
    BackfillAll(users[..k], now) + users[k..]
  }

  /** A profile that has a status is the same before and after any part of
      the run. */
  lemma PartialUntouched(users: seq<Doc>, k: nat, now: string)
    requires k <= |users|
    ensures forall j :: 0 <= j < |users| && !LacksStatus(users[j]) ==> Partial(users, k, now)[j] == users[j]
  {
    var r := Partial(users, k, now);
    assert forall j :: 0 <= j < k ==> r[j] == BackfillOne(users[j], now);
    assert forall j :: k <= j < |users| ==> r[j] == users[k..][j - k] == users[j];
  }

  /** After the last write every profile is backfilled. */
  lemma PartialEnds(users: seq<Doc>, now: string)
    ensures Partial(users, |users|, now) == BackfillAll(users, now)
  {
    assert users[..|users|] == users;
  }

  /** Running the script again after a failed write finishes the job: the
      profiles written before the failure are left alone, the rest are
      backfilled, and the second report counts only the rest. */
  lemma RerunCompletes(users: seq<Doc>, k: nat, now: string, later: string)
    requires k <= |users|
    ensures BackfillAll(BackfillAll(users[..k], now) + users[k..], later) ==
      BackfillAll(users[..k], now) + BackfillAll(users[k..], later)
    ensures Seqs.Count(LacksStatus, BackfillAll(users[..k], now) + users[k..]) == Seqs.Count(LacksStatus, users[k..])
  {
    var done := BackfillAll(users[..k], now);
    var r := BackfillAll(done + users[k..], later);
    var e := done + BackfillAll(users[k..], later);
    assert |r| == |e|;
    forall j | 0 <= j < |r|
      ensures r[j] == e[j]
    {
      if j < k {
        assert (done + users[k..])[j] == done[j];
      } else {
        assert (done + users[k..])[j] == users[k..][j - k];
      }
    }
    Seqs.FilterAppend(LacksStatus, done, users[k..]);
    Seqs.FilterDropsAll(LacksStatus, done);
  }

  /** One more profile handled: its backfill is appended and the count grows
      by one exactly when it lacks a status. */
  lemma BackfillStep(users: seq<Doc>, i: nat, now: string)
    requires i < |users|
    ensures BackfillAll(users[..i + 1], now) == BackfillAll(users[..i], now) + [BackfillOne(users[i], now)]
    ensures Seqs.Count(LacksStatus, users[..i + 1]) ==
      Seqs.Count(LacksStatus, users[..i]) + (if LacksStatus(users[i]) then 1 else 0)
  {
    var pre := users[..i + 1];
    assert pre[..|pre| - 1] == users[..i] && pre[|pre| - 1] == users[i];
    Seqs.MapInit(u => BackfillOne(u, now), pre);
    Seqs.InitLast(pre);
    Seqs.FilterAppend(LacksStatus, users[..i], [users[i]]);
  }

  /** After one run no profile lacks a status, so a second run rewrites
      nothing and changes nothing. */
  lemma BackfillIdempotent(users: seq<Doc>, now: string, later: string)
    ensures Seqs.Count(LacksStatus, BackfillAll(users, now)) == 0
    ensures BackfillAll(BackfillAll(users, now), later) == BackfillAll(users, now)
  {
    var r := BackfillAll(users, now);
    Seqs.FilterDropsAll(LacksStatus, r);
  }

  /** `approveUser`: the status and its timestamp, nothing else. */
  function ApproveUser(u: Doc, now: string): (v: Doc)
    ensures ApprovalOf(v) == Some(Approved) && IsText(Get(v, "approvedAt"), now)
    ensures SameOutside(u, v, {"approvalStatus", "approvedAt"})
    ensures Get(v, "role") == Get(u, "role") && Get(v, "updatedAt") == Get(u, "updatedAt")
  {
    var v := Spread(u, map["approvalStatus" := Str("approved"), "approvedAt" := Str(now)]);
    assert HasApproval(v, Approved);
    v
  }

  /** `makeUserAdmin`: role admin, approved, KYC verified. */
  function MakeUserAdmin(u: Doc, now: string): (v: Doc)
    ensures IsAdminProfile(v) && ApprovalOf(v) == Some(Approved)
    ensures IsText(Get(v, "kycStatus"), "verified") && IsText(Get(v, "updatedAt"), now)
    ensures SameOutside(u, v, {"role", "approvalStatus", "kycStatus", "updatedAt"})
  {
    var v := Spread(u, map[
      "role" := Str("admin"),
      "approvalStatus" := Str("approved"),
      "kycStatus" := Str("verified"),
      "updatedAt" := Str(now)]);
    assert HasApproval(v, Approved);
    v
  }
}
